=== FILE: README.md ===
# DITA publications front end: a Dafny model

This project models the publication-serving part of a small DITA
publishing proof of concept. It has four parts:

- a Node middle tier over a MarkLogic document store;
- a React front end;
- a search route.

Concretely, the model covers these pieces:

- **Sitemap builder** (`generateSitemaps`). It scans every envelope document of
  the `dita-envelope` collection. It buckets a summary of each document
  under its programme (DP, CP, MYP, PYP) and its subject. It then writes
  one snapshot per programme.
- **Read routes of the middle tier.** `/api/envelopes` and `/api/publications`
  are list projections over the same collection. Four single-document
  routes are keyed by `?uri=`. `/api/sitemap/:programme` serves a snapshot.
- **Landing page list** (`PublicationsList`). It loads the four sitemaps and
  orders them PYP, MYP, DP, CP. It displays the variant in the UI language
  and records a click.
- **Home page** (`HomePage`). It shows four programme columns and highlights
  publications that are new or changed since last seen. A click records
  the publication as seen and navigates to it.
- **Publication page** (`PublicationPage`). It settles an envelope URI, either
  from `?envUri=` or by a first-match search of the envelope summaries,
  and loads the envelope. The page stays mounted while its topics are
  opened, so it keeps its URI and envelope when a search finds nothing.
  It hands the topic tree to the left-hand menu (`LeftMenu`), which
  highlights topics changed since last seen.
- **Topic page** (`ContentPage`). It fetches a parsed topic, picks the root
  element, title and body, and renders the body with the DITA renderer
  (`DitaRenderer`).
- **Search route** (`routes/search.js`). It covers paging between page number
  and start index, the structured query built from facet constraints, the
  shaping of the store's reply, and the status the client receives.

The model is written over immutable datatypes and total functions.
JavaScript behaviour is stated explicitly:

- `||` falls back on any falsy value.
- Objects are association lists in key order.
- `Array.prototype.sort` is stable.
- `indexOf` returns -1 when the value is absent.
- `localStorage.setItem(k, undefined)` stores the text `undefined`.
- A `TypeError` the code would throw is a `Failure`, or a view named
  `Crashed` or `ServerCrash`.

Store reads, fetches, the clock, `encodeURIComponent`, the XML parser and
authentication are parameters or given outcomes.

Each operation has a partner:

- The sitemap scan is proved equal to an independent reference definition
  (`Sitemap.ScanIsReference`).
- The recursive left-hand menu is proved equal to an explicit-stack
  traversal (`TopicMenu.RenderWithStack`).
- The renderer, once it shows a number as its decimal text and a boolean
  as `true` or `false`, is proved to keep the text content of the parsed
  fragment
  (`DitaRender.RenderPreservesText`).
- Paging and query building are proved to round-trip
  (`Search.PageRoundTrip`, `Search.SelectionRoundTrip`).
- The programme sort is proved to be an ordered, stable permutation
  (`Catalog.SortByCorrect`).

## What the code does and does not do

Several things a reader of the application might expect are absent from
the code. The model follows the code in each case.

- **No translation groups.** The builder has no translation-group key. It
  buckets by programme and subject only, and a sitemap entry carries no
  `programme`, `envelopeUri` or `translationGroup`. The landing page still
  reads `groups`, `translationGroup` and `envelopeUri` from the sitemaps.
  `Catalog` models the shape the landing page reads.
- **No language fallback.** The publication page uses `?envUri=` as it is.
  Failing that, it takes the first envelope summary whose publication and
  programme are exactly equal to the route parameters. No other language
  is tried, and the match is case-sensitive.
- **No depth-based navigation.** The left-hand menu renders the whole topic
  tree. A topic page shows exactly one topic.
- **The programme default is DP.** A missing or empty programme header
  means `DP`. A programme that is not one of the exact upper-case codes
  is not folded to a default. For an ordinary name such as `dp` or `IB`,
  `sitemaps[programme]` is undefined, reading a subject of it throws, and
  the build stops (`Sitemap.ScanFailsAtFirstUnknown`). Names that every
  JavaScript object inherits behave differently (see `Sitemap.ParseProgramme`
  under "Left out").

## Model

| member | source | states |
|---|---|---|
| Sitemap.ParseProgramme | middle-tier/server.js:186-194 | only the exact codes DP, CP, MYP and PYP index the programme table; any other header value, including `dp`, has no table |
| Sitemap.Build | middle-tier/server.js:181-220 | a successful build writes four snapshots, in the order DP, CP, MYP, PYP, each named after its lower-cased code plus `.json` |
| Sitemap.ScanIsReference | middle-tier/server.js:188-215 | when every document names a known programme, each programme lists its distinct subjects in order of first appearance, each subject with the entries of exactly its documents in document order |
| Sitemap.ReferenceStep | middle-tier/server.js:188-205 | one more document changes only its own programme's subject list, by appending its entry to its subject or opening a new subject at the end |
| Sitemap.AddExisting | middle-tier/server.js:194-205 | a subject already present gets the entry appended to its own list, with every other subject unchanged |
| Sitemap.AddFresh | middle-tier/server.js:194-205 | a subject seen for the first time becomes a new one-entry list after all existing subjects |
| Sitemap.ScanFailsAtFirstUnknown | middle-tier/server.js:188-196 | the scan fails exactly when some document names an unknown programme, and the error carries the first such document's programme value |
| Sitemap.BuildSucceedsIff | middle-tier/server.js:181-220 | a build succeeds exactly when every document names one of the four codes; otherwise it reports the first offending value and writes nothing |
| Sitemap.BuildWithoutDocuments | middle-tier/server.js:186-219 | with no documents all four snapshots are still written, each with no subjects |
| Sitemap.BuildContents | middle-tier/server.js:208-219 | every snapshot of a successful build holds the reference subject list of its own programme |
| Sitemap.ReferenceBucketsWellFormed | middle-tier/server.js:194-197 | no subject appears twice within a programme, and no subject list is empty |
| Sitemap.EveryDocumentListed | middle-tier/server.js:188-205 | every document of a successful build appears, with its own entry, under its own programme and subject |
| Sitemap.ScanCount | middle-tier/server.js:188-206 | a successful scan lists exactly one entry per document: none dropped, none duplicated |
| Sitemap.ParseCode | middle-tier/server.js:216 | every code parses back to its programme, and its file name is the lower-cased code plus `.json` |
| Routes.Summaries | middle-tier/server.js:46-56 | one summary per document in store order, keeping the document URI; a non-empty publication, programme, subject or map URI header passes through, and an absent or empty one becomes `UntitledPub`, `DP`, an empty subject or an empty map URI; the timestamp passes through unchanged |
| Routes.SummaryAgainstSitemap | middle-tier/server.js:46-56 | the summary list and the sitemap agree on programme and map URI, but agree on the publication name only when the header names one (or the URI happens to be `UntitledPub`) |
| Routes.Publications | middle-tier/server.js:85-93 | one item per document, each pointing at the single-envelope route |
| Routes.PublicationsAgainstSitemap | middle-tier/server.js:85-93 | the publication list names, dates and classifies every document as a sitemap built at the same instant does |
| Routes.ReadRoute | middle-tier/server.js:64-174 | a missing or empty `?uri=` is a 400; an empty read is a 404; otherwise the first stored document is delivered, parsed for map and topic routes, with a content type for binary images |
| Routes.MissingUriIgnoresStore | middle-tier/server.js:64-174 | without a URI the answer is 400 whatever the store holds |
| Routes.ParsedRoutesSendNoText | middle-tier/server.js:107-151 | the map and topic routes never send unparsed text |
| Routes.SitemapRoute | middle-tier/server.js:256-264 | the path looked up is `sitemaps/` plus the lower-cased segment plus `.json`, normalised as `path.join` does, so `.` and `..` segments are resolved; a file existing at that path is sent, and anything else is a 404 |
| Routes.SitemapRouteIgnoresCase | middle-tier/server.js:257 | two segments that lower-case alike get the same answer, whatever files exist |
| Routes.PlainNameStaysInDirectory | middle-tier/server.js:257-259 | a segment without `/` is looked up directly in the sitemap directory, under its lower-cased name plus `.json` |
| Routes.SitemapRouteEscapes | middle-tier/server.js:257-260 | as written, a segment `../<name>` is sent the file `<name>.json` outside the sitemap directory, and `<other>/../<code>` reaches `sitemaps/<code>.json` by a detour |
| Routes.SafeSitemapRoute | middle-tier/server.js:256-264 | corrected route: a segment holding `/` is a 404; any other segment is answered from `sitemaps/` plus its lower-cased name plus `.json` |
| Routes.SafeRouteStaysInDirectory | middle-tier/server.js:256-264 | whatever the segment, the corrected route sends only a direct child of the sitemap directory |
| Routes.BuiltSitemapFound | middle-tier/server.js:256-264 | with the four built files in the sitemap directory, every name that lower-cases to one of the four codes finds its sitemap |
| Routes.OnlyBuiltSitemapFound | middle-tier/server.js:256-264 | while the sitemap directory holds only the four built files, no other name finds a sitemap |
| Paths.SplitAfterSegment | middle-tier/server.js:258 | a separator after a segment without `/` starts the next segment |
| Paths.TwoSegmentsNormal | middle-tier/server.js:258 | joining a directory and a plain file name changes nothing |
| Paths.ParentLeaves | middle-tier/server.js:258 | a `..` after the directory cancels it, leaving the bare file name |
| Paths.DetourRemoved | middle-tier/server.js:258 | a detour through a sibling directory and back is removed, leaving the file in the directory |
| Routes.WrittenAfterBuild | middle-tier/server.js:208-219 | a successful build leaves exactly `dp.json`, `cp.json`, `myp.json` and `pyp.json` |
| Routes.SitemapFoundAfterBuild | middle-tier/server.js:256-264 | with the corrected route, once a successful build's files are in the sitemap directory, every name that lower-cases to one of the four codes finds its sitemap; while the directory holds nothing else, no other name does |
| Routes.FileNames | middle-tier/server.js:216 | the four file names are `dp.json`, `cp.json`, `myp.json` and `pyp.json` |
| LastSeen.ClickPublication | ui/src/components/HomePage.js:48-51 | a click records the entry's timestamp under its own key, leaves every other key as it was, and the entry is no longer highlighted |
| LastSeen.ClickPublicationIdempotent | ui/src/components/HomePage.js:48-51 | clicking twice leaves the store as one click did |
| LastSeen.ClickPublicationLocal | ui/src/components/HomePage.js:35-51 | a click does not change the highlight of any other publication |
| LastSeen.PubKeyInjective | ui/src/components/HomePage.js:36 | distinct publications have distinct storage keys |
| LastSeen.KeysDisjoint | ui/src/components/LeftMenu.js:9-30 | a publication key is never a topic key |
| LastSeen.TopicHighlightCases | ui/src/components/LeftMenu.js:9-31 | no topic is highlighted while the publication was never opened or is unchanged since; otherwise a topic is highlighted exactly when never opened or changed since |
| LastSeen.ClickTopic | ui/src/components/LeftMenu.js:33-36 | a topic click records the topic's timestamp under its own key and leaves every other key as it was |
| LastSeen.ClickTopicClears | ui/src/components/LeftMenu.js:18-36 | after a topic click that topic is not highlighted, and the publication-level decision is unchanged |
| LastSeen.HomeClickSuppressesTopics | ui/src/components/HomePage.js:48-51 | opening a publication from the home page suppresses every topic highlight of its menu shown for the same timestamp |
| LastSeen.HomeItems | ui/src/components/HomePage.js:72-86 | one item per publication, in order, each carrying its own highlight decision |
| LastSeen.ProgrammeColumn | ui/src/components/HomePage.js:57-91 | a placeholder exactly while the sitemap is not loaded, otherwise every subject in order with all its publications; the heading is the upper-cased name |
| TopicMenu.RenderItems | ui/src/components/LeftMenu.js:41-58 | one item per topic at every depth, in document order, none shallower than its list |
| TopicMenu.RenderMenu | ui/src/components/LeftMenu.js:60-65 | the no-topics message exactly when the list is missing or empty, otherwise one item per topic |
| TopicMenu.ItemsHighlightTheirTopic | ui/src/components/LeftMenu.js:41-58 | every item carries the highlight decision of the topic listed at its position |
| TopicMenu.SuppressedMenuHasNoHighlight | ui/src/components/LeftMenu.js:11-19 | while the publication is unchanged since last opened, no item at any depth is highlighted |
| TopicMenu.SubtreeFollowsParent | ui/src/components/LeftMenu.js:41-58 | every topic is listed immediately before the listing of its own subtree |
| TopicMenu.PopStep | ui/src/components/LeftMenu.js:41-58 | popping a topic emits its item and owes its children, with fewer topics owed |
| TopicMenu.RenderWithStack | ui/src/components/LeftMenu.js:41-58 | an explicit-stack traversal produces exactly the recursive menu |
| Catalog.PutKeys | ui/src/components/PublicationsList.js:30 | storing a loaded sitemap adds exactly its key |
| Catalog.CollectKeys | ui/src/components/PublicationsList.js:19-39 | a programme is loaded exactly when some successful response named it; failed and non-OK fetches leave nothing |
| Catalog.IndexOf | ui/src/components/PublicationsList.js:45-49 | the first position of the value, or -1 exactly when it is absent |
| Catalog.RankOfCodes | ui/src/components/PublicationsList.js:45-49 | PYP, MYP, DP and CP rank 0 to 3 whatever their case; any other programme ranks -1 |
| Catalog.InsertPerm | ui/src/components/PublicationsList.js:46-50 | one insertion step adds exactly the inserted element |
| Catalog.InsertOrdered | ui/src/components/PublicationsList.js:46-50 | one insertion step keeps a list ordered by key |
| Catalog.InsertStable | ui/src/components/PublicationsList.js:46-50 | one insertion step puts the element after every equal-key element already present |
| Catalog.SortByCorrect | ui/src/components/PublicationsList.js:46-50 | the sort yields an ordered permutation in which equal keys keep their input order |
| Catalog.SortByRankCorrect | ui/src/components/PublicationsList.js:45-51 | programmes are shown ordered by rank, unknown ones first, none lost or added, ties in load order |
| Catalog.ListPage | ui/src/components/PublicationsList.js:19-51 | the loading message exactly when no sitemap loaded; otherwise all loaded programmes, ordered by rank |
| Catalog.FirstInLanguage | ui/src/components/PublicationsList.js:93-95 | the first variant whose language matches ignoring case, and none exactly when no variant matches |
| Catalog.Display | ui/src/components/PublicationsList.js:92-96 | a non-empty group always displays one of its own variants, and the first variant in the UI language whenever there is one |
| Catalog.DisplayChoice | ui/src/components/PublicationsList.js:92-96 | the first variant in the UI language, ignoring case, is shown when one exists, otherwise the group's first variant |
| Catalog.HandleClick | ui/src/components/PublicationsList.js:54-66 | a click records the parent's timestamp under its group key, remembers the parent's translation group (the text `undefined` when it has none) under `translationGroup_` plus the lower-cased programme, and navigates to the parent's envelope under the displayed variant's name and the lower-cased programme |
| Catalog.ClickIgnoresDisplayForEnvelope | ui/src/components/PublicationsList.js:54-66 | whichever variant is displayed, the click opens the same envelope and stores the same thing |
| Catalog.ClickClearsHighlight | ui/src/components/PublicationsList.js:55-56 | without a translation group, a click clears the home page's highlight of the publication |
| Catalog.ImageSuffix | ui/src/components/PublicationsList.js:70-73 | `Fr` exactly for French, `Sp` exactly for Spanish, `En` for every other language |
| Catalog.ImageSuffixAgreesWithList | ui/src/components/PublicationsList.js:70-95 | the logo and the list read the same lower-cased UI language: when a group has a variant in it, the logo is French or Spanish exactly when the variant shown is |
| PublicationPage.FindEnvelope | ui/src/components/PublicationPage.js:26-28 | the first summary with exactly the given publication and programme, and none exactly when no summary matches |
| PublicationPage.QueryUsedVerbatim | ui/src/components/PublicationPage.js:16-17 | a non-empty `envUri` is used as it is, whatever the envelope list holds |
| PublicationPage.LookupOutcome | ui/src/components/PublicationPage.js:17-41 | without `envUri`, the URI set is that of a matching summary; a failed fetch or no match sets none, and the page keeps the URI it already held |
| PublicationPage.CaseSensitiveMatch | ui/src/components/PublicationPage.js:26-28 | the landing page's lower-cased code of any programme, as a route, matches no summary in a list whose programmes are all codes, as every built list's are |
| PublicationPage.TopicsOf | ui/src/components/PublicationPage.js:73-74 | the menu input exists exactly when headers, instance and map are all present; missing `files` is an empty list |
| PublicationPage.PageView | ui/src/components/PublicationPage.js:65-74 | no URI wins over everything; a URI without an envelope shows the loading message; the page throws exactly when a loaded envelope lacks headers, instance or map; a shown page carries the envelope's timestamp and topics; every view that does not throw names the publication |
| PublicationPage.LoadedEnvelopeShown | ui/src/components/PublicationPage.js:65-74 | an envelope with headers, instance and map under a non-empty URI is shown with the headers' timestamp and the map's files, absent files being no topics |
| PublicationPage.MenuOf | ui/src/components/PublicationPage.js:76-91 | a menu exactly on a shown page, and the no-topics message exactly when the topic list is empty |
| PublicationPage.MissingFilesShowNoTopics | ui/src/components/PublicationPage.js:74 | an envelope whose map has no `files` shows the no-topics message |
| PublicationPage.SettleEnvUri | ui/src/components/PublicationPage.js:14-43 | the first effect sets a non-empty query value, or the first matching summary's URI; a failed fetch or no match keeps the previous state; the envelope is never touched |
| PublicationPage.LoadEnvelope | ui/src/components/PublicationPage.js:46-63 | the second effect replaces the envelope only with a fetched reply for a non-empty URI; otherwise, including a non-OK reply, the previous state stays; the URI is never touched |
| PublicationPage.TopicClickKeepsEnvelope | ui/src/components/PublicationPage.js:14-74 | for any programme, after the landing page opens a publication with `envUri` and the lower-cased code, a topic click that drops `envUri` leaves the state unchanged and the publication shown, whatever mix of codes the envelope list holds |
| PublicationPage.EnvelopeOutlivesUri | ui/src/components/PublicationPage.js:46-71 | once an envelope is loaded the loading message never returns, unless a reply lacks `envelope`; a pending, failed or non-OK fetch keeps the old envelope |
| PublicationPage.DeepLinkAsWritten | ui/src/components/PublicationPage.js:14-43 | as written, after any successful build a freshly mounted page reached with a lower-cased programme and no `envUri` shows "No envelope URI provided" |
| PublicationPage.DeepLinkResolves | ui/src/components/PublicationPage.js:26-28 | corrected lookup: the lower-cased route of any document with a publication header finds an envelope with that publication name and programme, the first one listed |
| PublicationPage.DeepLinkFindsFirstListed | ui/src/components/PublicationPage.js:26-30 | corrected lookup: for the first document listed with its publication name and programme, the lower-cased route finds that document's own envelope URI |
| PublicationPage.SummariesKnown | middle-tier/server.js:46-56 | when every document names a known code, every summary's programme is one of the four codes |
| PublicationPage.HomeRouteAsWrittenNeverResolves | ui/src/components/HomePage.js:54 | after any successful build, the home page's navigation as written never finds an envelope |
| PublicationPage.HomeRouteResolves | ui/src/components/PublicationPage.js:15-41 | with the programme code of the entry's column in the route, every titled publication resolves to an envelope of that programme and name |
| DitaRender.TagIsMappedOrDiv | ui/src/components/DitaRenderer.js:4-17 | every element becomes a mapped HTML tag or a `div`, and a mapped name always gets its own tag |
| DitaRender.NormalizeHref | ui/src/components/DitaRenderer.js:50-55 | the image path always starts with `/`, and a relative href is placed in `dita-images` |
| DitaRender.NormalizeHrefIdempotent | ui/src/components/DitaRenderer.js:50-55 | normalising twice changes nothing |
| DitaRender.ImageHref | ui/src/components/DitaRenderer.js:51-53 | reading the href throws exactly for a null node or a truthy href that is not a string; a missing href is empty |
| DitaRender.RenderImage | ui/src/components/DitaRenderer.js:50-61 | an image becomes an `img` whose source is the middle tier's image route for the encoded, normalised href, with the alt text or empty |
| DitaRender.Combine | ui/src/components/DitaRenderer.js:19-47 | children are collected left to right, and the first throw ends the walk |
| DitaRender.RenderNodeShape | ui/src/components/DitaRenderer.js:19-25 | strings render to themselves; numbers and booleans render to nothing as written and, once corrected, to the number's decimal text or to `true`/`false`; `null` renders to nothing; objects and arrays render to a fragment, and only they can throw |
| DitaRender.RenderElementShape | ui/src/components/DitaRenderer.js:49-66 | a non-image element wraps its value's rendering in the mapped tag and fails exactly when that does; an image is a childless `img` |
| DitaRender.FieldsCountMatches | ui/src/components/DitaRenderer.js:29-45 | an object renders to one child per `#text`, none per attribute, one per array item and one per other property |
| DitaRender.FanOutKeys | ui/src/components/DitaRenderer.js:37-41 | the items of an array-valued property become elements keyed `<name>-<index>`, in order |
| DitaRender.AttributesIgnored | ui/src/components/DitaRenderer.js:32-34 | the object's own `@_` keys never reach the output: an object renders as it does with those keys removed |
| DitaRender.RenderPreservesText | ui/src/components/DitaRenderer.js:19-66 | with numbers rendered as their decimal text and booleans as `true`/`false`, the rendered tree reads exactly as the text content of the parsed fragment, in document order |
| DitaRender.ScalarContentDropped | ui/src/components/DitaRenderer.js:23-24 | as written, a table cell holding the number 42 or the boolean `true` renders to an empty `td`, whose text is empty where the fragment's text is `42` or `true`; corrected, it reads `42` or `true` |
| DitaRender.CellRendering | ui/src/components/DitaRenderer.js:29-46 | a one-cell row renders as a `td` around its value's rendering, and reads as that rendering |
| ContentPage.NormalizeTopicId | ui/src/components/ContentPage.js:17-18 | the store URI always starts with `/`, and a bare id is placed in `dita-xml` |
| ContentPage.NormalizeTopicIdIdempotent | ui/src/components/ContentPage.js:17-18 | normalising twice changes nothing |
| ContentPage.TopicUrl | ui/src/components/ContentPage.js:13-19 | nothing is fetched exactly when the route has no topic id; otherwise the topic route carries the encoded store URI |
| ContentPage.TopicUrlSameTopic | ui/src/components/ContentPage.js:17-19 | two routes fetch the same URL exactly when they name the same store URI |
| ContentPage.BareIdMeetsCollectionId | ui/src/components/ContentPage.js:17-19 | a bare id and its `/dita-xml/` form fetch the same topic |
| ContentPage.Load | ui/src/components/ContentPage.js:9-34 | from the state the page held before: without a topic id, or while the fetch is pending, nothing changes; a fetched topic sets the parsed value and keeps any earlier error; a failed or non-OK fetch sets the error, with the HTTP status in the message, and keeps any earlier topic |
| ContentPage.FirstPresent | ui/src/components/ContentPage.js:41-47 | the value of the first truthy key in order, else the fallback |
| ContentPage.Root | ui/src/components/ContentPage.js:41-47 | the root is never falsy, and is an empty object when no root key is truthy |
| ContentPage.RootPrefersTopic | ui/src/components/ContentPage.js:41-47 | `topic` wins over `concept`, and a concept is used only when there is no truthy `topic` |
| ContentPage.Title | ui/src/components/ContentPage.js:48-54 | the heading is never falsy: `No Title` without a title, and a string title is shown as it is |
| ContentPage.TitleUnwrapsText | ui/src/components/ContentPage.js:49-53 | an object title shows its `#text` when it has one, otherwise the object itself |
| ContentPage.BodyOf | ui/src/components/ContentPage.js:55-60 | a body is rendered exactly when `body` or `conbody` is truthy, with `body` first |
| ContentPage.PageView | ui/src/components/ContentPage.js:36-62 | an error wins over everything and shows its message; the loading message shows exactly while there is no error and no truthy topic; the renderer's throw surfaces exactly when the body's rendering fails; otherwise the topic's title is shown with its rendered body, or with no body exactly when no body key is truthy |
| ContentPage.StaysLoading | ui/src/components/ContentPage.js:12-39 | without a topic id, while the fetch is pending, or for a falsy JSON reply, a freshly mounted page stays on its loading message |
| ContentPage.FailedFetchShowsError | ui/src/components/ContentPage.js:21-37 | a failed fetch shows its error: the thrown message, or the HTTP status when the reply was not OK |
| ContentPage.FetchedTopicShown | ui/src/components/ContentPage.js:26-62 | a fetched truthy topic is shown with its title and its rendered body, or the no-body message; a renderer throw is the only other outcome |
| ContentPage.ShownBodyKeepsText | ui/src/components/ContentPage.js:55-60 | with numbers rendered as their decimal text and booleans as `true`/`false`, a shown body reads exactly as the text content of the topic's body element |
| ContentPage.ConceptBodyShown | ui/src/components/ContentPage.js:41-60 | a concept topic without a `topic` root shows its `conbody` |
| ContentPage.StickyStateAsWritten | ui/src/components/ContentPage.js:9-34 | as written, after topic `a` fails, topic `b` shows `a`'s error even once `b` is fetched; after `a` is shown, `a`'s page stays on screen while `b` is pending |
| ContentPage.Begin | ui/src/components/ContentPage.js:12-16 | corrected: a fetch for a topic starts from a state with no topic and no error; without a topic id the state is kept |
| ContentPage.FreshLoadShowsOwnTopic | ui/src/components/ContentPage.js:9-39 | corrected: a topic's page depends on its own fetch alone, shows the loading message while pending, and a fetched topic is never hidden behind an earlier error |
| Search.StartIndex | routes/search.js:79 | for positive page and page length the start is at least 1, and earlier pages cover exactly the results before it |
| Search.CeilDiv | routes/search.js:28 | `Math.ceil` of the quotient, characterised by its bounds for either sign of divisor |
| Search.PageOf | routes/search.js:27-28 | a zero page length gives no page; otherwise the page whose window contains the start |
| Search.PageRoundTrip | routes/search.js:28-79 | the page computed from the start of a requested page is that page exactly when the page length is positive |
| Search.PagesTile | routes/search.js:28-79 | consecutive pages have consecutive, non-overlapping windows of one page length |
| Search.Names | routes/search.js:54 | one value per selected item, in order, and a throw exactly when an item is null |
| Search.AndValues | routes/search.js:53-54 | a missing or falsy `and` means no values; a non-array `and` or a null definition throws |
| Search.Ranges | routes/search.js:51-56 | one range query per constraint, in key order, and a failure exactly when some constraint's values cannot be read |
| Search.BuildQuery | routes/search.js:48-73 | without constraints only the query text is sent; with constraints the query holds one and-query, and the query text passes through |
| Search.MissingAndIsEmpty | routes/search.js:53 | a constraint without `and` becomes a range query with no values |
| Search.SelectionRoundTrip | routes/search.js:48-73 | every facet selection a client sends is read back intact from the built query, facet by facet and value by value |
| Search.ReadReply | routes/search.js:23-27 | shaping throws exactly when the reply has no string `total-time` metric; the error names the value read through: a `null` body when reading `metrics`, undefined or `null` metrics when reading `total-time`; the other fields are read as they are |
| Search.ProcessReply | routes/search.js:23-44 | every field passes through unchanged except the page, which is present exactly when start and page length are numbers and the length is not zero, and is then the page whose window contains the start |
| Search.EchoesRequestedPage | routes/search.js:23-79 | a store that honours the requested window reports back the page the client asked for |
| Search.Route | routes/search.js:77-132 | a failed authentication is a 401 carrying its error; a query that cannot be built is never sent, and its throw ends the server process |
| Search.NullConstraintCrashes | routes/search.js:51-56 | a constraint whose definition is `null` ends the server process whatever the store would answer, and the client gets no status |
| Search.StatusForwarded | routes/search.js:107-120 | a non-200 store status is forwarded with its `errorResponse`; the client sees 200 exactly when the store said 200 and the reply could be shaped; an unreachable store is a 500 |

## Left out

- Transport and rendering are not modelled: Express, CORS, `fetch`, React
  elements, CSS, the hero video and console logging. Fetches, store reads
  and authentication are given as their outcomes.
- The MarkLogic client calls are not modelled. Collection queries and
  document reads are given as sequences of documents or as the error
  message they threw.
- File writes are not modelled. `fs.writeFileSync` and `sendFile` are
  represented only by the set of file names written and the set of
  normalised paths that exist relative to the working directory.
  `path.join` is modelled for relative paths only.
- The XML parser (`fast-xml-parser`) is a parameter. Parsed DITA is a
  JSON-like value.
- The clock is not modelled. `new Date().toISOString()` is an integer
  parameter `now`, one value for a whole build or list. The code reads
  the clock once per undated document (middle-tier/server.js:90 and
  :201), so undated documents of one build may get different stamps.
- Date parsing is not modelled. Timestamps are integers. A publication's
  header date may be absent, and then every comparison with it is false,
  as with JavaScript's invalid date. Sitemap entries and topics always
  carry a numeric date here.
- LastSeen.TopicHighlightCases: a topic whose date is missing or does not
  parse, or whose stored value is the text `undefined`, makes
  `toISOString` throw a `RangeError` while the menu is drawn
  (ui/src/components/LeftMenu.js:29). Topic dates are always numbers in
  the model, so this crash has no counterpart.
- The local store is not modelled as text. `localStorage` holds integer
  timestamps, so an empty stored string, which `!stored` treats as
  absent, has no counterpart.
- `encodeURIComponent` is a parameter. Navigation URLs are modelled as
  their route parameters.
- Case mapping is ASCII only.
- The i18n layer is not modelled: translations, programme labels, the
  `PUBLIC_URL` image path and the UI language's origin.
- Floating point is not modelled. The search reply's `executionTime`
  (`parseFloat` of the ISO duration) is not computed. Page division is
  exact integer ceiling division. JSON and parsed XML numbers are
  integers.
- Search.NumberOf: a string, array or object start or page length is
  treated as not a number, although JavaScript coerces some of them
  (`"12"`, `[]`).
- Sitemap.ScanIsReference: `Object.entries` lists subject names that are
  array indices (`"1"`, `"42"`) before all others. The model keeps
  insertion order for every subject.
- Search.Ranges: the same key-order rule of `Object.keys` applies to
  numeric constraint names, and is not modelled.
- Duplicate keys in a JSON body are not modelled.
- Sitemap.ParseProgramme: a programme header naming a property every
  JavaScript object inherits (`constructor`, `toString`, `__proto__`,
  `hasOwnProperty`) does not throw. The document is filed under that
  inherited value instead and appears in no sitemap; under `__proto__` its
  subject is added to `Object.prototype`. The model treats these names as
  unknown programmes that stop the build.
- Sitemap.BuildSucceedsIff: a subject named like an inherited property
  (`constructor`, `toString`, `__proto__`) finds a truthy non-array, so
  `.push` throws and the build stops. The model files it as an ordinary
  subject.
- DitaRender.TagIsMappedOrDiv: `ELEMENT_MAP` is a plain object, so an
  element named `constructor` or `toString` gets an inherited function
  as its tag and React fails on it. The model gives such an element a
  `div`.
- ContentPage.ShownBodyKeepsText: stated for the corrected renderer, which
  shows a number as the decimal text of the parsed number and a boolean as
  `true` or `false`. As written, such content is dropped (see "Findings").
- DitaRender.ScalarText: the text of a parsed number is its decimal form,
  not the element text it was parsed from. The parser has already lost
  leading zeros (`042`), a trailing `.0`, exponent forms (`4.2e1`) and
  hexadecimal forms (`0x2A`), so the corrected renderer shows `42` for all
  of them, and text preservation is stated against the parsed fragment,
  not the XML source. Non-integer numbers are not modelled (see floating
  point above).
- DitaRender.RenderPreservesText: stated for the corrected renderer, for
  the same reason. A `null` value carries no text on either side.
- PublicationPage.LoadEnvelope: fetches in flight for successive URIs may
  settle in either order, and so may the envelope-list search. The model
  applies outcomes in the order given and does not model that race.
- ContentPage.Load: two fetches in flight for successive topics may settle
  in either order. The model applies outcomes in the order given and does
  not model that race.
- Search.Route: `ServerCrash` is the end of this request. That the whole
  process stops, and every later request goes unanswered, is stated in
  prose only.
- Search.BuildQuery: a truthy `constraints` value that is not an object
  (an array, a string, a number) is not modelled.
- Header values are always strings or absent. A numeric `publication`,
  for instance, is not modelled.
- `Promise.all` on the landing page is not modelled as concurrency. Its
  effect is a sequence of responses in completion order, folded into the
  `fetched` object.
- The search route's authentication helper, session lookup and
  request options are not modelled, nor the request path
  (`pageLength`, `start`). A store body that is not JSON, which throws
  in `JSON.parse`, is left out.
- Catalog.Display: for an empty group the component throws on
  `displayEnv.publication`. The model returns no variant.
- ContentPage.PageView: a title that is an object is handed to React as a
  child, which throws at render time. The model keeps the value.
- `DitaRender` does not model the `key` argument of `renderDitaNode` or the
  attribute object the renderer collects and never uses.
- `LeftMenu`'s topic navigation URL and `HomePage`'s fetch wiring are not
  modelled. Each home page column is modelled independently from its own
  fetch outcome.

## Findings

| source | as written | input that shows it | evidently intended | confidence | as-written member | corrected member |
|---|---|---|---|---|---|---|
| ui/src/components/HomePage.js:54 | (latent: the router mounts no home page) the home page navigates to `/${encodeURIComponent(pub.programme)}/…` without `envUri`, but sitemap entries have no `programme` field, so the segment is the text `undefined` | any publication clicked on the home page after a successful build: the publication page searches for programme `undefined`, finds nothing and shows "No envelope URI provided" | the segment is the code of the programme column the entry is listed in, which makes the page's search find the entry's envelope | high; not executed | PublicationPage.HomeRouteAsWrittenNeverResolves | PublicationPage.HomeRouteResolves |
| middle-tier/server.js:256-264 | the decoded segment is lower-cased and passed to `path.join('sitemaps', …)`, which resolves `..`, and whatever exists at the result is sent | `GET /api/sitemap/..%2Fpackage` sends the server's own `package.json`; `GET /api/sitemap/x%2F..%2Fdp` sends `sitemaps/dp.json` | only files of the sitemap directory are sent; a segment holding `/` finds no sitemap | high; not executed | Routes.SitemapRouteEscapes | Routes.SafeRouteStaysInDirectory |
| ui/src/components/ContentPage.js:9-34 | the effect for a new topic id neither clears `parsedXml` nor `error` | open topic `a` whose fetch fails, then topic `b` whose fetch succeeds: the page still shows `a`'s error; open `a`, then `b` while its fetch is pending: `a`'s content stays | each topic starts from the loading message and shows only its own outcome | medium; not executed | ContentPage.StickyStateAsWritten | ContentPage.FreshLoadShowsOwnTopic |
| ui/src/components/DitaRenderer.js:23-24 | `renderDitaNode` returns `null` for every non-string, non-object, and the XML parser turns numeric and boolean element text into numbers and booleans | a table cell `<entry>42</entry>` or `<entry>true</entry>`, parsed as `{ entry: 42 }` or `{ entry: true }`, renders as an empty `td` | such content is shown as text, like any other: a number as its decimal form and a boolean as `true` or `false` | medium; not executed | DitaRender.ScalarContentDropped | DitaRender.RenderPreservesText |
| ui/src/components/PublicationPage.js:26-28 | without `envUri`, the envelope is looked up with the route's programme compared exactly, but the landing page puts the lower-cased programme in the route (PublicationsList.js:61-64) | reload the topic address `/dp/<name>/topic/…` that a menu click produced, or follow a link to it: the page shows "No envelope URI provided" | the lookup matches the route's programme whatever its case | medium; not executed | PublicationPage.DeepLinkAsWritten | PublicationPage.DeepLinkResolves |

The home page defect is latent: the application's router sends `/` to the
landing page (ui/src/App.js:15), so the home page is not reachable as the
application is wired. The corrected route still does not resolve a document with no
`publication` header. The sitemap names such a document by its URI, while
the envelope list names it `UntitledPub` (`Routes.SummaryAgainstSitemap`).

=== FILE: base.dfy ===
/** Small shared vocabulary: optional values, results, and the few string
    operations the application uses (ASCII lower-casing, prefix tests and
    decimal rendering of natural numbers). */
module Base {

  datatype Option<+T> = None | Some(value: T) {
    function GetOr(default: T): T {
      match this
      case Some(v) => v
      case None => default
    }
  }

  datatype Result<+R, +E> = Success(value: R) | Failure(error: E)

  /** JavaScript's `s || d` on a string that may be absent: an absent or
      empty string is falsy and yields the default. */
  function OrElse(s: Option<string>, default: string): (r: string)
    ensures s.None? || s.value == "" ==> r == default
    ensures s.Some? && s.value != "" ==> r == s.value
  {
    if s.Some? && s.value != "" then s.value else default
  }

  predicate IsUpper(c: char) { 'A' <= c <= 'Z' }

  function LowerChar(c: char): (r: char)
    ensures !IsUpper(r)
    ensures !IsUpper(c) ==> r == c
  {
    if IsUpper(c) then (c as int - 'A' as int + 'a' as int) as char else c
  }

  /** `toLowerCase`, restricted to the ASCII letters. */
  function Lower(s: string): (r: string)
    ensures |r| == |s|
    ensures forall i :: 0 <= i < |s| ==> r[i] == LowerChar(s[i])
  {
    if s == [] then [] else [LowerChar(s[0])] + Lower(s[1..])
  }

  lemma LowerIdempotent(s: string)
    ensures Lower(Lower(s)) == Lower(s)
  {
  }

  predicate IsLower(c: char) { 'a' <= c <= 'z' }

  function UpperChar(c: char): (r: char)
    ensures !IsLower(r)
    ensures !IsLower(c) ==> r == c
  {
    if IsLower(c) then (c as int - 'a' as int + 'A' as int) as char else c
  }

  /** `toUpperCase`, restricted to the ASCII letters. */
  function Upper(s: string): (r: string)
    ensures |r| == |s|
    ensures forall i :: 0 <= i < |s| ==> r[i] == UpperChar(s[i])
  {
    if s == [] then [] else [UpperChar(s[0])] + Upper(s[1..])
  }

  predicate StartsWith(s: string, prefix: string) {
    |prefix| <= |s| && s[..|prefix|] == prefix
  }

  function DigitChar(d: nat): char
    requires d < 10
  {
    "0123456789"[d]
  }

  /** Decimal rendering of a natural number, as JavaScript's template
      strings print array indices. */
  function NatToString(n: nat): (r: string)
    ensures |r| >= 1
    ensures forall i :: 0 <= i < |r| ==> '0' <= r[i] <= '9'
  {
    if n < 10 then [DigitChar(n)] else NatToString(n / 10) + [DigitChar(n % 10)]
  }

  /** Decimal rendering of an integer, as `String(n)` prints one. */
  function IntToString(n: int): (r: string)
    ensures |r| >= 1
  {
    if n < 0 then "-" + NatToString(-n) else NatToString(n)
  }
}

=== FILE: catalog.dfy ===
/** The landing page's publication list (`PublicationsList`): the
    programme sitemaps it loads, the order it shows them in, which language
    variant of a group it displays, and what a click stores and where it
    navigates. The component reads sitemaps shaped as subjects of groups of
    variants, each variant carrying its programme, envelope URI and an
    optional translation group; that is the shape modelled here. */
module Catalog {
  import opened Base
  import opened LastSeen

  datatype Variant = Variant(
    publication: string,
    language: string,
    programme: string,
    envelopeUri: string,
    lastModified: int,
    translationGroup: Option<string>)

  datatype Group = Group(publications: seq<Variant>)

  datatype SubjectGroups = SubjectGroups(subject: string, groups: seq<Group>)

  datatype ProgrammeData = ProgrammeData(programme: string, subjects: seq<SubjectGroups>)

  /** The outcome of one sitemap fetch. */
  datatype Fetched = FetchFailed | NotOk | Loaded(data: ProgrammeData)

  // ---------------------------------------------------------------------
  // Loading

  /** The `fetched` object: keys in insertion order, a later write to an
      existing key replacing its value in place. */
  type Loaded = seq<(string, ProgrammeData)>

  function Put(m: Loaded, k: string, v: ProgrammeData): (r: Loaded)
    ensures |r| == |m| || |r| == |m| + 1
  {
    if m == [] then [(k, v)]
    else if m[0].0 == k then [(k, v)] + m[1..]
    else [m[0]] + Put(m[1..], k, v)
  }

  /** The responses, in the order they completed, folded into `fetched`
      under the lower-cased programme each response names. */
  function Collect(responses: seq<Fetched>): Loaded {
    if responses == [] then []
    else
      var init := Collect(responses[..|responses| - 1]);
      match responses[|responses| - 1]
      case Loaded(d) => Put(init, Lower(d.programme), d)
      case _ => init
  }

  function Keys(m: Loaded): set<string> {
    if m == [] then {} else {m[0].0} + Keys(m[1..])
  }

  lemma {:induction false} PutKeys(m: Loaded, k: string, v: ProgrammeData)
    ensures Keys(Put(m, k, v)) == Keys(m) + {k}
  {
    if m != [] && m[0].0 != k {
      PutKeys(m[1..], k, v);
      assert Put(m, k, v)[1..] == Put(m[1..], k, v);
    } else if m != [] {
      assert Put(m, k, v)[1..] == m[1..];
    }
  }

  /** A programme is loaded exactly when some response that came back OK
      named it; failed and non-OK fetches leave no key behind. */
  lemma {:induction false} CollectKeys(responses: seq<Fetched>)
    ensures forall k :: k in Keys(Collect(responses)) <==>
      exists i :: 0 <= i < |responses| && responses[i].Loaded? && Lower(responses[i].data.programme) == k
  {
    if responses != [] {
      var init := responses[..|responses| - 1];
      CollectKeys(init);
      var last := responses[|responses| - 1];
      if last.Loaded? {
        PutKeys(Collect(init), Lower(last.data.programme), last.data);
      }
      assert forall i :: 0 <= i < |init| ==> init[i] == responses[i];
    }
  }

  function Values(m: Loaded): seq<ProgrammeData> {
    seq(|m|, i requires 0 <= i < |m| => m[i].1)
  }

  // ---------------------------------------------------------------------
  // Programme order

  const DesiredOrder: seq<string> := ["pyp", "myp", "dp", "cp"]

  /** `desiredOrder.indexOf(...)`: the position, or -1 when absent. */
  function IndexOf(xs: seq<string>, x: string): (r: int)
    ensures -1 <= r < |xs|
    ensures r == -1 <==> x !in xs
    ensures 0 <= r ==> xs[r] == x && x !in xs[..r]
  {
    if xs == [] then -1
    else if xs[0] == x then 0
    else
      var r := IndexOf(xs[1..], x);
      assert xs[1..] == xs[1..][..|xs| - 1];
      if r == -1 then -1 else r + 1
  }

  function Rank(d: ProgrammeData): int {
    IndexOf(DesiredOrder, Lower(d.programme))
  }

  ghost predicate SortedBy<T>(key: T -> int, s: seq<T>) {
    forall i, j :: 0 <= i < j < |s| ==> key(s[i]) <= key(s[j])
  }

  /** Places `x` after every element whose key does not exceed its own. */
  function Insert<T>(key: T -> int, x: T, s: seq<T>): seq<T> {
    if s == [] then [x]
    else if key(x) < key(s[0]) then [x] + s
    else [s[0]] + Insert(key, x, s[1..])
  }

  /** A stable insertion sort by key. */
  function SortBy<T>(key: T -> int, s: seq<T>): seq<T> {
    if s == [] then [] else Insert(key, s[|s| - 1], SortBy(key, s[..|s| - 1]))
  }

  /** The sort `Object.values(...).sort((a, b) => rank(a) - rank(b))`;
      `Array.prototype.sort` is stable. */
  function SortByRank(s: seq<ProgrammeData>): seq<ProgrammeData> {
    SortBy(Rank, s)
  }

  /** The elements of key `k`, in order. */
  function OfKey<T>(key: T -> int, s: seq<T>, k: int): seq<T> {
    if s == [] then []
    else OfKey(key, s[..|s| - 1], k) + (if key(s[|s| - 1]) == k then [s[|s| - 1]] else [])
  }

  lemma {:induction false} OfKeyConcat<T>(key: T -> int, a: seq<T>, b: seq<T>, k: int)
    ensures OfKey(key, a + b, k) == OfKey(key, a, k) + OfKey(key, b, k)
    decreases |b|
  {
    if b == [] {
      assert a + b == a;
    } else {
      var b' := b[..|b| - 1];
      assert (a + b)[..|a + b| - 1] == a + b';
      OfKeyConcat(key, a, b', k);
    }
  }

  lemma {:induction false} InsertPerm<T>(key: T -> int, x: T, s: seq<T>)
    ensures multiset(Insert(key, x, s)) == multiset(s) + multiset{x}
  {
    if s != [] && key(x) >= key(s[0]) {
      InsertPerm(key, x, s[1..]);
      assert s == [s[0]] + s[1..];
    }
  }

  /** A lower bound on the keys of a list and of `x` bounds the keys after
      insertion. */
  lemma {:induction false} InsertBound<T>(key: T -> int, x: T, s: seq<T>, b: int)
    requires forall i :: 0 <= i < |s| ==> b <= key(s[i])
    requires b <= key(x)
    ensures forall i :: 0 <= i < |Insert(key, x, s)| ==> b <= key(Insert(key, x, s)[i])
  {
    if s != [] && key(x) >= key(s[0]) {
      InsertBound(key, x, s[1..], b);
    }
  }

  lemma {:induction false} InsertOrdered<T>(key: T -> int, x: T, s: seq<T>)
    requires SortedBy(key, s)
    ensures SortedBy(key, Insert(key, x, s))
  {
    if s != [] && key(x) >= key(s[0]) {
      InsertOrdered(key, x, s[1..]);
      InsertBound(key, x, s[1..], key(s[0]));
      var r := Insert(key, x, s[1..]);
      assert Insert(key, x, s) == [s[0]] + r;
    }
  }

  /** When the first element of a sorted list already has a key above `k`,
      no element has key `k`. */
  lemma {:induction false} OfKeyNone<T>(key: T -> int, s: seq<T>, k: int)
    requires SortedBy(key, s)
    requires s != [] && k < key(s[0])
    ensures OfKey(key, s, k) == []
    decreases |s|
  {
    if |s| > 1 {
      OfKeyNone(key, s[..|s| - 1], k);
    }
  }

  lemma OfKeySingle<T>(key: T -> int, x: T, k: int)
    ensures OfKey(key, [x], k) == if key(x) == k then [x] else []
  {
    assert [x][..0] == [];
  }

  /** Inserting in front of a sorted list whose keys all exceed `x`'s. */
  lemma InsertStableFront<T>(key: T -> int, x: T, s: seq<T>, k: int)
    requires SortedBy(key, s)
    requires s != [] && key(x) < key(s[0])
    ensures OfKey(key, [x] + s, k) == OfKey(key, s, k) + OfKey(key, [x], k)
  {
    OfKeySingle(key, x, k);
    OfKeyConcat(key, [x], s, k);
    if key(x) == k {
      OfKeyNone(key, s, k);
    }
  }

  lemma {:induction false} InsertStable<T>(key: T -> int, x: T, s: seq<T>, k: int)
    requires SortedBy(key, s)
    ensures OfKey(key, Insert(key, x, s), k) == OfKey(key, s, k) + OfKey(key, [x], k)
    decreases |s|, 1
  {
    if s == [] {
      assert OfKey(key, [], k) == [];
    } else if key(x) < key(s[0]) {
      InsertStableFront(key, x, s, k);
    } else {
      InsertStableLater(key, x, s, k);
    }
  }

  lemma {:induction false} InsertStableLater<T>(key: T -> int, x: T, s: seq<T>, k: int)
    requires SortedBy(key, s)
    requires s != [] && key(x) >= key(s[0])
    ensures OfKey(key, Insert(key, x, s), k) == OfKey(key, s, k) + OfKey(key, [x], k)
    decreases |s|, 0
  {
    var r := Insert(key, x, s[1..]);
    assert SortedBy(key, s[1..]);
    InsertStable(key, x, s[1..], k);
    assert Insert(key, x, s) == [s[0]] + r;
    OfKeyConcat(key, [s[0]], r, k);
    assert s == [s[0]] + s[1..];
    OfKeyConcat(key, [s[0]], s[1..], k);
  }

  /** The sort yields a permutation ordered by key in which elements with
      equal keys keep their relative order. */
  lemma {:induction false} SortByCorrect<T>(key: T -> int, s: seq<T>)
    ensures SortedBy(key, SortBy(key, s))
    ensures multiset(SortBy(key, s)) == multiset(s)
    ensures forall k :: OfKey(key, SortBy(key, s), k) == OfKey(key, s, k)
  {
    if s != [] {
      var init := s[..|s| - 1];
      var x := s[|s| - 1];
      SortByCorrect(key, init);
      InsertOrdered(key, x, SortBy(key, init));
      InsertPerm(key, x, SortBy(key, init));
      forall k ensures OfKey(key, SortBy(key, s), k) == OfKey(key, s, k) {
        InsertStable(key, x, SortBy(key, init), k);
        assert s == init + [x];
        OfKeyConcat(key, init, [x], k);
      }
      assert s == init + [x];
    }
  }

  /** The programmes are shown in the order PYP, MYP, DP, CP, unknown
      programmes (rank -1) first; the result is a permutation of the loaded
      data, and programmes of equal rank keep their relative order. */
  lemma SortByRankCorrect(s: seq<ProgrammeData>)
    ensures SortedBy(Rank, SortByRank(s))
    ensures multiset(SortByRank(s)) == multiset(s)
    ensures forall k :: OfKey(Rank, SortByRank(s), k) == OfKey(Rank, s, k)
    ensures forall i, j :: 0 <= i < j < |SortByRank(s)| ==> Rank(SortByRank(s)[i]) <= Rank(SortByRank(s)[j])
  {
    SortByCorrect(Rank, s);
  }

  lemma RankOfCodes(d: ProgrammeData)
    ensures Lower(d.programme) == "pyp" ==> Rank(d) == 0
    ensures Lower(d.programme) == "myp" ==> Rank(d) == 1
    ensures Lower(d.programme) == "dp" ==> Rank(d) == 2
    ensures Lower(d.programme) == "cp" ==> Rank(d) == 3
    ensures Lower(d.programme) !in DesiredOrder ==> Rank(d) == -1
  {
  }

  /** What the page shows: a loading message while nothing is loaded. */
  datatype Page = LoadingMessage | Programmes(shown: seq<ProgrammeData>)

  function ListPage(responses: seq<Fetched>): (r: Page)
    ensures r.LoadingMessage? <==> forall i :: 0 <= i < |responses| ==> !responses[i].Loaded?
    ensures r.Programmes? ==> SortedBy(Rank, r.shown) && multiset(r.shown) == multiset(Values(Collect(responses)))
  {
    var loaded := Collect(responses);
    CollectKeys(responses);
    if |loaded| == 0 then
      assert forall i :: 0 <= i < |responses| && responses[i].Loaded? ==> Lower(responses[i].data.programme) in Keys(loaded);
      LoadingMessage
    else
      assert loaded[0].0 in Keys(loaded);
      SortByRankCorrect(Values(loaded));
      Programmes(SortByRank(Values(loaded)))
  }

  // ---------------------------------------------------------------------
  // The variant a group shows

  /** `group.publications[0]` */
  function Parent(g: Group): Option<Variant> {
    if g.publications == [] then None else Some(g.publications[0])
  }

  function FirstInLanguage(vs: seq<Variant>, lang: string): (r: Option<Variant>)
    ensures r.Some? ==> r.value in vs && Lower(r.value.language) == lang
    ensures r.None? <==> forall i :: 0 <= i < |vs| ==> Lower(vs[i].language) != lang
    ensures r.Some? ==> exists i :: (0 <= i < |vs| && vs[i] == r.value
      && forall j :: 0 <= j < i ==> Lower(vs[j].language) != lang)
  {
    if vs == [] then None
    else if Lower(vs[0].language) == lang then Some(vs[0])
    else
      var r := FirstInLanguage(vs[1..], lang);
      assert forall i :: 1 <= i < |vs| ==> vs[i] == vs[1..][i - 1];
      r
  }

  /** The variant displayed for the UI language: the first whose language
      matches ignoring case, else the parent. */
  function Display(g: Group, uiLanguage: string): (r: Option<Variant>)
    ensures r.Some? <==> g.publications != []
    ensures r.Some? ==> r.value in g.publications
    ensures FirstInLanguage(g.publications, Lower(uiLanguage)).Some? ==> r == FirstInLanguage(g.publications, Lower(uiLanguage))
  {
    match FirstInLanguage(g.publications, Lower(uiLanguage))
    case Some(v) => Some(v)
    case None => Parent(g)
  }

  /** The display choice: a matching variant when one exists, the first
      such; the parent otherwise. */
  lemma DisplayChoice(g: Group, uiLanguage: string)
    ensures (exists i :: 0 <= i < |g.publications| && Lower(g.publications[i].language) == Lower(uiLanguage))
      ==> Lower(Display(g, uiLanguage).value.language) == Lower(uiLanguage)
    ensures (forall i :: 0 <= i < |g.publications| ==> Lower(g.publications[i].language) != Lower(uiLanguage))
      ==> Display(g, uiLanguage) == Parent(g)
    ensures (exists i :: 0 <= i < |g.publications| && Lower(g.publications[i].language) == Lower(uiLanguage))
      ==> (exists i :: 0 <= i < |g.publications| && g.publications[i] == Display(g, uiLanguage).value
             && forall j :: 0 <= j < i ==> Lower(g.publications[j].language) != Lower(uiLanguage))
  {
  }

  // ---------------------------------------------------------------------
  // Clicking a group

  /** Where a click navigates, before encoding: the programme segment, the
      publication segment and the `envUri` query value. */
  datatype Nav = Nav(programme: string, publication: string, envUri: string)

  function NavPath(n: Nav, encode: string -> string): string {
    "/" + n.programme + "/" + encode(n.publication) + "?envUri=" + encode(n.envUri)
  }

  /** The store key: `translationGroup || publication`. */
  function GroupKey(parent: Variant): string {
    OrElse(parent.translationGroup, parent.publication)
  }

  /** Everything `handleClick` does: the last-seen write, the remembered
      translation group (a missing group is written as the text
      `undefined`), and the navigation. */
  datatype Click = Click(store: Store, rememberedKey: string, rememberedValue: string, nav: Nav)

  function HandleClick(store: Store, parent: Variant, display: Variant): (r: Click)
    ensures r.store == store[PubKey(GroupKey(parent)) := parent.lastModified]
    ensures r.nav.envUri == parent.envelopeUri
    ensures r.nav.publication == display.publication
    ensures r.nav.programme == Lower(parent.programme)
    ensures r.rememberedKey == "translationGroup_" + Lower(parent.programme)
    ensures parent.translationGroup.Some? ==> r.rememberedValue == parent.translationGroup.value
    ensures parent.translationGroup.None? ==> r.rememberedValue == "undefined"
  {
    Click(
      store[PubKey(GroupKey(parent)) := parent.lastModified],
      "translationGroup_" + Lower(parent.programme),
      parent.translationGroup.GetOr("undefined"),
      Nav(Lower(parent.programme), display.publication, parent.envelopeUri))
  }

  /** Whatever variant is displayed, the click lands on the parent's
      envelope and records the parent's timestamp. */
  lemma ClickIgnoresDisplayForEnvelope(store: Store, parent: Variant, d1: Variant, d2: Variant)
    ensures HandleClick(store, parent, d1).nav.envUri == HandleClick(store, parent, d2).nav.envUri
    ensures HandleClick(store, parent, d1).store == HandleClick(store, parent, d2).store
  {
  }

  /** Without a translation group the list's key is the home page's key,
      so a click here clears the publication's highlight there. */
  lemma ClickClearsHighlight(store: Store, parent: Variant, display: Variant)
    requires parent.translationGroup.None? || parent.translationGroup.value == ""
    ensures !PublicationHighlighted(HandleClick(store, parent, display).store, parent.publication, parent.lastModified)
  {
  }

  // ---------------------------------------------------------------------
  // Programme header image

  /** The language suffix of the programme logo. */
  function ImageSuffix(uiLanguage: string): (r: string)
    ensures r == "Fr" <==> Lower(uiLanguage) == "fr"
    ensures r == "Sp" <==> Lower(uiLanguage) == "es"
    ensures r == "En" <==> Lower(uiLanguage) != "fr" && Lower(uiLanguage) != "es"
  {
    var lang := Lower(uiLanguage);
    if lang == "fr" then "Fr" else if lang == "es" then "Sp" else "En"
  }

  /** The logo and the list read one lower-cased UI language: when a
      group has a variant in that language, the logo is French or Spanish
      exactly when the variant shown is. */
  lemma ImageSuffixAgreesWithList(uiLanguage: string, group: seq<Variant>)
    requires FirstInLanguage(group, Lower(uiLanguage)).Some?
    ensures
      var shown := FirstInLanguage(group, Lower(uiLanguage)).value;
      && (ImageSuffix(uiLanguage) == "Fr" <==> Lower(shown.language) == "fr")
      && (ImageSuffix(uiLanguage) == "Sp" <==> Lower(shown.language) == "es")
  {
  }
}

=== FILE: content_page.dfy ===
/** The topic page (`ContentPage`): the topic id from the route is
    normalised to a store URI, the parsed topic is fetched from the middle
    tier, and the page shows an error, a loading message, or the topic's
    title and body rendered by the DITA renderer. The fetch is given as
    its outcome. */
module ContentPage {
  import opened Base
  import opened Json
  import DitaRender

  // ---------------------------------------------------------------------
  // The request

  const TopicCollection := "/dita-xml/"

  const TopicRoute := "http://localhost:3001/api/dita-xml?uri="

  /** A topic id that does not start with `/` is taken to live in the
      `dita-xml` collection. */
  function NormalizeTopicId(id: string): (r: string)
    ensures StartsWith(r, "/")
    ensures StartsWith(id, "/") ==> r == id
    ensures !StartsWith(id, "/") ==> r == TopicCollection + id
  {
    if StartsWith(id, "/") then id else TopicCollection + id
  }

  lemma NormalizeTopicIdIdempotent(id: string)
    ensures NormalizeTopicId(NormalizeTopicId(id)) == NormalizeTopicId(id)
  {
  }

  /** The URL the page fetches, or `None` when the route has no topic id
      and the page fetches nothing. */
  function TopicUrl(topicId: Option<string>, encode: string -> string): (r: Option<string>)
    ensures r.None? <==> OrElse(topicId, "") == ""
    ensures r.Some? ==> StartsWith(r.value, TopicRoute) && r.value[|TopicRoute|..] == encode(NormalizeTopicId(topicId.value))
  {
    if OrElse(topicId, "") == "" then None
    else Some(TopicRoute + encode(NormalizeTopicId(topicId.value)))
  }

  /** Two routes fetch the same URL only when they name the same store
      URI, provided the URI encoding is injective; a bare id and its
      `/dita-xml/` form name the same topic. */
  lemma TopicUrlSameTopic(a: string, b: string, encode: string -> string)
    requires a != "" && b != ""
    requires forall x, y :: encode(x) == encode(y) ==> x == y
    ensures TopicUrl(Some(a), encode) == TopicUrl(Some(b), encode) <==> NormalizeTopicId(a) == NormalizeTopicId(b)
  {
    var ua := TopicUrl(Some(a), encode).value;
    var ub := TopicUrl(Some(b), encode).value;
    if ua == ub {
      assert encode(NormalizeTopicId(a)) == ua[|TopicRoute|..];
      assert encode(NormalizeTopicId(b)) == ub[|TopicRoute|..];
    }
  }

  lemma BareIdMeetsCollectionId(id: string, encode: string -> string)
    requires id != "" && !StartsWith(id, "/")
    ensures TopicUrl(Some(id), encode) == TopicUrl(Some(TopicCollection + id), encode)
  {
  }

  // ---------------------------------------------------------------------
  // The page state

  /** The outcome of the fetch so far: still pending, a thrown error
      (including a body that is not JSON), a reply that is not OK, or the
      parsed topic. */
  datatype TopicFetch = Pending | Threw(message: string) | NotOk(status: nat) | Fetched(data: Value)

  /** `parsedXml` and `error`. */
  datatype State = State(parsed: Option<Value>, error: Option<string>)

  /** Both unset, as when the page is mounted. */
  const Initial := State(None, None)

  /** The state once the effect for `topicId` has got as far as `fetch`,
      from the state `prev` the page held before. The page stays mounted
      while the route's topic id changes, and the effect sets only the half
      of the state its outcome concerns: a fetched topic leaves an earlier
      error in place, a failure leaves an earlier topic, and nothing is
      cleared when a new fetch starts. */
  function Load(prev: State, topicId: Option<string>, fetch: TopicFetch): (r: State)
    ensures OrElse(topicId, "") == "" || fetch.Pending? ==> r == prev
    ensures OrElse(topicId, "") != "" && fetch.Fetched? ==> r == State(Some(fetch.data), prev.error)
    ensures OrElse(topicId, "") != "" && (fetch.Threw? || fetch.NotOk?) ==> r.parsed == prev.parsed && r.error.Some?
    ensures OrElse(topicId, "") != "" && fetch.Threw? ==> r.error == Some(fetch.message)
    ensures OrElse(topicId, "") != "" && fetch.NotOk? ==> r.error == Some("HTTP error! status: " + NatToString(fetch.status))
  {
    if OrElse(topicId, "") == "" then prev
    else
      match fetch
      case Pending => prev
      case Threw(m) => prev.(error := Some(m))
      case NotOk(status) => prev.(error := Some("HTTP error! status: " + NatToString(status)))
      case Fetched(data) => prev.(parsed := Some(data))
  }

  // ---------------------------------------------------------------------
  // The rendered topic

  /** The top-level keys the topic's root element may carry, in the order
      they are tried. */
  const RootKeys: seq<string> := ["topic", "concept", "task", "reference", "glossgroup"]

  /** `v[k0] || v[k1] || … || otherwise`. */
  function FirstPresent(v: Value, keys: seq<string>, otherwise: Value): (r: Value)
    ensures (forall i :: 0 <= i < |keys| ==> !Present(Member(v, keys[i]))) ==> r == otherwise
    ensures (exists i :: 0 <= i < |keys| && Present(Member(v, keys[i]))) ==>
      exists i :: 0 <= i < |keys| && Present(Member(v, keys[i])) && r == Member(v, keys[i]).value
        && forall j :: 0 <= j < i ==> !Present(Member(v, keys[j]))
  {
    if keys == [] then otherwise
    else if Present(Member(v, keys[0])) then Member(v, keys[0]).value
    else
      var r := FirstPresent(v, keys[1..], otherwise);
      assert forall i :: 1 <= i < |keys| ==> keys[i] == keys[1..][i - 1];
      r
  }

  /** The root element: the first of the known root keys that is present,
      else an empty object. It is never falsy. */
  function Root(parsed: Value): (r: Value)
    ensures Truthy(r)
    ensures (forall i :: 0 <= i < |RootKeys| ==> !Present(Member(parsed, RootKeys[i]))) ==> r == Obj([])
  {
    FirstPresent(parsed, RootKeys, Obj([]))
  }

  /** A concept is read as such only when there is no truthy `topic`. */
  lemma RootPrefersTopic(parsed: Value)
    ensures Present(Member(parsed, "topic")) ==> Root(parsed) == Member(parsed, "topic").value
    ensures !Present(Member(parsed, "topic")) && Present(Member(parsed, "concept")) ==>
      Root(parsed) == Member(parsed, "concept").value
  {
    assert RootKeys[0] == "topic" && RootKeys[1..][0] == "concept";
  }

  /** The heading: `No Title`, or the title's `#text` when the title is an
      object carrying one, else the title itself. */
  function Title(root: Value): (r: Value)
    ensures Truthy(r)
    ensures !Present(Member(root, "title")) ==> r == Str("No Title")
    ensures Present(Member(root, "title")) && Member(root, "title").value.Str? ==> r == Member(root, "title").value
  {
    var t := Member(root, "title");
    if !Present(t) then Str("No Title")
    else if IsObjectType(t.value) && Present(Member(t.value, "#text")) then Member(t.value, "#text").value
    else t.value
  }

  /** A title element with mixed content shows its text, whatever else it
      holds; one without text shows the element itself. */
  lemma TitleUnwrapsText(root: Value, title: seq<Field>)
    requires Member(root, "title") == Some(Obj(title))
    ensures Present(Member(Obj(title), "#text")) ==> Title(root) == Member(Obj(title), "#text").value
    ensures !Present(Member(Obj(title), "#text")) ==> Title(root) == Obj(title)
  {
  }

  /** `root.body || root.conbody`, kept only when truthy. */
  function BodyOf(root: Value): (r: Option<Value>)
    ensures r.Some? ==> Truthy(r.value)
    ensures r.None? <==> !Present(Member(root, "body")) && !Present(Member(root, "conbody"))
    ensures Present(Member(root, "body")) ==> r == Member(root, "body")
  {
    if Present(Member(root, "body")) then Member(root, "body")
    else if Present(Member(root, "conbody")) then Member(root, "conbody")
    else None
  }

  datatype Body = NoBodyContent | Rendered(html: DitaRender.Html)

  /** What the page renders. `Crashed` is a throw from the renderer. */
  datatype View =
    | ErrorView(message: string)
    | LoadingContent
    | Crashed(error: string)
    | Content(title: Value, body: Body)

  /** The render, with the body drawn by the renderer under `policy`. */
  function PageView(s: State, policy: DitaRender.ScalarPolicy, encode: string -> string): (r: View)
    ensures r.ErrorView? <==> s.error.Some?
    ensures r.ErrorView? ==> r.message == s.error.value
    ensures r.LoadingContent? <==> s.error.None? && !Present(s.parsed)
    ensures r.Crashed? <==> (s.error.None? && Present(s.parsed) && BodyOf(Root(s.parsed.value)).Some?
      && DitaRender.RenderNode(BodyOf(Root(s.parsed.value)).value, policy, encode).Failure?)
    ensures r.Crashed? ==> r.error == DitaRender.RenderNode(BodyOf(Root(s.parsed.value)).value, policy, encode).error
    ensures r.Content? ==> r.title == Title(Root(s.parsed.value))
    ensures r.Content? ==> (r.body.NoBodyContent? <==> BodyOf(Root(s.parsed.value)).None?)
    ensures r.Content? && r.body.Rendered? ==>
      DitaRender.RenderNode(BodyOf(Root(s.parsed.value)).value, policy, encode) == Success(r.body.html)
  {
    if s.error.Some? then ErrorView(s.error.value)
    else if !Present(s.parsed) then LoadingContent
    else
      var root := Root(s.parsed.value);
      match BodyOf(root)
      case None => Content(Title(root), NoBodyContent)
      case Some(b) =>
        match DitaRender.RenderNode(b, policy, encode)
        case Failure(e) => Crashed(e)
        case Success(h) => Content(Title(root), Rendered(h))
  }

  /** The page for a route and a fetch outcome, on a freshly mounted page. */
  function Page(topicId: Option<string>, fetch: TopicFetch, policy: DitaRender.ScalarPolicy, encode: string -> string): View {
    PageView(Load(Initial, topicId, fetch), policy, encode)
  }

  /** Without a topic id nothing is fetched and the page stays on its
      loading message; so it does while the fetch is pending, and for a
      reply whose JSON is `null`, `false`, `0` or an empty string. */
  lemma StaysLoading(topicId: Option<string>, fetch: TopicFetch, policy: DitaRender.ScalarPolicy, encode: string -> string)
    ensures OrElse(topicId, "") == "" ==> Page(topicId, fetch, policy, encode) == LoadingContent
    ensures fetch.Pending? ==> Page(topicId, fetch, policy, encode) == LoadingContent
    ensures fetch.Fetched? && !Truthy(fetch.data) ==> Page(topicId, fetch, policy, encode) == LoadingContent
  {
  }

  /** A failed fetch shows its error, and nothing else. */
  lemma FailedFetchShowsError(topicId: Option<string>, fetch: TopicFetch, policy: DitaRender.ScalarPolicy, encode: string -> string)
    requires OrElse(topicId, "") != "" && (fetch.Threw? || fetch.NotOk?)
    ensures Page(topicId, fetch, policy, encode).ErrorView?
    ensures fetch.NotOk? ==> Page(topicId, fetch, policy, encode).message == "HTTP error! status: " + NatToString(fetch.status)
    ensures fetch.Threw? ==> Page(topicId, fetch, policy, encode).message == fetch.message
  {
  }

  /** A fetched topic is shown: its title, and its body rendered, or the
      no-body message; a renderer throw is the only other outcome. */
  lemma FetchedTopicShown(topicId: string, data: Value, policy: DitaRender.ScalarPolicy, encode: string -> string)
    requires topicId != "" && Truthy(data)
    ensures BodyOf(Root(data)).None? ==>
      Page(Some(topicId), Fetched(data), policy, encode) == Content(Title(Root(data)), NoBodyContent)
    ensures BodyOf(Root(data)).Some? && DitaRender.RenderNode(BodyOf(Root(data)).value, policy, encode).Success? ==>
      Page(Some(topicId), Fetched(data), policy, encode)
        == Content(Title(Root(data)), Rendered(DitaRender.RenderNode(BodyOf(Root(data)).value, policy, encode).value))
    ensures BodyOf(Root(data)).Some? && DitaRender.RenderNode(BodyOf(Root(data)).value, policy, encode).Failure? ==>
      Page(Some(topicId), Fetched(data), policy, encode)
        == Crashed(DitaRender.RenderNode(BodyOf(Root(data)).value, policy, encode).error)
  {
  }

  /** With the corrected renderer, a shown topic body reads exactly as the
      text content of the topic's `body` (or `conbody`) element. */
  lemma ShownBodyKeepsText(topicId: Option<string>, fetch: TopicFetch, encode: string -> string)
    requires Page(topicId, fetch, DitaRender.ShowText, encode).Content?
    requires Page(topicId, fetch, DitaRender.ShowText, encode).body.Rendered?
    ensures fetch.Fetched?
    ensures DitaRender.TextOf(Page(topicId, fetch, DitaRender.ShowText, encode).body.html)
      == DitaRender.DitaText(BodyOf(Root(fetch.data)).value)
  {
    var s := Load(Initial, topicId, fetch);
    DitaRender.RenderPreservesText(BodyOf(Root(s.parsed.value)).value, encode);
  }

  /** A concept topic, whose body is `conbody`, shows its body. */
  lemma ConceptBodyShown(fields: seq<Field>, concept: seq<Field>, conbody: Value,
                         policy: DitaRender.ScalarPolicy, encode: string -> string)
    requires Lookup(fields, "topic").None? && Lookup(fields, "concept") == Some(Obj(concept))
    requires Lookup(concept, "body").None? && Lookup(concept, "conbody") == Some(conbody) && Truthy(conbody)
    requires DitaRender.RenderNode(conbody, policy, encode).Success?
    ensures PageView(State(Some(Obj(fields)), None), policy, encode)
      == Content(Title(Obj(concept)), Rendered(DitaRender.RenderNode(conbody, policy, encode).value))
  {
    assert Root(Obj(fields)) == Obj(concept) by {
      assert RootKeys[0] == "topic" && RootKeys[1] == "concept";
    }
  }

  // ---------------------------------------------------------------------
  // Moving from topic to topic

  /** As written, the page keeps what it showed for the previous topic. An
      error outlives it: after topic `a` fails, topic `b` shows `a`'s error
      even once `b` is fetched. And while `b` is pending, `a`'s content
      stays on screen instead of the loading message. */
  lemma StickyStateAsWritten(a: string, b: string, m: string, data: Value, fetch: TopicFetch,
                             policy: DitaRender.ScalarPolicy, encode: string -> string)
    requires a != "" && b != ""
    ensures fetch.Fetched? || fetch.Pending? ==>
      PageView(Load(Load(Initial, Some(a), Threw(m)), Some(b), fetch), policy, encode) == ErrorView(m)
    ensures Truthy(data) ==>
      && PageView(Load(Load(Initial, Some(a), Fetched(data)), Some(b), Pending), policy, encode)
           == Page(Some(a), Fetched(data), policy, encode)
      && PageView(Load(Load(Initial, Some(a), Fetched(data)), Some(b), Pending), policy, encode) != LoadingContent
  {
  }

  /** The start of the effect as evidently intended: a new topic's fetch
      starts from a cleared state. */
  function Begin(prev: State, topicId: Option<string>): (r: State)
    ensures OrElse(topicId, "") == "" ==> r == prev
    ensures OrElse(topicId, "") != "" ==> !Present(r.parsed) && r.error.None?
  {
    if OrElse(topicId, "") == "" then prev else Initial
  }

  /** The effect as evidently intended. */
  function LoadFresh(prev: State, topicId: Option<string>, fetch: TopicFetch): State {
    Load(Begin(prev, topicId), topicId, fetch)
  }

  /** With the cleared start, a topic's page depends on its own fetch
      alone: it is the page a freshly mounted component shows, it shows the
      loading message while pending, and a fetched topic is never hidden
      behind an earlier error. */
  lemma FreshLoadShowsOwnTopic(prev: State, topicId: string, fetch: TopicFetch,
                               policy: DitaRender.ScalarPolicy, encode: string -> string)
    requires topicId != ""
    ensures PageView(LoadFresh(prev, Some(topicId), fetch), policy, encode) == Page(Some(topicId), fetch, policy, encode)
    ensures fetch.Pending? ==> PageView(LoadFresh(prev, Some(topicId), fetch), policy, encode) == LoadingContent
    ensures fetch.Fetched? ==> !PageView(LoadFresh(prev, Some(topicId), fetch), policy, encode).ErrorView?
  {
    assert Begin(prev, Some(topicId)) == Initial;
  }
}

=== FILE: dita_render.dfy ===
/** The DITA renderer (`renderDitaNode`, `renderDitaElement`): a parsed
    DITA fragment, as the XML-to-JSON parser delivers it, becomes a tree of
    HTML elements. Properties are visited in key order: `#text` becomes a
    text child, `@_` attributes are dropped, every other property becomes
    one element, or one per item when its value is an array. Tag names go
    through a fixed table, `image` becomes an `img` pointing at the middle
    tier. A `TypeError` the JavaScript would throw is a `Failure`.

    The renderer shows nothing for a number or a boolean that is the whole
    content of an element (`<entry>42</entry>` and `<entry>true</entry>`,
    which the parser turns into the number 42 and the boolean `true`):
    `renderDitaNode` returns `null` for every value that is not a string or
    an object. React likewise shows nothing for a boolean `#text` child.
    The renderer is parameterised by a `ScalarPolicy`: `AsWritten` is the
    code, `ShowText` the corrected renderer that shows a number as the
    decimal text of the parsed number and a boolean as `true` or `false`.
    The parser has already lost the number's source form: `042` and
    `42.0` both arrive as 42 and read `42`. Numbers are integers here. */
module DitaRender {
  import opened Base
  import opened Json

  /** How a number or a boolean parsed from element text renders. */
  datatype ScalarPolicy = AsWritten | ShowText

  /** The rendered tree. `Raw` is a `#text` value pushed as it is;
      `Nothing` is the `null` rendered for non-object values. */
  datatype Html =
    | Text(text: string)
    | Nothing
    | Raw(value: Value)
    | Fragment(children: seq<Html>)
    | Element(tag: string, key: string, content: Html)
    | Img(key: string, src: string, alt: Value)

  const ElementMap: map<string, string> := map[
    "p" := "p", "fn" := "aside", "title" := "h3", "fig" := "figure",
    "table" := "table", "tgroup" := "tbody", "row" := "tr", "entry" := "td",
    "ol" := "ol", "li" := "li", "xref" := "href"]

  /** `ELEMENT_MAP[tagName] || 'div'` (every mapped tag is non-empty). */
  function Tag(name: string): string {
    if name in ElementMap then ElementMap[name] else "div"
  }

  /** Every element is one of the mapped HTML tags or a `div`, and a mapped
      name always gets its mapped tag. */
  lemma TagIsMappedOrDiv(name: string)
    ensures Tag(name) in ElementMap.Values || Tag(name) == "div"
    ensures name in ElementMap ==> Tag(name) == ElementMap[name] && Tag(name) != "div"
  {
    if name in ElementMap {
      assert ElementMap[name] in ElementMap.Values;
    }
  }

  // ---------------------------------------------------------------------
  // Images

  const NodeBaseUrl := "http://localhost:3001"

  const ImageRoute := "/api/dita-image?uri="

  /** An href that does not start with `/` is taken to live in the
      `dita-images` collection. */
  function NormalizeHref(h: string): (r: string)
    ensures StartsWith(r, "/")
    ensures StartsWith(h, "/") ==> r == h
    ensures !StartsWith(h, "/") ==> r == "/dita-images/" + h
  {
    if StartsWith(h, "/") then h else "/dita-images/" + h
  }

  lemma NormalizeHrefIdempotent(h: string)
    ensures NormalizeHref(NormalizeHref(h)) == NormalizeHref(h)
  {
  }

  /** `node['@_href'] || ''`, followed by `.startsWith`: a null node, or a
      truthy href that is not a string, throws. */
  function ImageHref(node: Value): (r: Result<string, string>)
    ensures r.Failure? <==> node.Null? || (Present(Member(node, "@_href")) && !Member(node, "@_href").value.Str?)
    ensures r.Success? && Present(Member(node, "@_href")) ==> Member(node, "@_href").value == Str(r.value)
    ensures r.Success? && !Present(Member(node, "@_href")) ==> r.value == ""
  {
    if node.Null? then Failure("TypeError: Cannot read properties of null")
    else
      var h := Member(node, "@_href");
      if !Present(h) then Success("")
      else if h.value.Str? then Success(h.value.s)
      else Failure("TypeError: imgHref.startsWith is not a function")
  }

  function RenderImage(node: Value, key: string, encode: string -> string): (r: Result<Html, string>)
    ensures r.Success? <==> ImageHref(node).Success?
    ensures r.Success? ==> r.value.Img? && r.value.key == key
    ensures r.Success? ==> r.value.src == NodeBaseUrl + ImageRoute + encode(NormalizeHref(ImageHref(node).value))
    ensures r.Success? ==> r.value.alt == Or(Member(node, "@_alt"), Str(""))
  {
    match ImageHref(node)
    case Failure(e) => Failure(e)
    case Success(h) => Success(Img(key, NodeBaseUrl + ImageRoute + encode(NormalizeHref(h)), Or(Member(node, "@_alt"), Str(""))))
  }

  // ---------------------------------------------------------------------
  // The recursive renderer

  /** Children are collected left to right; the first throw ends the walk. */
  function Combine(a: Result<seq<Html>, string>, b: Result<seq<Html>, string>): (r: Result<seq<Html>, string>)
    ensures r.Success? <==> a.Success? && b.Success?
    ensures r.Success? ==> r.value == a.value + b.value
    ensures a.Failure? ==> r == a
  {
    if a.Failure? then a
    else if b.Failure? then b
    else Success(a.value + b.value)
  }

  predicate IsAttribute(name: string) {
    StartsWith(name, "@_")
  }

  /** `renderDitaNode`: a string is itself, an object or array a fragment
      of its properties' renderings, anything else nothing; under
      `ShowText` a number shows its decimal digits and a boolean its word. */
  function RenderNode(v: Value, policy: ScalarPolicy, encode: string -> string): Result<Html, string>
    decreases v, 2
  {
    match v
    case Str(s) => Success(Text(s))
    case Obj(fs) =>
      (match RenderFields(fs, policy, encode)
       case Failure(e) => Failure(e)
       case Success(cs) => Success(Fragment(cs)))
    case Arr(xs) =>
      (match RenderIndexed(xs, 0, policy, encode)
       case Failure(e) => Failure(e)
       case Success(cs) => Success(Fragment(cs)))
    case Num(n) => if policy == ShowText then Success(Text(IntToString(n))) else Success(Nothing)
    case Bool(b) => if policy == ShowText then Success(Text(BoolText(b))) else Success(Nothing)
    case Null => Success(Nothing)
  }

  /** The properties of an object, in key order. */
  function RenderFields(fs: seq<Field>, policy: ScalarPolicy, encode: string -> string): Result<seq<Html>, string>
    decreases fs, 1
  {
    if fs == [] then Success([])
    else Combine(RenderProp(fs[0].name, fs[0].value, policy, encode), RenderFields(fs[1..], policy, encode))
  }

  /** The properties of an array, keyed by index from `base` on. */
  function RenderIndexed(xs: seq<Value>, base: nat, policy: ScalarPolicy, encode: string -> string): Result<seq<Html>, string>
    decreases xs, 1
  {
    if xs == [] then Success([])
    else Combine(RenderProp(NatToString(base), xs[0], policy, encode), RenderIndexed(xs[1..], base + 1, policy, encode))
  }

  /** One property: a `#text` child, nothing for an attribute, one element
      per item of an array value, else one element keyed by the name. */
  function RenderProp(name: string, sub: Value, policy: ScalarPolicy, encode: string -> string): Result<seq<Html>, string>
    decreases sub, 4
  {
    if name == "#text" then
      if policy == ShowText && sub.Bool? then Success([Text(BoolText(sub.b))]) else Success([Raw(sub)])
    else if IsAttribute(name) then Success([])
    else if sub.Arr? then FanOut(name, sub.items, 0, policy, encode)
    else
      match RenderElement(name, sub, name, policy, encode)
      case Failure(e) => Failure(e)
      case Success(h) => Success([h])
  }

  /** The items of an array-valued property, keyed `<name>-<index>`. */
  function FanOut(name: string, xs: seq<Value>, base: nat, policy: ScalarPolicy, encode: string -> string): Result<seq<Html>, string>
    decreases xs, 1
  {
    if xs == [] then Success([])
    else
      var first :=
        match RenderElement(name, xs[0], name + "-" + NatToString(base), policy, encode)
        case Failure(e) => Failure(e)
        case Success(h) => Success([h]);
      Combine(first, FanOut(name, xs[1..], base + 1, policy, encode))
  }

  /** `renderDitaElement`: an image, or the mapped tag around the
      rendering of the value. */
  function RenderElement(name: string, w: Value, key: string, policy: ScalarPolicy, encode: string -> string): Result<Html, string>
    decreases w, 3
  {
    if name == "image" then RenderImage(w, key, encode)
    else
      match RenderNode(w, policy, encode)
      case Failure(e) => Failure(e)
      case Success(c) => Success(Element(Tag(name), key, c))
  }

  // ---------------------------------------------------------------------
  // Properties of the renderer

  /** Strings render to themselves, other non-objects to nothing (numbers
      and booleans to their text under `ShowText`), objects and arrays to
      a fragment; only objects and arrays can throw. */
  lemma RenderNodeShape(v: Value, policy: ScalarPolicy, encode: string -> string)
    ensures v.Str? ==> RenderNode(v, policy, encode) == Success(Text(v.s))
    ensures v.Null? ==> RenderNode(v, policy, encode) == Success(Nothing)
    ensures v.Bool? && policy == AsWritten ==> RenderNode(v, policy, encode) == Success(Nothing)
    ensures v.Bool? && policy == ShowText ==> RenderNode(v, policy, encode) == Success(Text(BoolText(v.b)))
    ensures v.Num? && policy == AsWritten ==> RenderNode(v, policy, encode) == Success(Nothing)
    ensures v.Num? && policy == ShowText ==> RenderNode(v, policy, encode) == Success(Text(IntToString(v.n)))
    ensures (v.Obj? || v.Arr?) && RenderNode(v, policy, encode).Success? ==> RenderNode(v, policy, encode).value.Fragment?
    ensures RenderNode(v, policy, encode).Failure? ==> v.Obj? || v.Arr?
  {
  }

  /** A non-image element wraps the rendering of its value in the mapped
      tag; an image element is a childless `img`. */
  lemma RenderElementShape(name: string, w: Value, key: string, policy: ScalarPolicy, encode: string -> string)
    ensures name != "image" ==>
      (RenderElement(name, w, key, policy, encode).Success? <==> RenderNode(w, policy, encode).Success?)
    ensures name != "image" && RenderElement(name, w, key, policy, encode).Success? ==>
      RenderElement(name, w, key, policy, encode).value == Element(Tag(name), key, RenderNode(w, policy, encode).value)
    ensures name == "image" && RenderElement(name, w, key, policy, encode).Success? ==>
      RenderElement(name, w, key, policy, encode).value.Img?
  {
  }

  /** The number of children a property contributes. */
  function PropCount(name: string, sub: Value): nat {
    if name == "#text" then 1
    else if IsAttribute(name) then 0
    else if sub.Arr? then |sub.items|
    else 1
  }

  function FieldsCount(fs: seq<Field>): nat {
    if fs == [] then 0 else PropCount(fs[0].name, fs[0].value) + FieldsCount(fs[1..])
  }

  lemma {:induction false} FanOutCount(name: string, xs: seq<Value>, base: nat, policy: ScalarPolicy, encode: string -> string)
    ensures FanOut(name, xs, base, policy, encode).Success? ==> |FanOut(name, xs, base, policy, encode).value| == |xs|
    decreases xs
  {
    if xs != [] {
      FanOutCount(name, xs[1..], base + 1, policy, encode);
    }
  }

  lemma PropCountMatches(name: string, sub: Value, policy: ScalarPolicy, encode: string -> string)
    ensures RenderProp(name, sub, policy, encode).Success? ==> |RenderProp(name, sub, policy, encode).value| == PropCount(name, sub)
  {
    if name != "#text" && !IsAttribute(name) && sub.Arr? {
      FanOutCount(name, sub.items, 0, policy, encode);
    }
  }

  /** An object renders to exactly one child per `#text`, none per
      attribute, one per array item and one per other property. */
  lemma {:induction false} FieldsCountMatches(fs: seq<Field>, policy: ScalarPolicy, encode: string -> string)
    ensures RenderFields(fs, policy, encode).Success? ==> |RenderFields(fs, policy, encode).value| == FieldsCount(fs)
  {
    if fs != [] {
      PropCountMatches(fs[0].name, fs[0].value, policy, encode);
      FieldsCountMatches(fs[1..], policy, encode);
    }
  }

  /** Items of an array-valued property become elements keyed
      `<name>-<index>`, in order. */
  lemma {:induction false} FanOutKeys(name: string, xs: seq<Value>, base: nat, policy: ScalarPolicy, encode: string -> string)
    requires name != "image"
    ensures FanOut(name, xs, base, policy, encode).Success? ==>
      && |FanOut(name, xs, base, policy, encode).value| == |xs|
      && forall j :: 0 <= j < |xs| ==>
        && RenderNode(xs[j], policy, encode).Success?
        && FanOut(name, xs, base, policy, encode).value[j]
             == Element(Tag(name), name + "-" + NatToString(base + j), RenderNode(xs[j], policy, encode).value)
    decreases xs
  {
    if xs != [] {
      FanOutKeys(name, xs[1..], base + 1, policy, encode);
      var r := FanOut(name, xs, base, policy, encode);
      if r.Success? {
        var rest := FanOut(name, xs[1..], base + 1, policy, encode).value;
        var h := RenderElement(name, xs[0], name + "-" + NatToString(base), policy, encode);
        assert h.Success?;
        RenderElementShape(name, xs[0], name + "-" + NatToString(base), policy, encode);
        assert RenderNode(xs[0], policy, encode).Success?;
        assert r.value == [Element(Tag(name), name + "-" + NatToString(base), RenderNode(xs[0], policy, encode).value)] + rest;
        forall j | 1 <= j < |xs|
          ensures RenderNode(xs[j], policy, encode).Success?
          ensures r.value[j] == Element(Tag(name), name + "-" + NatToString(base + j), RenderNode(xs[j], policy, encode).value)
        {
          assert r.value[j] == rest[j - 1];
          assert xs[1..][j - 1] == xs[j];
          assert base + 1 + (j - 1) == base + j;
        }
      }
    }
  }

  /** The object without its top-level attributes. */
  function StripAttributes(fs: seq<Field>): (r: seq<Field>)
    ensures forall f :: f in r ==> f in fs && !IsAttribute(f.name)
  {
    if fs == [] then []
    else if IsAttribute(fs[0].name) then StripAttributes(fs[1..])
    else [fs[0]] + StripAttributes(fs[1..])
  }

  /** Attributes never reach the output: an object renders exactly as it
      does with its attributes removed. */
  lemma {:induction false} AttributesIgnored(fs: seq<Field>, policy: ScalarPolicy, encode: string -> string)
    ensures RenderNode(Obj(fs), policy, encode) == RenderNode(Obj(StripAttributes(fs)), policy, encode)
  {
    FieldsIgnoreAttributes(fs, policy, encode);
  }

  lemma {:induction false} FieldsIgnoreAttributes(fs: seq<Field>, policy: ScalarPolicy, encode: string -> string)
    ensures RenderFields(fs, policy, encode) == RenderFields(StripAttributes(fs), policy, encode)
  {
    if fs != [] {
      FieldsIgnoreAttributes(fs[1..], policy, encode);
      if !IsAttribute(fs[0].name) {
        assert StripAttributes(fs)[1..] == StripAttributes(fs[1..]);
      } else {
        var rest := RenderFields(fs[1..], policy, encode);
        assert fs[0].name != "#text" by {
          assert fs[0].name[..2] == "@_";
          assert "#text"[..2] == "#t";
        }
        assert RenderFields(fs, policy, encode) == Combine(Success([]), rest);
        if rest.Success? {
          assert [] + rest.value == rest.value;
        }
      }
    }
  }

  // ---------------------------------------------------------------------
  // Text preservation

  /** The text a reader sees in a rendered tree, in document order. React
      shows a string or number child and nothing for `null` or a boolean. */
  function TextOf(h: Html): string {
    match h
    case Text(s) => s
    case Nothing => ""
    case Raw(v) => ChildText(v)
    case Fragment(cs) => TextsOf(cs)
    case Element(_, _, c) => TextOf(c)
    case Img(_, _, _) => ""
  }

  /** What React shows for a value pushed as a child: a string or a
      number; `null` and booleans show nothing. */
  function ChildText(v: Value): string {
    match v
    case Str(s) => s
    case Num(n) => IntToString(n)
    case _ => ""
  }

  /** `String(b)`. */
  function BoolText(b: bool): string {
    if b then "true" else "false"
  }

  /** The text a parsed scalar reads as: a string, a number's decimal
      digits or a boolean's word; `null` and containers carry none. */
  function ScalarText(v: Value): string {
    match v
    case Str(s) => s
    case Num(n) => IntToString(n)
    case Bool(b) => BoolText(b)
    case _ => ""
  }

  function TextsOf(hs: seq<Html>): string {
    if hs == [] then "" else TextOf(hs[0]) + TextsOf(hs[1..])
  }

  lemma {:induction false} TextsOfAppend(a: seq<Html>, b: seq<Html>)
    ensures TextsOf(a + b) == TextsOf(a) + TextsOf(b)
  {
    if a != [] {
      assert (a + b)[1..] == a[1..] + b;
      TextsOfAppend(a[1..], b);
    } else {
      assert a + b == b;
    }
  }

  /** The text content of a DITA fragment, read directly off the parsed
      value: strings, numbers and booleans, whether element content or
      `#text`, in key order; attributes and images carry none. */
  function DitaText(v: Value): string
    decreases v, 2
  {
    match v
    case Str(s) => s
    case Obj(fs) => FieldsText(fs)
    case Arr(xs) => IndexedText(xs)
    case _ => ScalarText(v)
  }

  function FieldsText(fs: seq<Field>): string
    decreases fs, 1
  {
    if fs == [] then "" else PropText(fs[0].name, fs[0].value) + FieldsText(fs[1..])
  }

  function IndexedText(xs: seq<Value>): string
    decreases xs, 1
  {
    if xs == [] then "" else PropText("0", xs[0]) + IndexedText(xs[1..])
  }

  function PropText(name: string, sub: Value): string
    decreases sub, 4
  {
    if name == "#text" then ScalarText(sub)
    else if IsAttribute(name) || name == "image" then ""
    else if sub.Arr? then ItemsText(sub.items)
    else DitaText(sub)
  }

  function ItemsText(xs: seq<Value>): string
    decreases xs, 1
  {
    if xs == [] then "" else DitaText(xs[0]) + ItemsText(xs[1..])
  }

  lemma DigitsAreNotSpecial(base: nat)
    ensures NatToString(base) != "#text" && NatToString(base) != "image" && !IsAttribute(NatToString(base))
  {
    var s := NatToString(base);
    assert '0' <= s[0] <= '9';
  }

  /** The corrected renderer loses no text and reorders none: the rendered
      tree reads exactly as the parsed fragment's text content. */
  lemma {:induction false} RenderPreservesText(v: Value, encode: string -> string)
    ensures RenderNode(v, ShowText, encode).Success? ==> TextOf(RenderNode(v, ShowText, encode).value) == DitaText(v)
    decreases v, 2
  {
    match v
    case Obj(fs) => FieldsPreserveText(fs, encode);
    case Arr(xs) => IndexedPreservesText(xs, 0, encode);
    case _ =>
  }

  lemma {:induction false} FieldsPreserveText(fs: seq<Field>, encode: string -> string)
    ensures RenderFields(fs, ShowText, encode).Success? ==> TextsOf(RenderFields(fs, ShowText, encode).value) == FieldsText(fs)
    decreases fs, 1
  {
    if fs != [] {
      var a := RenderProp(fs[0].name, fs[0].value, ShowText, encode);
      var b := RenderFields(fs[1..], ShowText, encode);
      if a.Success? && b.Success? {
        PropPreservesText(fs[0].name, fs[0].value, encode);
        FieldsPreserveText(fs[1..], encode);
        TextsOfAppend(a.value, b.value);
      }
    }
  }

  lemma {:induction false} IndexedPreservesText(xs: seq<Value>, base: nat, encode: string -> string)
    ensures RenderIndexed(xs, base, ShowText, encode).Success? ==> TextsOf(RenderIndexed(xs, base, ShowText, encode).value) == IndexedText(xs)
    decreases xs, 1
  {
    if xs != [] {
      var a := RenderProp(NatToString(base), xs[0], ShowText, encode);
      var b := RenderIndexed(xs[1..], base + 1, ShowText, encode);
      if a.Success? && b.Success? {
        PropPreservesText(NatToString(base), xs[0], encode);
        IndexedPreservesText(xs[1..], base + 1, encode);
        TextsOfAppend(a.value, b.value);
        DigitsAreNotSpecial(base);
        assert PropText(NatToString(base), xs[0]) == PropText("0", xs[0]);
      }
    }
  }

  lemma {:induction false} PropPreservesText(name: string, sub: Value, encode: string -> string)
    ensures RenderProp(name, sub, ShowText, encode).Success? ==> TextsOf(RenderProp(name, sub, ShowText, encode).value) == PropText(name, sub)
    decreases sub, 4
  {
    var r := RenderProp(name, sub, ShowText, encode);
    if r.Success? {
      if name == "#text" {
        if sub.Bool? {
          assert TextsOf(r.value) == TextOf(Text(BoolText(sub.b))) + TextsOf([]);
        } else {
          assert TextsOf(r.value) == TextOf(Raw(sub)) + TextsOf([]);
        }
      } else if IsAttribute(name) {
      } else if sub.Arr? {
        FanOutPreservesText(name, sub.items, 0, encode);
      } else {
        ElementPreservesText(name, sub, name, encode);
        assert TextsOf(r.value) == TextOf(r.value[0]) + TextsOf([]);
      }
    }
  }

  lemma {:induction false} FanOutPreservesText(name: string, xs: seq<Value>, base: nat, encode: string -> string)
    requires name != "#text" && !IsAttribute(name)
    ensures FanOut(name, xs, base, ShowText, encode).Success? ==>
      TextsOf(FanOut(name, xs, base, ShowText, encode).value) == (if name == "image" then "" else ItemsText(xs))
    decreases xs, 1
  {
    if xs != [] {
      var h := RenderElement(name, xs[0], name + "-" + NatToString(base), ShowText, encode);
      var b := FanOut(name, xs[1..], base + 1, ShowText, encode);
      if h.Success? && b.Success? {
        ElementPreservesText(name, xs[0], name + "-" + NatToString(base), encode);
        FanOutPreservesText(name, xs[1..], base + 1, encode);
        TextsOfAppend([h.value], b.value);
        assert TextsOf([h.value]) == TextOf(h.value) + TextsOf([]);
      }
    }
  }

  lemma {:induction false} ElementPreservesText(name: string, w: Value, key: string, encode: string -> string)
    ensures RenderElement(name, w, key, ShowText, encode).Success? ==>
      TextOf(RenderElement(name, w, key, ShowText, encode).value) == (if name == "image" then "" else DitaText(w))
    decreases w, 3
  {
    if name != "image" {
      RenderPreservesText(w, encode);
    }
  }

  /** As written, a table cell holding a number or a boolean renders as
      an empty cell: the text content of `<entry>42</entry>` is `42` and
      of `<entry>true</entry>` is `true`, the rendering shows nothing. The
      corrected renderer shows both. */
  lemma ScalarContentDropped(encode: string -> string)
    ensures RenderNode(Obj([Field("entry", Num(42))]), AsWritten, encode)
      == Success(Fragment([Element("td", "entry", Nothing)]))
    ensures TextOf(RenderNode(Obj([Field("entry", Num(42))]), AsWritten, encode).value) == ""
    ensures DitaText(Obj([Field("entry", Num(42))])) == "42"
    ensures TextOf(RenderNode(Obj([Field("entry", Num(42))]), ShowText, encode).value) == "42"
    ensures RenderNode(Obj([Field("entry", Bool(true))]), AsWritten, encode)
      == Success(Fragment([Element("td", "entry", Nothing)]))
    ensures DitaText(Obj([Field("entry", Bool(true))])) == "true"
    ensures TextOf(RenderNode(Obj([Field("entry", Bool(true))]), ShowText, encode).value) == "true"
  {
    assert IntToString(42) == "42" by {
      assert NatToString(4) == "4";
      assert NatToString(42) == NatToString(4) + [DigitChar(2)];
    }
    assert !IsAttribute("entry") by { assert "entry"[..2] == "en"; }
    CellRendering(Num(42), AsWritten, Nothing, encode);
    CellRendering(Num(42), ShowText, Text("42"), encode);
    CellText(Num(42));
    CellRendering(Bool(true), AsWritten, Nothing, encode);
    CellRendering(Bool(true), ShowText, Text("true"), encode);
    CellText(Bool(true));
  }

  /** A one-cell row renders as a `td` around its value's rendering. */
  lemma CellRendering(w: Value, policy: ScalarPolicy, h: Html, encode: string -> string)
    requires !IsAttribute("entry") && !w.Arr?
    requires RenderNode(w, policy, encode) == Success(h)
    ensures RenderNode(Obj([Field("entry", w)]), policy, encode) == Success(Fragment([Element("td", "entry", h)]))
    ensures TextOf(RenderNode(Obj([Field("entry", w)]), policy, encode).value) == TextOf(h)
  {
    assert RenderElement("entry", w, "entry", policy, encode) == Success(Element("td", "entry", h));
    assert RenderProp("entry", w, policy, encode) == Success([Element("td", "entry", h)]);
    assert [Field("entry", w)][1..] == [];
    assert RenderFields([], policy, encode) == Success([]);
    assert [Element("td", "entry", h)] + [] == [Element("td", "entry", h)];
    assert RenderFields([Field("entry", w)], policy, encode) == Success([Element("td", "entry", h)]);
    assert [Element("td", "entry", h)][1..] == [];
    assert TextsOf([Element("td", "entry", h)]) == TextOf(Element("td", "entry", h)) + TextsOf([]);
  }

  /** A one-cell row reads as its value. */
  lemma CellText(w: Value)
    requires !IsAttribute("entry") && !w.Arr?
    ensures DitaText(Obj([Field("entry", w)])) == DitaText(w)
  {
    assert [Field("entry", w)][1..] == [];
    assert FieldsText([Field("entry", w)]) == PropText("entry", w) + FieldsText([]);
  }
}

=== FILE: envelopes.dfy ===
/** The envelope documents of the `dita-envelope` collection, as the store
    returns them: a document URI and an optional `envelope` block whose
    `headers` carry the publication metadata and whose `instance` carries
    the DITA map's topic files and attachments. A header field that is
    absent is `None`; an empty string is kept, and is falsy like absence
    wherever the code applies `||`. Timestamps are integers. */
module Envelopes {
  import opened Base

  /** A node of a publication's topic tree (`ditaMap.files`). */
  datatype Topic = Topic(uri: string, title: string, lastModified: int, children: seq<Topic>)

  datatype Headers = Headers(
    programme: Option<string>,
    subject: Option<string>,
    publication: Option<string>,
    language: Option<string>,
    status: Option<string>,
    lastModified: Option<int>,
    uri: Option<string>)

  /** What `headers || {}` yields when the block is missing. */
  const NoHeaders := Headers(None, None, None, None, None, None, None)

  datatype DitaMap = DitaMap(files: Option<seq<Topic>>, attachments: Option<seq<string>>)

  datatype Instance = Instance(ditaMap: Option<DitaMap>)

  datatype Envelope = Envelope(headers: Option<Headers>, instance: Option<Instance>)

  datatype Doc = Doc(uri: string, envelope: Option<Envelope>)

  /** `doc.content.envelope?.headers || {}` */
  function HeadersOf(d: Doc): Headers {
    if d.envelope.Some? && d.envelope.value.headers.Some? then d.envelope.value.headers.value else NoHeaders
  }

  /** `instance.ditaMap?.files || []` (an array, even an empty one, is truthy). */
  function FilesOf(d: Doc): seq<Topic> {
    if d.envelope.Some? && d.envelope.value.instance.Some? && d.envelope.value.instance.value.ditaMap.Some?
    then d.envelope.value.instance.value.ditaMap.value.files.GetOr([])
    else []
  }

  /** `instance.ditaMap?.attachments || []` */
  function AttachmentsOf(d: Doc): seq<string> {
    if d.envelope.Some? && d.envelope.value.instance.Some? && d.envelope.value.instance.value.ditaMap.Some?
    then d.envelope.value.instance.value.ditaMap.value.attachments.GetOr([])
    else []
  }

  /** A timestamp header: `lastModified || now`. */
  function StampOr(t: Option<int>, now: int): int {
    t.GetOr(now)
  }
}

=== FILE: json.dfy ===
/** The JSON-like values the application passes around: the output of the
    XML-to-JSON parser and the bodies of store responses. Object members are
    an association list kept in key order, which is the order
    `Object.keys` reports for the keys this application sees. */
module Json {
  import opened Base

  datatype Value =
    | Null
    | Bool(b: bool)
    | Num(n: int)
    | Str(s: string)
    | Arr(items: seq<Value>)
    | Obj(fields: seq<Field>)

  datatype Field = Field(name: string, value: Value)

  /** JavaScript truthiness; `undefined` is the absent `Option`. */
  predicate Truthy(v: Value) {
    match v
    case Null => false
    case Bool(b) => b
    case Num(n) => n != 0
    case Str(s) => s != ""
    case Arr(_) => true
    case Obj(_) => true
  }

  predicate Present(v: Option<Value>) {
    v.Some? && Truthy(v.value)
  }

  /** `typeof v === 'object'`, which also holds for arrays and for null. */
  predicate IsObjectType(v: Value) {
    v.Null? || v.Arr? || v.Obj?
  }

  /** The first field of the list carrying `key`. */
  function Lookup(fields: seq<Field>, key: string): (r: Option<Value>)
    ensures r.Some? <==> exists i :: 0 <= i < |fields| && fields[i].name == key
    ensures r.Some? ==> exists i :: 0 <= i < |fields| && fields[i].name == key && fields[i].value == r.value
  {
    if fields == [] then None
    else if fields[0].name == key then Some(fields[0].value)
    else
      var r := Lookup(fields[1..], key);
      assert forall i :: 1 <= i < |fields| ==> fields[i] == fields[1..][i - 1];
      r
  }

  /** Property access `v[key]` on a value that is not null: strings,
      numbers and booleans have none of the keys this application reads. */
  function Member(v: Value, key: string): Option<Value> {
    match v
    case Obj(fields) => Lookup(fields, key)
    case _ => None
  }

  /** `a || b` where `a` may be undefined. */
  function Or(a: Option<Value>, b: Value): (r: Value)
    ensures Present(a) ==> r == a.value
    ensures !Present(a) ==> r == b
  {
    if Present(a) then a.value else b
  }
}

=== FILE: lastseen.dfy ===
/** The "new since last seen" highlighting of the home page: the browser's
    local storage maps `pubLastSeen_<publication>` and
    `topicLastSeen_<topic uri>` to the timestamp that was current when the
    viewer last opened the item. Timestamps are integers. A publication's
    header date may be absent, which is the absent `Option`; a sitemap
    entry's and a topic's date is always a number here. */
module LastSeen {
  import opened Base
  import opened Envelopes
  import opened Sitemap

  type Store = map<string, int>

  function PubKey(publication: string): string {
    "pubLastSeen_" + publication
  }

  function TopicKey(uri: string): string {
    "topicLastSeen_" + uri
  }

  /** A publication is highlighted when it was never opened, or when it
      changed after it was last opened. */
  predicate PublicationHighlighted(store: Store, publication: string, lastModified: int) {
    PubKey(publication) !in store || lastModified > store[PubKey(publication)]
  }

  /** `isPublicationHighlighted` over a sitemap entry. */
  predicate EntryHighlighted(store: Store, e: Entry) {
    PublicationHighlighted(store, e.publication, e.lastModified)
  }

  /** The storage effect of `handlePublicationClick`. */
  function ClickPublication(store: Store, e: Entry): (r: Store)
    ensures r.Keys == store.Keys + {PubKey(e.publication)}
    ensures r[PubKey(e.publication)] == e.lastModified
    ensures forall k :: k in store && k != PubKey(e.publication) ==> r[k] == store[k]
    ensures !EntryHighlighted(r, e)
  {
    store[PubKey(e.publication) := e.lastModified]
  }

  /** Clicking twice leaves the store as one click did. */
  lemma ClickPublicationIdempotent(store: Store, e: Entry)
    ensures ClickPublication(ClickPublication(store, e), e) == ClickPublication(store, e)
  {
  }

  /** A click changes the highlight of no other publication, unless the
      two share a name. */
  lemma ClickPublicationLocal(store: Store, e: Entry, other: Entry)
    requires other.publication != e.publication
    ensures EntryHighlighted(ClickPublication(store, e), other) == EntryHighlighted(store, other)
  {
    PubKeyInjective(e.publication, other.publication);
  }

  lemma {:induction false} PrefixedInjective(p: string, a: string, b: string)
    requires p + a == p + b
    ensures a == b
  {
    assert a == (p + a)[|p|..];
    assert b == (p + b)[|p|..];
  }

  lemma PubKeyInjective(a: string, b: string)
    ensures PubKey(a) == PubKey(b) ==> a == b
  {
    if PubKey(a) == PubKey(b) {
      PrefixedInjective("pubLastSeen_", a, b);
    }
  }

  /** Publication and topic entries never share a key. */
  lemma KeysDisjoint(publication: string, uri: string)
    ensures PubKey(publication) != TopicKey(uri)
  {
    assert PubKey(publication)[0] == 'p';
    assert TopicKey(uri)[0] == 't';
  }

  // ---------------------------------------------------------------------
  // Topic highlighting in the publication's menu

  /** `!storedPub || new Date(pubLastModified) <= new Date(storedPub)`. */
  predicate SkipTopicHighlight(store: Store, publication: string, pubLastModified: Option<int>) {
    PubKey(publication) !in store
    || (pubLastModified.Some? && pubLastModified.value <= store[PubKey(publication)])
  }

  predicate TopicHighlighted(store: Store, publication: string, pubLastModified: Option<int>, t: Topic) {
    !SkipTopicHighlight(store, publication, pubLastModified)
    && (TopicKey(t.uri) !in store || t.lastModified > store[TopicKey(t.uri)])
  }

  /** The storage effect of `handleTopicClick`. */
  function ClickTopic(store: Store, t: Topic): (r: Store)
    ensures r.Keys == store.Keys + {TopicKey(t.uri)}
    ensures r[TopicKey(t.uri)] == t.lastModified
    ensures forall k :: k in store && k != TopicKey(t.uri) ==> r[k] == store[k]
  {
    store[TopicKey(t.uri) := t.lastModified]
  }

  /** The decision table of `shouldHighlightTopic`: nothing is highlighted
      while the publication was never opened or has not changed since;
      otherwise a topic is highlighted when never opened or changed since. */
  lemma TopicHighlightCases(store: Store, publication: string, pubLastModified: Option<int>, t: Topic)
    ensures PubKey(publication) !in store ==> !TopicHighlighted(store, publication, pubLastModified, t)
    ensures PubKey(publication) in store && pubLastModified.Some? && pubLastModified.value <= store[PubKey(publication)]
      ==> !TopicHighlighted(store, publication, pubLastModified, t)
    ensures !SkipTopicHighlight(store, publication, pubLastModified) ==>
      (TopicHighlighted(store, publication, pubLastModified, t) <==>
         (TopicKey(t.uri) !in store || t.lastModified > store[TopicKey(t.uri)]))
  {
  }

  /** After a topic is clicked it is no longer highlighted, and the
      publication-level decision is unchanged. */
  lemma ClickTopicClears(store: Store, publication: string, pubLastModified: Option<int>, t: Topic)
    ensures !TopicHighlighted(ClickTopic(store, t), publication, pubLastModified, t)
    ensures SkipTopicHighlight(ClickTopic(store, t), publication, pubLastModified)
      == SkipTopicHighlight(store, publication, pubLastModified)
  {
    KeysDisjoint(publication, t.uri);
  }

  /** Opening a publication from the home page stores its timestamp, so
      when its menu is then shown for that same timestamp every topic
      highlight is suppressed. */
  lemma HomeClickSuppressesTopics(store: Store, e: Entry, t: Topic)
    ensures SkipTopicHighlight(ClickPublication(store, e), e.publication, Some(e.lastModified))
    ensures !TopicHighlighted(ClickPublication(store, e), e.publication, Some(e.lastModified), t)
  {
  }

  // ---------------------------------------------------------------------
  // The home page's programme columns

  datatype HomeItem = HomeItem(publication: string, highlighted: bool)

  datatype HomeSubject = HomeSubject(subject: string, items: seq<HomeItem>)

  datatype HomeColumn =
    | Placeholder(heading: string)
    | Column(heading: string, subjects: seq<HomeSubject>)

  function HomeItems(store: Store, entries: seq<Entry>): (r: seq<HomeItem>)
    ensures |r| == |entries|
    ensures forall i :: 0 <= i < |entries| ==>
      r[i].publication == entries[i].publication && r[i].highlighted == EntryHighlighted(store, entries[i])
  {
    seq(|entries|, i requires 0 <= i < |entries| => HomeItem(entries[i].publication, EntryHighlighted(store, entries[i])))
  }

  /** `renderProgrammeBlock`: a placeholder while the programme's sitemap
      is not loaded, otherwise every subject with every publication, each
      marked with its highlight decision. */
  function ProgrammeColumn(store: Store, name: string, data: Option<Snapshot>): (r: HomeColumn)
    ensures r.heading == Upper(name)
    ensures r.Placeholder? <==> data.None?
    ensures r.Column? ==> |r.subjects| == |data.value.subjects|
    ensures r.Column? ==> forall i :: 0 <= i < |r.subjects| ==>
      r.subjects[i].subject == data.value.subjects[i].subject
      && r.subjects[i].items == HomeItems(store, data.value.subjects[i].publications)
  {
    match data
    case None => Placeholder(Upper(name))
    case Some(d) =>
      Column(Upper(name), seq(|d.subjects|, i requires 0 <= i < |d.subjects| =>
        HomeSubject(d.subjects[i].subject, HomeItems(store, d.subjects[i].publications))))
  }
}

=== FILE: paths.dfy ===
/** POSIX path normalisation, as Node's `path.join` applies it to the
    relative paths the middle tier builds: the path is cut at every `/`,
    empty and `.` segments are dropped, and `..` removes the segment before
    it, or stays when there is none to remove. */
module Paths {

  /** The segments of a path between its `/` separators. */
  function Split(p: string): (r: seq<string>)
    ensures |r| >= 1
  {
    if p == [] then [""]
    else
      var rest := Split(p[1..]);
      if p[0] == '/' then [""] + rest
      else [[p[0]] + rest[0]] + rest[1..]
  }

  /** A path without a separator is one segment. */
  lemma {:induction false} SplitSegment(s: string)
    requires '/' !in s
    ensures Split(s) == [s]
  {
    if s != [] {
      assert '/' !in s[1..] by {
        forall i | 0 <= i < |s[1..]| ensures s[1..][i] != '/' {
          assert s[1..][i] == s[i + 1];
        }
      }
      SplitSegment(s[1..]);
      assert [s[0]] + s[1..] == s;
    }
  }

  /** A separator after a segment starts the next one. */
  lemma {:induction false} SplitAfterSegment(a: string, b: string)
    requires '/' !in a
    ensures Split(a + "/" + b) == [a] + Split(b)
  {
    if a == [] {
      assert a + "/" + b == "/" + b;
      assert ("/" + b)[1..] == b;
    } else {
      assert '/' !in a[1..] by {
        forall i | 0 <= i < |a[1..]| ensures a[1..][i] != '/' {
          assert a[1..][i] == a[i + 1];
        }
      }
      SplitAfterSegment(a[1..], b);
      assert (a + "/" + b)[1..] == a[1..] + "/" + b;
      assert [a[0]] + a[1..] == a;
    }
  }

  /** One segment applied to the segments kept so far. */
  function Step(kept: seq<string>, segment: string): seq<string> {
    if segment == "" || segment == "." then kept
    else if segment == ".." then
      if |kept| > 0 && kept[|kept| - 1] != ".." then kept[..|kept| - 1] else kept + [".."]
    else kept + [segment]
  }

  function Resolve(kept: seq<string>, segments: seq<string>): seq<string>
    decreases |segments|
  {
    if segments == [] then kept else Resolve(Step(kept, segments[0]), segments[1..])
  }

  function Join(segments: seq<string>): string
    requires |segments| >= 1
  {
    if |segments| == 1 then segments[0] else segments[0] + "/" + Join(segments[1..])
  }

  /** `path.normalize` of a relative path: `.` when nothing is kept. */
  function Normalize(p: string): string {
    var kept := Resolve([], Split(p));
    if kept == [] then "." else Join(kept)
  }

  /** A path of two ordinary segments is already normal. */
  lemma TwoSegmentsNormal(dir: string, name: string)
    requires '/' !in dir && '/' !in name
    requires dir != "" && dir != "." && dir != ".."
    requires name != "" && name != "." && name != ".."
    ensures Normalize(dir + "/" + name) == dir + "/" + name
  {
    SplitAfterSegment(dir, name);
    SplitSegment(name);
    assert Split(dir + "/" + name) == [dir, name];
    assert Step([], dir) == [dir];
    assert [dir, name][1..] == [name];
    assert Resolve([], [dir, name]) == Resolve([dir], [name]);
    assert Step([dir], name) == [dir, name];
    assert Resolve([dir], [name]) == Resolve([dir, name], []);
    assert Join([dir, name]) == dir + "/" + Join([name]);
  }

  /** `..` removes the directory before it: the result leaves `dir`. */
  lemma ParentLeaves(dir: string, name: string)
    requires '/' !in dir && '/' !in name
    requires dir != "" && dir != "." && dir != ".."
    requires name != "" && name != "." && name != ".."
    ensures Normalize(dir + "/../" + name) == name
  {
    SplitSegment(name);
    SplitAfterSegment("..", name);
    SplitAfterSegment(dir, "../" + name);
    assert dir + "/../" + name == dir + "/" + ("../" + name);
    assert "../" + name == ".." + "/" + name;
    assert Split(dir + "/../" + name) == [dir, "..", name];
    assert Resolve([], [dir, "..", name]) == Resolve([dir], ["..", name]);
    assert Resolve([dir], ["..", name]) == Resolve([], [name]);
    assert Resolve([], [name]) == Resolve([name], []);
  }

  /** A detour through a sibling directory and back is removed. */
  lemma DetourRemoved(dir: string, other: string, name: string)
    requires '/' !in dir && '/' !in other && '/' !in name
    requires dir != "" && dir != "." && dir != ".."
    requires other != "" && other != "." && other != ".."
    requires name != "" && name != "." && name != ".."
    ensures Normalize(dir + "/" + other + "/../" + name) == dir + "/" + name
  {
    SplitSegment(name);
    SplitAfterSegment("..", name);
    SplitAfterSegment(other, "../" + name);
    SplitAfterSegment(dir, other + "/../" + name);
    assert "../" + name == ".." + "/" + name;
    assert other + "/../" + name == other + "/" + ("../" + name);
    assert dir + "/" + other + "/../" + name == dir + "/" + (other + "/../" + name);
    assert Split(other + "/../" + name) == [other, "..", name];
    assert Split(dir + "/" + other + "/../" + name) == [dir, other, "..", name];
    assert [dir, other, "..", name][1..] == [other, "..", name];
    assert [other, "..", name][1..] == ["..", name];
    assert Step([], dir) == [dir];
    assert Resolve([], [dir, other, "..", name]) == Resolve([dir], [other, "..", name]);
    assert Step([dir], other) == [dir, other];
    assert Resolve([dir], [other, "..", name]) == Resolve([dir, other], ["..", name]);
    assert Step([dir, other], "..") == [dir];
    assert Resolve([dir, other], ["..", name]) == Resolve([dir], [name]);
    assert Resolve([dir], [name]) == Resolve([dir, name], []);
    assert Join([dir, name]) == dir + "/" + Join([name]);
  }
}

=== FILE: publication_page.dfy ===
/** The publication page (`PublicationPage`): how it settles the envelope
    URI it shows, either verbatim from the `envUri` query value or by a
    first-match search of the envelope summaries, and what it hands to the
    left-hand menu once the envelope is loaded. The page stays mounted
    while the nested topic route changes, so each of its two effects is a
    step from the state it held before. Fetches are given as their
    outcomes. */
module PublicationPage {
  import opened Base
  import opened Envelopes
  import opened Sitemap
  import opened Routes
  import opened LastSeen
  import TopicMenu

  /** The outcome of `fetch('/api/envelopes')`: a thrown error, a reply
      that is not OK, or the summary list. */
  datatype EnvelopesFetch = FetchThrew | FetchNotOk | FetchOk(envs: seq<EnvelopeSummary>)

  /** `allEnvs.find(env => env.publication === name && env.programme === programme)` */
  function FindEnvelope(envs: seq<EnvelopeSummary>, name: string, programme: string): (r: Option<EnvelopeSummary>)
    ensures r.None? <==> forall i :: 0 <= i < |envs| ==> !(envs[i].publication == name && envs[i].programme == programme)
    ensures r.Some? ==> exists i :: (0 <= i < |envs| && envs[i] == r.value
      && forall j :: 0 <= j < i ==> !(envs[j].publication == name && envs[j].programme == programme))
    ensures r.Some? ==> r.value.publication == name && r.value.programme == programme
  {
    if envs == [] then None
    else if envs[0].publication == name && envs[0].programme == programme then Some(envs[0])
    else
      var r := FindEnvelope(envs[1..], name, programme);
      assert forall i :: 1 <= i < |envs| ==> envs[i] == envs[1..][i - 1];
      r
  }

  /** `loadEnvUri`: the URI it sets, or `None` when it returns early
      without setting one. A query value that is present and non-empty is
      used as it is; otherwise the summaries are searched. */
  function ResolveEnvUri(query: Option<string>, fetch: EnvelopesFetch, name: string, programme: string): Option<string> {
    if OrElse(query, "") != "" then query
    else
      match fetch
      case FetchOk(envs) =>
        (match FindEnvelope(envs, name, programme)
         case Some(found) => Some(found.envelopeUri)
         case None => None)
      case _ => None
  }

  /** A non-empty query value is taken verbatim, whatever the envelope
      list would have said. */
  lemma QueryUsedVerbatim(query: string, f1: EnvelopesFetch, f2: EnvelopesFetch, name: string, programme: string)
    requires query != ""
    ensures ResolveEnvUri(Some(query), f1, name, programme) == Some(query)
    ensures ResolveEnvUri(Some(query), f1, name, programme) == ResolveEnvUri(Some(query), f2, name, programme)
  {
  }

  /** Without a query value, the URI set is the first matching summary's
      envelope URI; a failed fetch or no match sets none, and the page
      keeps the URI it already held. */
  lemma LookupOutcome(prev: PubState, query: Option<string>, fetch: EnvelopesFetch, name: string, programme: string)
    requires OrElse(query, "") == ""
    ensures ResolveEnvUri(query, fetch, name, programme).None? ==> SettleEnvUri(prev, query, fetch, name, programme) == prev
    ensures !fetch.FetchOk? ==> ResolveEnvUri(query, fetch, name, programme).None?
    ensures fetch.FetchOk? ==>
      (ResolveEnvUri(query, fetch, name, programme).None? <==>
         forall i :: 0 <= i < |fetch.envs| ==> !(fetch.envs[i].publication == name && fetch.envs[i].programme == programme))
    ensures ResolveEnvUri(query, fetch, name, programme).Some? ==>
      exists i :: 0 <= i < |fetch.envs| && fetch.envs[i].publication == name && fetch.envs[i].programme == programme
        && fetch.envs[i].envelopeUri == ResolveEnvUri(query, fetch, name, programme).value
  {
  }

  /** The match is case-sensitive: a lower-cased code in the route, such
      as `dp`, finds nothing in a list whose programmes are all codes. */
  lemma CaseSensitiveMatch(envs: seq<EnvelopeSummary>, name: string, p: Programme)
    requires forall i :: 0 <= i < |envs| ==> ParseProgramme(envs[i].programme).Some?
    ensures FindEnvelope(envs, name, Lower(Code(p))).None?
  {
    LowerCode(p);
  }

  // ---------------------------------------------------------------------
  // The page

  /** What the page renders. `Crashed` stands for the `TypeError` thrown
      when the loaded envelope has no `headers`, `instance` or `ditaMap`. */
  datatype View =
    | NoEnvelopeUri(publication: string)
    | LoadingEnvelope(publication: string)
    | Crashed
    | Shown(publication: string, pubLastModified: Option<int>, topics: seq<Topic>)

  /** `envelopeData.headers.lastModified` and
      `envelopeData.instance.ditaMap.files || []`. */
  function TopicsOf(env: Envelope): (r: Option<(Option<int>, seq<Topic>)>)
    ensures r.Some? <==> env.headers.Some? && env.instance.Some? && env.instance.value.ditaMap.Some?
    ensures r.Some? ==> r.value.1 == env.instance.value.ditaMap.value.files.GetOr([])
    ensures r.Some? ==> r.value.0 == env.headers.value.lastModified
  {
    if env.headers.Some? && env.instance.Some? && env.instance.value.ditaMap.Some? then
      Some((env.headers.value.lastModified, env.instance.value.ditaMap.value.files.GetOr([])))
    else None
  }

  /** The render: no URI wins over everything, then a missing envelope
      shows the loading message. */
  function PageView(name: string, envUri: Option<string>, envelope: Option<Envelope>): (r: View)
    ensures r.NoEnvelopeUri? <==> OrElse(envUri, "") == ""
    ensures r.LoadingEnvelope? <==> OrElse(envUri, "") != "" && envelope.None?
    ensures r.Crashed? <==> OrElse(envUri, "") != "" && envelope.Some? && TopicsOf(envelope.value).None?
    ensures r.Shown? ==> TopicsOf(envelope.value) == Some((r.pubLastModified, r.topics))
    ensures !r.Crashed? ==> r.publication == name
  {
    if OrElse(envUri, "") == "" then NoEnvelopeUri(name)
    else if envelope.None? then LoadingEnvelope(name)
    else
      match TopicsOf(envelope.value)
      case None => Crashed
      case Some((stamp, topics)) => Shown(name, stamp, topics)
  }

  /** The left-hand menu the page shows, for the given store. */
  function MenuOf(store: Store, v: View): (r: Option<TopicMenu.Menu>)
    ensures r.Some? <==> v.Shown?
    ensures r.Some? ==> (r.value.NoTopics? <==> v.topics == [])
  {
    match v
    case Shown(name, stamp, topics) => Some(TopicMenu.RenderMenu(TopicMenu.Context(store, name, stamp), Some(topics)))
    case _ => None
  }

  /** A loaded envelope with headers and a map is shown with the headers'
      timestamp and the map's topic files. */
  lemma LoadedEnvelopeShown(name: string, uri: string, env: Envelope)
    requires uri != ""
    requires env.headers.Some? && env.instance.Some? && env.instance.value.ditaMap.Some?
    ensures PageView(name, Some(uri), Some(env))
      == Shown(name, env.headers.value.lastModified, env.instance.value.ditaMap.value.files.GetOr([]))
  {
  }

  /** A loaded envelope whose map has no `files` shows the no-topics
      message rather than failing. */
  lemma MissingFilesShowNoTopics(store: Store, name: string, uri: string, env: Envelope)
    requires uri != ""
    requires env.headers.Some? && env.instance.Some? && env.instance.value.ditaMap.Some?
    requires env.instance.value.ditaMap.value.files.None?
    ensures MenuOf(store, PageView(name, Some(uri), Some(env))) == Some(TopicMenu.NoTopics)
  {
  }

  // ---------------------------------------------------------------------
  // The page state

  /** `envUri` and `envelopeData`. */
  datatype PubState = PubState(envUri: Option<string>, envelope: Option<Envelope>)

  /** Both unset, as when the page is mounted. */
  const PubInitial := PubState(None, None)

  /** The first effect, run when the query or the route parameters change,
      once `loadEnvUri` has settled: it sets the URI it found, and when it
      returns early the page keeps the URI it already held. */
  function SettleEnvUri(prev: PubState, query: Option<string>, fetch: EnvelopesFetch, name: string, programme: string): (r: PubState)
    ensures r.envelope == prev.envelope
    ensures OrElse(query, "") != "" ==> r.envUri == query
    ensures OrElse(query, "") == "" && fetch.FetchOk? && FindEnvelope(fetch.envs, name, programme).Some? ==>
      r.envUri == Some(FindEnvelope(fetch.envs, name, programme).value.envelopeUri)
    ensures OrElse(query, "") == "" && (!fetch.FetchOk? || FindEnvelope(fetch.envs, name, programme).None?) ==>
      r == prev
  {
    match ResolveEnvUri(query, fetch, name, programme)
    case Some(uri) => prev.(envUri := Some(uri))
    case None => prev
  }

  /** The outcome of `fetch('/api/envelope?uri=…')` so far: still pending,
      a thrown error (including a body that is not JSON), a reply that is
      not OK, or the reply's `envelope` member, which may be absent. */
  datatype EnvelopeFetch = EnvelopePending | EnvelopeThrew | EnvelopeNotOk | EnvelopeFetched(envelope: Option<Envelope>)

  /** The second effect, run when `envUri` changes: without a URI nothing
      happens; a fetched reply replaces the envelope; a pending, failed or
      non-OK fetch keeps the envelope the page already held, which may be
      the one loaded for an earlier URI. */
  function LoadEnvelope(prev: PubState, fetch: EnvelopeFetch): (r: PubState)
    ensures r.envUri == prev.envUri
    ensures OrElse(prev.envUri, "") != "" && fetch.EnvelopeFetched? ==> r.envelope == fetch.envelope
    ensures OrElse(prev.envUri, "") == "" || !fetch.EnvelopeFetched? ==> r == prev
  {
    if OrElse(prev.envUri, "") != "" && fetch.EnvelopeFetched? then prev.(envelope := fetch.envelope) else prev
  }

  /** The page a state shows. */
  function StateView(name: string, s: PubState): View {
    PageView(name, s.envUri, s.envelope)
  }

  /** Opening a publication from the landing page passes `envUri` and a
      lower-cased programme; a topic click in the menu then drops `envUri`
      from the query. The search that follows finds nothing, since the
      summaries carry upper-case codes, so the page keeps its URI and its
      envelope and still shows the publication. */
  lemma TopicClickKeepsEnvelope(name: string, uri: string, env: Envelope, p: Programme,
                                 listFetch: EnvelopesFetch, topicFetch: EnvelopesFetch)
    requires uri != ""
    requires env.headers.Some? && env.instance.Some? && env.instance.value.ditaMap.Some?
    requires topicFetch.FetchOk? ==>
      forall i :: 0 <= i < |topicFetch.envs| ==> ParseProgramme(topicFetch.envs[i].programme).Some?
    ensures
      var route := Lower(Code(p));
      var listed := LoadEnvelope(SettleEnvUri(PubInitial, Some(uri), listFetch, name, route), EnvelopeFetched(Some(env)));
      && SettleEnvUri(listed, None, topicFetch, name, route) == listed
      && StateView(name, SettleEnvUri(listed, None, topicFetch, name, route))
           == Shown(name, env.headers.value.lastModified, env.instance.value.ditaMap.value.files.GetOr([]))
  {
    if topicFetch.FetchOk? {
      CaseSensitiveMatch(topicFetch.envs, name, p);
    }
    LoadedEnvelopeShown(name, uri, env);
  }

  /** Once an envelope is loaded the loading message never returns: a
      change of URI keeps the old envelope until the new one arrives, and
      a failed or non-OK fetch keeps it for good. Only a reply without an
      `envelope` member clears it. */
  lemma EnvelopeOutlivesUri(prev: PubState, query: Option<string>, fetch: EnvelopesFetch, name: string, programme: string,
                            load: EnvelopeFetch)
    requires prev.envelope.Some?
    requires !(load.EnvelopeFetched? && load.envelope.None?)
    ensures LoadEnvelope(SettleEnvUri(prev, query, fetch, name, programme), load).envelope.Some?
    ensures !StateView(name, LoadEnvelope(SettleEnvUri(prev, query, fetch, name, programme), load)).LoadingEnvelope?
    ensures !load.EnvelopeFetched? ==>
      LoadEnvelope(SettleEnvUri(prev, query, fetch, name, programme), load).envelope == prev.envelope
  {
  }

  /** A route with a programme that is not one of the exact codes, as the
      landing page's lower-cased links and any address typed or reloaded
      from them carry: without `envUri`, a freshly mounted page finds no
      envelope after any successful build. */
  lemma DeepLinkAsWritten(docs: seq<Doc>, now: int, p: Programme, name: string, load: EnvelopeFetch)
    requires Build(docs, now).Success?
    ensures
      var s := LoadEnvelope(SettleEnvUri(PubInitial, None, FetchOk(Summaries(docs)), name, Lower(Code(p))), load);
      s == PubInitial && StateView(name, s) == NoEnvelopeUri(name)
  {
    BuildSucceedsIff(docs, now);
    SummariesKnown(docs);
    LowerCode(p);
    var envs := Summaries(docs);
    forall i | 0 <= i < |envs| ensures envs[i].programme != Lower(Code(p)) {
      assert envs[i] in envs;
    }
  }

  /** The lower-cased codes are not codes, and upper-case back to them. */
  lemma LowerCode(p: Programme)
    ensures ParseProgramme(Lower(Code(p))).None?
    ensures Upper(Lower(Code(p))) == Code(p)
  {
    match p
    case DP => assert Lower("DP") == "dp"; assert Upper("dp") == "DP";
    case CP => assert Lower("CP") == "cp"; assert Upper("cp") == "CP";
    case MYP => assert Lower("MYP") == "myp"; assert Upper("myp") == "MYP";
    case PYP => assert Lower("PYP") == "pyp"; assert Upper("pyp") == "PYP";
  }

  /** The lookup as evidently intended: the route's programme is compared
      upper-cased, as the codes are written. */
  function ResolveEnvUriIgnoringCase(query: Option<string>, fetch: EnvelopesFetch, name: string, programme: string): Option<string> {
    ResolveEnvUri(query, fetch, name, Upper(programme))
  }

  /** With the corrected lookup, the landing page's lower-cased route of
      any document with a publication header finds, without `envUri`, an
      envelope with that publication name and programme: the first one
      listed, which is another document's when an earlier document has the
      same name and programme. */
  lemma DeepLinkResolves(docs: seq<Doc>, now: int, d: Doc, p: Programme)
    requires d in docs && InProgramme(d, p)
    requires OrElse(HeadersOf(d).publication, "") != ""
    ensures
      var found := FindEnvelope(Summaries(docs), EntryOf(d, now).publication, Code(p));
      && found.Some?
      && found.value.programme == Code(p)
      && found.value.publication == EntryOf(d, now).publication
      && ResolveEnvUriIgnoringCase(None, FetchOk(Summaries(docs)), EntryOf(d, now).publication, Lower(Code(p)))
           == Some(found.value.envelopeUri)
  {
    LowerCode(p);
    HomeRouteResolves(docs, now, d, p, None);
  }

  /** With the corrected lookup, the lower-cased route of the first
      document listed with its publication name and programme finds that
      document's own envelope. */
  lemma {:induction false} DeepLinkFindsFirstListed(docs: seq<Doc>, now: int, k: nat, p: Programme)
    requires k < |docs| && InProgramme(docs[k], p)
    requires OrElse(HeadersOf(docs[k]).publication, "") != ""
    requires forall j :: 0 <= j < k ==>
      !(Summaries(docs)[j].publication == Summaries(docs)[k].publication && Summaries(docs)[j].programme == Code(p))
    ensures ResolveEnvUriIgnoringCase(None, FetchOk(Summaries(docs)), EntryOf(docs[k], now).publication, Lower(Code(p)))
      == Some(docs[k].uri)
  {
    LowerCode(p);
    SummariesAt(docs, k);
    SummaryAgainstSitemap(docs[k], now);
    FirstMatchFound(Summaries(docs), EntryOf(docs[k], now).publication, Code(p), k);
  }

  /** `find` returns the first element that matches. */
  lemma {:induction false} FirstMatchFound(envs: seq<EnvelopeSummary>, name: string, programme: string, k: nat)
    requires k < |envs| && envs[k].publication == name && envs[k].programme == programme
    requires forall j :: 0 <= j < k ==> !(envs[j].publication == name && envs[j].programme == programme)
    ensures FindEnvelope(envs, name, programme) == Some(envs[k])
  {
    if k > 0 {
      FirstMatchFound(envs[1..], name, programme, k - 1);
    }
  }

  // ---------------------------------------------------------------------
  // Arriving from the home page

  /** The summary list is the per-document summary, position by position. */
  lemma {:induction false} SummariesAt(docs: seq<Doc>, k: nat)
    requires k < |docs|
    ensures Summaries(docs)[k] == Summarize(docs[k])
  {
    if k > 0 {
      SummariesAt(docs[1..], k - 1);
    }
  }

  /** The route parameters of the home page's navigation as written: the
      sitemap entry has no `programme` field, so `encodeURIComponent` of
      undefined puts the text `undefined` in the programme segment. No
      `envUri` is passed. */
  function HomeRouteAsWritten(e: Entry): (string, string) {
    ("undefined", e.publication)
  }

  /** As written, after any successful build no summary has the programme
      `undefined` (it is not one of the four codes), so a publication page
      reached from the home page never finds its envelope. */
  lemma HomeRouteAsWrittenNeverResolves(docs: seq<Doc>, now: int, e: Entry, query: Option<string>)
    requires Build(docs, now).Success?
    requires OrElse(query, "") == ""
    ensures ResolveEnvUri(query, FetchOk(Summaries(docs)), HomeRouteAsWritten(e).1, HomeRouteAsWritten(e).0).None?
  {
    BuildSucceedsIff(docs, now);
    SummariesKnown(docs);
  }

  /** When every document names one of the four codes, so does every
      summary. */
  lemma {:induction false} SummariesKnown(docs: seq<Doc>)
    requires forall i :: 0 <= i < |docs| ==> Known(docs[i])
    ensures forall s :: s in Summaries(docs) ==> ParseProgramme(s.programme).Some?
  {
    if docs != [] {
      assert forall i :: 0 <= i < |docs[1..]| ==> docs[1..][i] == docs[i + 1];
      SummariesKnown(docs[1..]);
      assert Summaries(docs) == [Summarize(docs[0])] + Summaries(docs[1..]);
      assert Known(docs[0]);
    }
  }

  /** The navigation as intended: the programme segment is the code of the
      column the entry is listed in. */
  function HomeRoute(p: Programme, e: Entry): (string, string) {
    (Code(p), e.publication)
  }

  /** With the intended route, the entry of any document with a non-empty
      publication header resolves to an envelope of that programme with
      that publication name. */
  lemma HomeRouteResolves(docs: seq<Doc>, now: int, d: Doc, p: Programme, query: Option<string>)
    requires d in docs && InProgramme(d, p)
    requires OrElse(HeadersOf(d).publication, "") != ""
    requires OrElse(query, "") == ""
    ensures FindEnvelope(Summaries(docs), EntryOf(d, now).publication, HomeRoute(p, EntryOf(d, now)).0).Some?
    ensures
      var found := FindEnvelope(Summaries(docs), EntryOf(d, now).publication, Code(p));
      && found.value.programme == Code(p)
      && found.value.publication == EntryOf(d, now).publication
      && ResolveEnvUri(query, FetchOk(Summaries(docs)), HomeRoute(p, EntryOf(d, now)).1, HomeRoute(p, EntryOf(d, now)).0)
           == Some(found.value.envelopeUri)
  {
    var k :| 0 <= k < |docs| && docs[k] == d;
    SummariesAt(docs, k);
    SummaryAgainstSitemap(d, now);
    assert Summaries(docs)[k].publication == EntryOf(d, now).publication;
  }
}

=== FILE: routes.dfy ===
/** The read routes of the middle tier: the two list projections over the
    envelope collection, the four single-document routes keyed by `?uri=`,
    and the route that serves a stored sitemap by programme name. Store
    reads are given as functions returning either documents or the message
    of the exception the client library threw; `encodeURIComponent` and the
    XML parser are parameters as well. */
module Routes {
  import opened Base
  import Json
  import opened Envelopes
  import opened Sitemap
  import Paths

  /** A reply: status 200 with a body, or an error status with the
      `error` message of the JSON body. */
  datatype Reply<T> = Ok(body: T) | Err(status: int, message: string) {
    function Status(): int {
      if Ok? then 200 else status
    }
  }

  // ---------------------------------------------------------------------
  // GET /api/envelopes

  datatype EnvelopeSummary = EnvelopeSummary(
    publication: string,
    programme: string,
    subject: string,
    envelopeUri: string,
    ditamapUri: string,
    lastModified: Option<int>)

  function Summarize(d: Doc): EnvelopeSummary {
    var h := HeadersOf(d);
    EnvelopeSummary(
      OrElse(h.publication, "UntitledPub"),
      OrElse(h.programme, "DP"),
      OrElse(h.subject, ""),
      d.uri,
      OrElse(h.uri, ""),
      h.lastModified)
  }

  /** One summary per document, in the order the store returned them. */
  function Summaries(docs: seq<Doc>): (r: seq<EnvelopeSummary>)
    ensures |r| == |docs|
    ensures forall i :: 0 <= i < |docs| ==> r[i].envelopeUri == docs[i].uri
    ensures forall i :: 0 <= i < |docs| ==> r[i].publication != "" && r[i].programme != ""
    ensures forall i :: 0 <= i < |docs| ==> r[i].publication == OrElse(HeadersOf(docs[i]).publication, "UntitledPub")
    ensures forall i :: 0 <= i < |docs| ==> r[i].programme == OrElse(HeadersOf(docs[i]).programme, "DP")
    ensures forall i :: 0 <= i < |docs| ==> r[i].subject == OrElse(HeadersOf(docs[i]).subject, "")
    ensures forall i :: 0 <= i < |docs| ==> r[i].ditamapUri == OrElse(HeadersOf(docs[i]).uri, "")
    ensures forall i :: 0 <= i < |docs| ==> r[i].lastModified == HeadersOf(docs[i]).lastModified
  {
    if docs == [] then [] else [Summarize(docs[0])] + Summaries(docs[1..])
  }

  function EnvelopesRoute(query: Result<seq<Doc>, string>): Reply<seq<EnvelopeSummary>> {
    match query
    case Success(docs) => Ok(Summaries(docs))
    case Failure(msg) => Err(500, msg)
  }

  /** The summary list and the sitemap agree on the programme of every
      document, but name an untitled document differently: the list says
      `UntitledPub` where the sitemap uses the document URI. */
  lemma SummaryAgainstSitemap(d: Doc, now: int)
    ensures Summarize(d).programme == ProgrammeKey(d)
    ensures Summarize(d).ditamapUri == EntryOf(d, now).ditamapUri
    ensures Summarize(d).publication == EntryOf(d, now).publication
      <==> (OrElse(HeadersOf(d).publication, "") != "" || d.uri == "UntitledPub")
  {
  }

  // ---------------------------------------------------------------------
  // GET /api/publications

  datatype PublicationItem = PublicationItem(
    publication: string,
    programme: string,
    lastModified: int,
    envelopeUri: string)

  function PublicationOf(d: Doc, now: int, encode: string -> string): PublicationItem {
    var h := HeadersOf(d);
    PublicationItem(
      OrElse(h.publication, d.uri),
      OrElse(h.programme, "DP"),
      StampOr(h.lastModified, now),
      "/api/envelope?uri=" + encode(d.uri))
  }

  function Publications(docs: seq<Doc>, now: int, encode: string -> string): (r: seq<PublicationItem>)
    ensures |r| == |docs|
    ensures forall i :: 0 <= i < |docs| ==> StartsWith(r[i].envelopeUri, "/api/envelope?uri=")
  {
    if docs == [] then [] else [PublicationOf(docs[0], now, encode)] + Publications(docs[1..], now, encode)
  }

  /** The publication list names, dates and files every document under the
      same programme as the sitemap built at the same instant. */
  lemma {:induction false} PublicationsAgainstSitemap(docs: seq<Doc>, now: int, encode: string -> string)
    ensures forall i :: 0 <= i < |docs| ==>
      && Publications(docs, now, encode)[i].publication == EntryOf(docs[i], now).publication
      && Publications(docs, now, encode)[i].lastModified == EntryOf(docs[i], now).lastModified
      && Publications(docs, now, encode)[i].programme == ProgrammeKey(docs[i])
  {
    if docs != [] {
      PublicationsAgainstSitemap(docs[1..], now, encode);
      assert forall i :: 1 <= i < |docs| ==> docs[1..][i - 1] == docs[i];
    }
  }

  // ---------------------------------------------------------------------
  // The single-document routes

  datatype Content = Structured(value: Json.Value) | Text(text: string) | Binary(bytes: seq<int>)

  datatype StoredDoc = StoredDoc(content: Content, format: string, contentType: Option<string>)

  datatype DocRoute = EnvelopeDoc | DitaMapDoc | DitaXmlDoc | DitaImageDoc

  /** What a successful single-document route sends: the content, and for
      a binary image the `Content-Type` header it sets. */
  datatype Sent = Sent(content: Content, contentType: Option<string>)

  function NotFoundMessage(route: DocRoute): string {
    if route == EnvelopeDoc then "Envelope not found" else "Not found"
  }

  /** The reply for the first stored document: map and topic routes run
      the parser over text content, the image route labels binaries. */
  function Deliver(route: DocRoute, doc: StoredDoc, parse: string -> Json.Value): Sent {
    match route
    case EnvelopeDoc => Sent(doc.content, None)
    case DitaImageDoc =>
      if doc.format == "binary" then Sent(doc.content, Some(OrElse(doc.contentType, "application/octet-stream")))
      else Sent(doc.content, None)
    case _ =>
      if doc.content.Text? then Sent(Structured(parse(doc.content.text)), None) else Sent(doc.content, None)
  }

  function ReadRoute(route: DocRoute, uri: Option<string>, read: string -> Result<seq<StoredDoc>, string>,
                     parse: string -> Json.Value): (r: Reply<Sent>)
    ensures (uri.None? || uri.value == "") <==> r == Err(400, "Missing ?uri=")
    ensures r.Status() == 404 <==> (OrElse(uri, "") != "" && read(uri.value) == Success([]))
    ensures r.Ok? <==> (OrElse(uri, "") != "" && read(uri.value).Success? && read(uri.value).value != [])
    ensures r.Ok? ==> r.body == Deliver(route, read(uri.value).value[0], parse)
  {
    if OrElse(uri, "") == "" then Err(400, "Missing ?uri=")
    else
      match read(uri.value)
      case Failure(msg) => Err(500, msg)
      case Success(docs) =>
        if docs == [] then Err(404, NotFoundMessage(route))
        else Ok(Deliver(route, docs[0], parse))
  }

  /** A missing `?uri=` is answered before the store is consulted: the
      reply does not depend on what the store would have returned. */
  lemma MissingUriIgnoresStore(route: DocRoute, uri: Option<string>,
                               read1: string -> Result<seq<StoredDoc>, string>,
                               read2: string -> Result<seq<StoredDoc>, string>,
                               parse: string -> Json.Value)
    requires uri.None? || uri.value == ""
    ensures ReadRoute(route, uri, read1, parse) == ReadRoute(route, uri, read2, parse)
    ensures ReadRoute(route, uri, read1, parse).Status() == 400
  {
  }

  /** Map and topic routes never send unparsed text. */
  lemma ParsedRoutesSendNoText(route: DocRoute, uri: Option<string>,
                               read: string -> Result<seq<StoredDoc>, string>, parse: string -> Json.Value)
    requires route == DitaMapDoc || route == DitaXmlDoc
    ensures ReadRoute(route, uri, read, parse).Ok? ==> !ReadRoute(route, uri, read, parse).body.content.Text?
  {
  }

  // ---------------------------------------------------------------------
  // GET /api/sitemap/:programme

  const SitemapDir := "sitemaps"

  /** `path.join('sitemaps', prog + '.json')` for the lower-cased path
      segment. The segment arrives URL-decoded, so it may hold `/`. */
  function SitemapPath(programme: string): string {
    Paths.Normalize(SitemapDir + "/" + Lower(programme) + ".json")
  }

  /** The reply for a programme path segment, given the paths that exist
      relative to the server's working directory: whatever `existsSync`
      finds at the joined path is sent. */
  function SitemapRoute(programme: string, existing: set<string>): (r: Reply<string>)
    ensures r.Ok? <==> SitemapPath(programme) in existing
    ensures r.Ok? ==> r.body == SitemapPath(programme)
    ensures r.Err? ==> r.status == 404
  {
    var path := SitemapPath(programme);
    if path in existing then Ok(path) else Err(404, "Sitemap not found")
  }

  /** The route ignores case: two names that lower-case alike get the same
      reply. */
  lemma SitemapRouteIgnoresCase(a: string, b: string, existing: set<string>)
    requires Lower(a) == Lower(b)
    ensures SitemapRoute(a, existing) == SitemapRoute(b, existing)
  {
  }

  /** A name is a file name of the sitemap directory: no separator, and the
      `.json` suffix keeps it from being `.` or `..`. */
  lemma PlainFileName(programme: string)
    requires '/' !in programme
    ensures '/' !in Lower(programme) + ".json"
    ensures Lower(programme) + ".json" !in {"", ".", ".."}
  {
    var f := Lower(programme) + ".json";
    assert f[|f| - 1] == 'n';
    forall i | 0 <= i < |f| ensures f[i] != '/' {
      if i < |programme| {
        assert f[i] == LowerChar(programme[i]);
      } else {
        assert f[i] == ".json"[i - |programme|];
      }
    }
  }

  /** A name without `/` is looked up in the sitemap directory itself. */
  lemma PlainNameStaysInDirectory(programme: string, existing: set<string>)
    requires '/' !in programme
    ensures SitemapPath(programme) == SitemapDir + "/" + Lower(programme) + ".json"
    ensures SitemapRoute(programme, existing).Ok? <==> SitemapDir + "/" + Lower(programme) + ".json" in existing
  {
    PlainFileName(programme);
    assert SitemapDir + "/" + Lower(programme) + ".json" == SitemapDir + "/" + (Lower(programme) + ".json");
    Paths.TwoSegmentsNormal(SitemapDir, Lower(programme) + ".json");
  }

  /** A segment that is one ordinary lower-case file name. */
  predicate PlainName(s: string) {
    s != "" && s != "." && s != ".." && forall i :: 0 <= i < |s| ==> s[i] != '/' && !IsUpper(s[i])
  }

  lemma LowerKeeps(s: string)
    requires forall i :: 0 <= i < |s| ==> !IsUpper(s[i])
    ensures Lower(s) == s
  {
  }

  lemma PlainJson(s: string)
    requires PlainName(s)
    ensures '/' !in s + ".json"
    ensures s + ".json" != "" && s + ".json" != "." && s + ".json" != ".."
  {
    LowerKeeps(s);
    PlainFileName(s);
  }

  /** As written, `..` in the decoded segment leaves the sitemap directory.
      `/api/sitemap/..%2F<name>` sends the file `<name>.json` of the
      server's working directory, such as its own `package.json`, and
      `/api/sitemap/<other>%2F..%2F<code>` reaches `<code>.json` by a
      detour that the plain route would not accept as a name. */
  lemma SitemapRouteEscapes(name: string, other: string, code: string)
    requires PlainName(name) && PlainName(other) && PlainName(code)
    ensures SitemapRoute("../" + name, {name + ".json"}) == Ok(name + ".json")
    ensures SitemapRoute(other + "/../" + code, {SitemapDir + "/" + code + ".json"}) == Ok(SitemapDir + "/" + code + ".json")
  {
    PlainJson(name);
    PlainJson(code);
    var up := "../" + name;
    LowerKeeps(up);
    assert SitemapDir + "/" + Lower(up) + ".json" == SitemapDir + "/../" + (name + ".json");
    Paths.ParentLeaves(SitemapDir, name + ".json");
    var detour := other + "/../" + code;
    assert forall i :: 0 <= i < |detour| ==> !IsUpper(detour[i]) by {
      forall i | 0 <= i < |detour| ensures !IsUpper(detour[i]) {
        if i < |other| { assert detour[i] == other[i]; }
        else if i < |other| + 4 { assert detour[i] == "/../"[i - |other|]; }
        else { assert detour[i] == code[i - |other| - 4]; }
      }
    }
    LowerKeeps(detour);
    assert SitemapDir + "/" + Lower(detour) + ".json" == SitemapDir + "/" + other + "/../" + (code + ".json");
    assert other != "" && other != "." && other != ".." && '/' !in other by {
      assert PlainName(other);
    }
    Paths.DetourRemoved(SitemapDir, other, code + ".json");
    assert SitemapDir + "/" + (code + ".json") == SitemapDir + "/" + code + ".json";
  }

  /** The route as evidently intended: a segment holding `/` names no
      sitemap, so only files of the sitemap directory are ever sent. */
  function SafeSitemapRoute(programme: string, existing: set<string>): (r: Reply<string>)
    ensures r.Ok? <==> '/' !in programme && SitemapDir + "/" + Lower(programme) + ".json" in existing
    ensures r.Ok? ==> r.body == SitemapDir + "/" + Lower(programme) + ".json"
    ensures r.Err? ==> r.status == 404
  {
    if '/' in programme then Err(404, "Sitemap not found")
    else
      PlainNameStaysInDirectory(programme, existing);
      SitemapRoute(programme, existing)
  }

  /** Whatever the segment, the corrected route sends only a direct child
      of the sitemap directory. */
  lemma SafeRouteStaysInDirectory(programme: string, existing: set<string>)
    ensures SafeSitemapRoute(programme, existing).Ok? ==>
      var body := SafeSitemapRoute(programme, existing).body;
      StartsWith(body, SitemapDir + "/") && '/' !in body[|SitemapDir + "/"|..]
  {
    if SafeSitemapRoute(programme, existing).Ok? {
      PlainFileName(programme);
      var f := Lower(programme) + ".json";
      var body := SafeSitemapRoute(programme, existing).body;
      assert body == (SitemapDir + "/") + f;
      assert body[|SitemapDir + "/"|..] == f;
    }
  }

  function WrittenFiles(snapshots: seq<Snapshot>): set<string> {
    set s | s in snapshots :: s.fileName
  }

  lemma {:induction false} SuffixCancel(a: string, b: string, c: string)
    requires a + c == b + c
    ensures a == b
  {
    assert |a| == |b|;
    assert a == (a + c)[..|a|];
    assert b == (b + c)[..|b|];
  }

  lemma FileNames()
    ensures FileName(DP) == "dp.json" && FileName(CP) == "cp.json"
    ensures FileName(MYP) == "myp.json" && FileName(PYP) == "pyp.json"
  {
    assert Lower("DP") == "dp";
    assert Lower("CP") == "cp";
    assert Lower("MYP") == "myp";
    assert Lower("PYP") == "pyp";
  }

  /** The four files a successful build writes. */
  lemma WrittenAfterBuild(docs: seq<Doc>, now: int)
    requires Build(docs, now).Success?
    ensures WrittenFiles(Build(docs, now).value) == {"dp.json", "cp.json", "myp.json", "pyp.json"}
  {
    var snaps := Build(docs, now).value;
    FileNames();
    assert snaps == [snaps[0], snaps[1], snaps[2], snaps[3]];
  }

  lemma JsonFileIn(l: string)
    ensures l + ".json" in {"dp.json", "cp.json", "myp.json", "pyp.json"} <==> l in {"dp", "cp", "myp", "pyp"}
  {
    var f := l + ".json";
    if f == "dp.json" { SuffixCancel(l, "dp", ".json"); }
    else if f == "cp.json" { SuffixCancel(l, "cp", ".json"); }
    else if f == "myp.json" { SuffixCancel(l, "myp", ".json"); }
    else if f == "pyp.json" { SuffixCancel(l, "pyp", ".json"); }
    else {
      assert "dp" + ".json" == "dp.json";
      assert "cp" + ".json" == "cp.json";
      assert "myp" + ".json" == "myp.json";
      assert "pyp" + ".json" == "pyp.json";
    }
  }

  lemma {:induction false} DirPrefixCancel(a: string, b: string)
    requires SitemapDir + "/" + a == SitemapDir + "/" + b
    ensures a == b
  {
    assert a == (SitemapDir + "/" + a)[|SitemapDir + "/"|..];
    assert b == (SitemapDir + "/" + b)[|SitemapDir + "/"|..];
  }

  /** The four sitemap files a successful build writes. */
  const BuiltFiles: set<string> := {"dp.json", "cp.json", "myp.json", "pyp.json"}

  /** With the four built files in the sitemap directory, every one of
      the four codes, in any case, finds its sitemap. */
  lemma BuiltSitemapFound(programme: string, existing: set<string>)
    requires forall f :: f in BuiltFiles ==> SitemapDir + "/" + f in existing
    ensures Lower(programme) in {"dp", "cp", "myp", "pyp"} ==> SafeSitemapRoute(programme, existing).Ok?
  {
    if Lower(programme) in {"dp", "cp", "myp", "pyp"} {
      CodeHasNoSlash(programme);
      JsonFileIn(Lower(programme));
      var f := Lower(programme) + ".json";
      assert f in BuiltFiles;
      assert SitemapDir + "/" + f == SitemapDir + "/" + Lower(programme) + ".json";
      assert SitemapDir + "/" + f in existing;
    }
  }

  /** While the sitemap directory holds nothing but the built files, no
      other name finds a sitemap. */
  lemma OnlyBuiltSitemapFound(programme: string, existing: set<string>)
    requires forall f :: SitemapDir + "/" + f in existing ==> f in BuiltFiles
    ensures SafeSitemapRoute(programme, existing).Ok? ==> Lower(programme) in {"dp", "cp", "myp", "pyp"}
  {
    if SafeSitemapRoute(programme, existing).Ok? {
      var f := Lower(programme) + ".json";
      assert SitemapDir + "/" + f == SitemapDir + "/" + Lower(programme) + ".json";
      assert SitemapDir + "/" + f in existing;
      JsonFileIn(Lower(programme));
    }
  }

  /** Once a build's files are in the sitemap directory, every one of the
      four codes, in any case, finds its sitemap; and while the directory
      holds nothing else, no other name finds one. */
  lemma SitemapFoundAfterBuild(docs: seq<Doc>, now: int, programme: string, existing: set<string>)
    requires Build(docs, now).Success?
    requires forall f :: f in WrittenFiles(Build(docs, now).value) ==> SitemapDir + "/" + f in existing
    ensures Lower(programme) in {"dp", "cp", "myp", "pyp"} ==> SafeSitemapRoute(programme, existing).Ok?
    ensures (forall f :: SitemapDir + "/" + f in existing ==> f in WrittenFiles(Build(docs, now).value)) ==>
      (SafeSitemapRoute(programme, existing).Ok? <==> Lower(programme) in {"dp", "cp", "myp", "pyp"})
  {
    WrittenAfterBuild(docs, now);
    BuiltSitemapFound(programme, existing);
    if forall f :: SitemapDir + "/" + f in existing ==> f in WrittenFiles(Build(docs, now).value) {
      OnlyBuiltSitemapFound(programme, existing);
    }
  }

  lemma CodeHasNoSlash(programme: string)
    requires Lower(programme) in {"dp", "cp", "myp", "pyp"}
    ensures '/' !in programme
  {
  }
}

=== FILE: search.dfy ===
/** The search route (`POST /api/search`): the paging arithmetic between
    the client's page number and the store's start index, the structured
    query built from the client's facet constraints, the shaping of the
    store's reply, and which status the client gets back. Authentication
    and the store request are given as their outcomes. Numbers that the
    JavaScript computes in floating point are integers here. */
module Search {
  import opened Base
  import opened Json

  // ---------------------------------------------------------------------
  // Paging

  /** The 1-based index of the first result of a page. */
  function StartIndex(pageLength: int, page: int): (r: int)
    ensures pageLength >= 1 && page >= 1 ==> r >= 1
    ensures r - 1 == pageLength * (page - 1)
  {
    pageLength * (page - 1) + 1
  }

  /** `Math.ceil(a / b)` for integers, characterised by its bounds. */
  function CeilDiv(a: int, b: int): (r: int)
    requires b != 0
    ensures b > 0 ==> b * (r - 1) < a <= b * r
    ensures b < 0 ==> b * r <= a < b * (r - 1)
  {
    if b > 0 then
      var q := (-a) / b;
      assert b * q <= -a < b * q + b;
      -q
    else
      var q := a / (-b);
      assert (-b) * q <= a < (-b) * q + (-b);
      -q
  }

  /** The bounds determine the quotient. */
  lemma CeilDivUnique(a: int, b: int, r: int)
    requires b > 0 && b * (r - 1) < a <= b * r
    ensures CeilDiv(a, b) == r
  {
    var c := CeilDiv(a, b);
    if c < r {
      assert b * c <= b * (r - 1) by { MulMonotone(b, c, r - 1); }
    } else if c > r {
      assert b * r <= b * (c - 1) by { MulMonotone(b, r, c - 1); }
    }
  }

  lemma MulMonotone(b: int, x: int, y: int)
    requires b > 0 && x <= y
    ensures b * x <= b * y
  {
    assert b * y - b * x == b * (y - x);
  }

  /** The page a start index falls on. A zero page length gives `NaN` or
      an infinity, which reach the client as `null`: `None` here. */
  function PageOf(start: int, pageLength: int): (r: Option<int>)
    ensures r.None? <==> pageLength == 0
    ensures pageLength > 0 ==> pageLength * (r.value - 1) < start <= pageLength * r.value
  {
    if pageLength == 0 then None else Some(CeilDiv(start, pageLength))
  }

  /** The reported page is the requested page exactly when the page length
      is positive: every page, including zero and negative pages, survives
      the round trip then, and none does with a negative page length. */
  lemma PageRoundTrip(pageLength: int, page: int)
    requires pageLength != 0
    ensures PageOf(StartIndex(pageLength, page), pageLength) == Some(page) <==> pageLength >= 1
  {
    var s := StartIndex(pageLength, page);
    if pageLength >= 1 {
      assert pageLength * (page - 1) == pageLength * page - pageLength;
      CeilDivUnique(s, pageLength, page);
    } else {
      assert pageLength * (page - 1) == pageLength * page - pageLength;
    }
  }

  /** Consecutive pages cover consecutive, non-overlapping windows. */
  lemma PagesTile(pageLength: int, page: int)
    requires pageLength >= 1
    ensures StartIndex(pageLength, page + 1) == StartIndex(pageLength, page) + pageLength
    ensures forall i :: StartIndex(pageLength, page) <= i < StartIndex(pageLength, page + 1) ==>
      PageOf(i, pageLength) == Some(page)
  {
    assert pageLength * page == pageLength * (page - 1) + pageLength;
    forall i | StartIndex(pageLength, page) <= i < StartIndex(pageLength, page + 1)
      ensures PageOf(i, pageLength) == Some(page)
    {
      CeilDivUnique(i, pageLength, page);
    }
  }

  // ---------------------------------------------------------------------
  // The structured query

  /** A range query over one constraint; a value is `None` where the
      selected item had no `name`. */
  datatype Range = Range(constraint: string, values: seq<Option<Value>>)

  /** The body sent to the store: the query text and, when constraints
      were given, one and-query of range queries. */
  datatype Built = Built(qtext: Option<Value>, andQuery: Option<seq<Range>>)

  /** The request body as far as the route reads it. `constraints` is
      `None` when it is absent or falsy, otherwise its members in key order. */
  datatype Request = Request(queryText: Option<Value>, constraints: Option<seq<Field>>, pageLength: int, page: int)

  /** `c.name` for each selected item; a `null` item throws. */
  function Names(items: seq<Value>): (r: Result<seq<Option<Value>>, string>)
    ensures r.Failure? <==> exists i :: 0 <= i < |items| && items[i].Null?
    ensures r.Success? ==> |r.value| == |items| && forall i :: 0 <= i < |items| ==> r.value[i] == Member(items[i], "name")
  {
    if items == [] then Success([])
    else if items[0].Null? then Failure(ReadError("null", "name"))
    else
      var rest := Names(items[1..]);
      assert forall i :: 1 <= i < |items| ==> items[i] == items[1..][i - 1];
      match rest
      case Failure(e) => Failure(e)
      case Success(ns) => Success([Member(items[0], "name")] + ns)
  }

  /** `(definition.and || []).map(c => c.name)`. */
  function AndValues(definition: Value): (r: Result<seq<Option<Value>>, string>)
    ensures definition.Null? ==> r.Failure?
    ensures !Present(Member(definition, "and")) && !definition.Null? ==> r == Success([])
    ensures Present(Member(definition, "and")) && !Member(definition, "and").value.Arr? ==> r.Failure?
    ensures Present(Member(definition, "and")) && Member(definition, "and").value.Arr? ==>
      r == Names(Member(definition, "and").value.items)
  {
    if definition.Null? then Failure(ReadError("null", "and"))
    else
      match Or(Member(definition, "and"), Arr([]))
      case Arr(items) => Names(items)
      case _ => Failure("TypeError: andValues.map is not a function")
  }

  /** One range query per constraint, in key order. */
  function Ranges(fields: seq<Field>): (r: Result<seq<Range>, string>)
    ensures r.Failure? <==> exists i :: 0 <= i < |fields| && AndValues(fields[i].value).Failure?
    ensures r.Success? ==> |r.value| == |fields| && forall i :: 0 <= i < |fields| ==>
      r.value[i] == Range(fields[i].name, AndValues(fields[i].value).value)
  {
    if fields == [] then Success([])
    else
      var rest := Ranges(fields[1..]);
      assert forall i :: 1 <= i < |fields| ==> fields[i] == fields[1..][i - 1];
      match AndValues(fields[0].value)
      case Failure(e) => Failure(e)
      case Success(vs) =>
        match rest
        case Failure(e) => Failure(e)
        case Success(rs) => Success([Range(fields[0].name, vs)] + rs)
  }

  /** `buildMarklogicQuery`. */
  function BuildQuery(q: Request): (r: Result<Built, string>)
    ensures q.constraints.None? ==> r == Success(Built(q.queryText, None))
    ensures r.Success? ==> r.value.qtext == q.queryText
    ensures r.Success? ==> (r.value.andQuery.Some? <==> q.constraints.Some?)
    ensures q.constraints.Some? ==> (r.Failure? <==> Ranges(q.constraints.value).Failure?)
  {
    match q.constraints
    case None => Success(Built(q.queryText, None))
    case Some(fields) =>
      match Ranges(fields)
      case Failure(e) => Failure(e)
      case Success(rs) => Success(Built(q.queryText, Some(rs)))
  }

  /** A constraint with no `and` list contributes a range query with no
      values. */
  lemma MissingAndIsEmpty(q: Request, k: nat)
    requires q.constraints.Some? && k < |q.constraints.value|
    requires BuildQuery(q).Success?
    requires !Present(Member(q.constraints.value[k].value, "and"))
    ensures BuildQuery(q).value.andQuery.value[k] == Range(q.constraints.value[k].name, [])
  {
  }

  /** What a client selects: for each facet, the values it ticked. */
  type Selection = seq<(string, seq<string>)>

  function ItemOf(value: string): Value {
    Obj([Field("name", Str(value))])
  }

  function Items(values: seq<string>): (r: seq<Value>)
    ensures |r| == |values| && forall j :: 0 <= j < |values| ==> r[j] == ItemOf(values[j])
  {
    seq(|values|, j requires 0 <= j < |values| => ItemOf(values[j]))
  }

  /** The constraint the client sends for one facet:
      `<facet>: { and: [ { name: <value> }, … ] }`. */
  function ConstraintOf(facet: (string, seq<string>)): Field {
    Field(facet.0, Obj([Field("and", Arr(Items(facet.1)))]))
  }

  function ConstraintsOf(sel: Selection): (r: seq<Field>)
    ensures |r| == |sel| && forall i :: 0 <= i < |sel| ==> r[i] == ConstraintOf(sel[i])
  {
    seq(|sel|, i requires 0 <= i < |sel| => ConstraintOf(sel[i]))
  }

  /** The selection a built query asks for, read back off its range
      queries; `None` when a value is missing or not a string. */
  function SelectionOf(rs: seq<Range>): (r: Option<Selection>)
    ensures r.Some? ==> |r.value| == |rs| && forall i :: 0 <= i < |rs| ==> r.value[i].0 == rs[i].constraint
  {
    if rs == [] then Some([])
    else
      match (StringsOf(rs[0].values), SelectionOf(rs[1..]))
      case (Some(vs), Some(rest)) => Some([(rs[0].constraint, vs)] + rest)
      case _ => None
  }

  function StringsOf(vs: seq<Option<Value>>): (r: Option<seq<string>>)
    ensures r.Some? <==> forall i :: 0 <= i < |vs| ==> vs[i].Some? && vs[i].value.Str?
    ensures r.Some? ==> |r.value| == |vs| && forall i :: 0 <= i < |vs| ==> r.value[i] == vs[i].value.s
  {
    if vs == [] then Some([])
    else if vs[0].Some? && vs[0].value.Str? then
      assert forall i :: 1 <= i < |vs| ==> vs[i] == vs[1..][i - 1];
      match StringsOf(vs[1..])
      case Some(rest) => Some([vs[0].value.s] + rest)
      case None => None
    else None
  }

  /** The values of one facet survive into its range query. */
  lemma FacetRoundTrip(facet: (string, seq<string>))
    ensures AndValues(ConstraintOf(facet).value).Success?
    ensures StringsOf(AndValues(ConstraintOf(facet).value).value) == Some(facet.1)
  {
    var ns := Names(Items(facet.1)).value;
    assert forall j :: 0 <= j < |facet.1| ==> ns[j] == Some(Str(facet.1[j]));
    assert StringsOf(ns).value == facet.1;
  }

  /** Every selection a client can express is carried into the query
      intact: reading the range queries back gives the selection, facet by
      facet and value by value, in order. */
  lemma SelectionRoundTrip(queryText: Option<Value>, sel: Selection, pageLength: int, page: int)
    ensures BuildQuery(Request(queryText, Some(ConstraintsOf(sel)), pageLength, page)).Success?
    ensures SelectionOf(BuildQuery(Request(queryText, Some(ConstraintsOf(sel)), pageLength, page)).value.andQuery.value) == Some(sel)
  {
    RangesRoundTrip(sel);
  }

  lemma {:induction false} RangesRoundTrip(sel: Selection)
    ensures Ranges(ConstraintsOf(sel)).Success?
    ensures SelectionOf(Ranges(ConstraintsOf(sel)).value) == Some(sel)
  {
    if sel != [] {
      var fs := ConstraintsOf(sel);
      RangesRoundTrip(sel[1..]);
      FacetRoundTrip(sel[0]);
      assert fs[1..] == ConstraintsOf(sel[1..]);
      var vs := AndValues(fs[0].value).value;
      var rest := Ranges(fs[1..]).value;
      assert Ranges(fs).value == [Range(sel[0].0, vs)] + rest;
      assert sel == [(sel[0].0, sel[0].1)] + sel[1..];
    }
  }

  // ---------------------------------------------------------------------
  // The store's reply

  /** The parts of a store search reply the route reads. */
  datatype Reply = Reply(qtext: Option<Value>, pageLength: Option<Value>, start: Option<Value>,
                         total: Option<Value>, results: Option<Value>, facets: Option<Value>)

  /** Reading `metrics['total-time'].replace(…)` throws unless the reply
      has metrics with a string total time; the error names the missing
      or `null` value the code tried to read through, starting with a
      `null` body itself. */
  function ReadReply(body: Value): (r: Result<Reply, string>)
    ensures r.Success? <==>
      (Member(body, "metrics").Some? && Member(Member(body, "metrics").value, "total-time").Some?
       && Member(Member(body, "metrics").value, "total-time").value.Str?)
    ensures r.Success? ==> r.value.start == Member(body, "start") && r.value.pageLength == Member(body, "page-length")
    ensures r.Success? ==> r.value.qtext == Member(body, "qtext") && r.value.total == Member(body, "total")
    ensures r.Success? ==> r.value.results == Member(body, "results") && r.value.facets == Member(body, "facets")
    ensures body.Null? ==> r == Failure(ReadError("null", "metrics"))
    ensures !body.Null? && Member(body, "metrics").None? ==> r == Failure(ReadError("undefined", "total-time"))
    ensures Member(body, "metrics") == Some(Null) ==> r == Failure(ReadError("null", "total-time"))
  {
    var metrics := Member(body, "metrics");
    if body.Null? then Failure(ReadError("null", "metrics"))
    else if metrics.None? then Failure(ReadError("undefined", "total-time"))
    else if metrics.value.Null? then Failure(ReadError("null", "total-time"))
    else
      var time := Member(metrics.value, "total-time");
      match time
      case Some(Str(_)) =>
        Success(Reply(Member(body, "qtext"), Member(body, "page-length"), Member(body, "start"),
                      Member(body, "total"), Member(body, "results"), Member(body, "facets")))
      case None => Failure(ReadError("undefined", "replace"))
      case Some(Null) => Failure(ReadError("null", "replace"))
      case Some(_) => Failure("TypeError: searchResponse.metrics['total-time'].replace is not a function")
  }

  /** The message of the `TypeError` for reading a property through
      `undefined` or `null`. */
  function ReadError(through: string, property: string): string {
    "TypeError: Cannot read properties of " + through + " (reading '" + property + "')"
  }

  /** The numeric value the division sees: `null` and booleans coerce to
      numbers, `undefined` to `NaN` (`None`). */
  function NumberOf(v: Option<Value>): (r: Option<int>)
    ensures v.Some? && v.value.Num? ==> r == Some(v.value.n)
    ensures v.None? ==> r.None?
  {
    match v
    case Some(Num(n)) => Some(n)
    case Some(Null) => Some(0)
    case Some(Bool(b)) => Some(if b then 1 else 0)
    case _ => None
  }

  /** The shaped reply sent to the client; `page` is `None` where the
      division gives `NaN` or an infinity. */
  datatype Shaped = Shaped(queryText: Option<Value>, pageLength: Option<Value>, page: Option<int>,
                           total: Option<Value>, results: Option<Value>, facets: Option<Value>)

  function PageOfReply(r: Reply): Option<int> {
    match (NumberOf(r.start), NumberOf(r.pageLength))
    case (Some(s), Some(n)) => PageOf(s, n)
    case _ => None
  }

  /** `processSearchResponse`: every field is passed through except the
      page, which is recomputed from the start index. */
  function ProcessReply(r: Reply): (s: Shaped)
    ensures s.queryText == r.qtext && s.pageLength == r.pageLength && s.total == r.total
    ensures s.results == r.results && s.facets == r.facets
    ensures s.page.Some? <==> NumberOf(r.start).Some? && NumberOf(r.pageLength).Some? && NumberOf(r.pageLength) != Some(0)
    ensures s.page.Some? ==> s.page == PageOf(NumberOf(r.start).value, NumberOf(r.pageLength).value)
  {
    Shaped(r.qtext, r.pageLength, PageOfReply(r), r.total, r.results, r.facets)
  }

  /** A store that honours the requested window reports back the page the
      client asked for. */
  lemma EchoesRequestedPage(q: Request, r: Reply)
    requires q.pageLength >= 1
    requires r.pageLength == Some(Num(q.pageLength)) && r.start == Some(Num(StartIndex(q.pageLength, q.page)))
    ensures ProcessReply(r).page == Some(q.page)
    ensures ProcessReply(r).pageLength == Some(Num(q.pageLength))
  {
    PageRoundTrip(q.pageLength, q.page);
  }

  // ---------------------------------------------------------------------
  // The route

  datatype AuthOutcome = AuthFailed(error: Value) | Authorized(authorization: string)

  /** The store request: it errors, or answers with a status and a body
      that parses as JSON. */
  datatype StoreOutcome = RequestError(error: Value) | Answered(status: int, body: Value)

  /** What the client receives. `ServerCrash` is an exception that escapes
      the handler: thrown in the reply's `end` listener it is an uncaught
      exception, thrown in the authentication callback it is an unhandled
      rejection. Under Node's default settings either one ends the server
      process, so this request and every later one go unanswered. */
  datatype Answer =
    | Shown(shaped: Shaped)
    | Forwarded(status: int, errorResponse: Option<Value>)
    | StoreUnreachable(error: Value)
    | Unauthorized(message: Value)
    | ServerCrash(thrown: string)

  function StatusOf(a: Answer): Option<int> {
    match a
    case Shown(_) => Some(200)
    case Forwarded(status, _) => Some(status)
    case StoreUnreachable(_) => Some(500)
    case Unauthorized(_) => Some(401)
    case ServerCrash(_) => None
  }

  /** The route handler. The store outcome is the store's answer to the
      query built from the request; a query that cannot be built is never
      sent. */
  function Route(q: Request, auth: AuthOutcome, store: StoreOutcome): (a: Answer)
    ensures auth.AuthFailed? ==> a == Unauthorized(auth.error)
    ensures auth.Authorized? && BuildQuery(q).Failure? ==> a.ServerCrash?
  {
    match auth
    case AuthFailed(e) => Unauthorized(e)
    case Authorized(_) =>
      if BuildQuery(q).Failure? then ServerCrash(BuildQuery(q).error)
      else
        match store
        case RequestError(e) => StoreUnreachable(e)
        case Answered(status, body) =>
          if status == 200 then
            match ReadReply(body)
            case Failure(e) => ServerCrash(e)
            case Success(r) => Shown(ProcessReply(r))
          else if body.Null? then ServerCrash(ReadError("null", "errorResponse"))
          else Forwarded(status, Member(body, "errorResponse"))
  }

  /** A request whose constraints name a facet with a `null` definition
      crashes the server, whatever the store would have answered. */
  lemma NullConstraintCrashes(q: Request, authorization: string, store: StoreOutcome, k: nat)
    requires q.constraints.Some? && k < |q.constraints.value| && q.constraints.value[k].value.Null?
    ensures Route(q, Authorized(authorization), store).ServerCrash?
    ensures StatusOf(Route(q, Authorized(authorization), store)).None?
  {
    assert AndValues(q.constraints.value[k].value).Failure?;
  }

  /** The client sees the store's own status: 200 only when the store said
      200, the store's status and error body otherwise, and 500 only when
      the store could not be reached. */
  lemma StatusForwarded(q: Request, authorization: string, store: StoreOutcome)
    requires BuildQuery(q).Success?
    ensures store.Answered? && store.status != 200 && !store.body.Null? ==>
      Route(q, Authorized(authorization), store) == Forwarded(store.status, Member(store.body, "errorResponse"))
    ensures StatusOf(Route(q, Authorized(authorization), store)) == Some(200) <==>
      store.Answered? && store.status == 200 && ReadReply(store.body).Success?
    ensures StatusOf(Route(q, Authorized(authorization), store)).Some? && store.Answered? ==>
      StatusOf(Route(q, Authorized(authorization), store)) == Some(store.status)
    ensures store.RequestError? ==> StatusOf(Route(q, Authorized(authorization), store)) == Some(500)
  {
  }
}

=== FILE: sitemap.dfy ===
/** The sitemap builder of the middle tier (`generateSitemaps`): one scan
    over all envelope documents that buckets a summary of each under its
    programme and subject, followed by one snapshot per programme. The
    scan is modelled as a left fold (`Scan`); what it computes is also
    given independently (`ReferenceTables`) as, per programme, the distinct
    subjects in order of first appearance, each with the filtered list of
    its envelopes. */
module Sitemap {
  import opened Base
  import opened Envelopes

  datatype Programme = DP | CP | MYP | PYP

  /** The keys of the programme table, in the order it lists them. */
  const Programmes: seq<Programme> := [DP, CP, MYP, PYP]

  function Code(p: Programme): string {
    match p
    case DP => "DP"
    case CP => "CP"
    case MYP => "MYP"
    case PYP => "PYP"
  }

  /** Indexing the table `{ DP: {}, CP: {}, MYP: {}, PYP: {} }` with a
      header value: only the exact upper-case codes are keys. */
  function ParseProgramme(s: string): (r: Option<Programme>)
    ensures r.Some? ==> Code(r.value) == s
    ensures r.None? ==> forall p :: Code(p) != s
  {
    if s == "DP" then Some(DP)
    else if s == "CP" then Some(CP)
    else if s == "MYP" then Some(MYP)
    else if s == "PYP" then Some(PYP)
    else None
  }

  /** The snapshot file name: the lower-cased code plus `.json`. */
  function FileName(p: Programme): string {
    Lower(Code(p)) + ".json"
  }

  /** One publication as the sitemap lists it. */
  datatype Entry = Entry(
    publication: string,
    language: string,
    status: string,
    lastModified: int,
    ditamapUri: string,
    topics: seq<Topic>,
    attachments: seq<string>)

  datatype Bucket = Bucket(subject: string, publications: seq<Entry>)

  /** The in-memory table: one subject list per programme. */
  datatype Tables = Tables(dp: seq<Bucket>, cp: seq<Bucket>, myp: seq<Bucket>, pyp: seq<Bucket>) {
    function Get(p: Programme): seq<Bucket> {
      match p
      case DP => dp
      case CP => cp
      case MYP => myp
      case PYP => pyp
    }

    function Set(p: Programme, bs: seq<Bucket>): (t: Tables)
      ensures t.Get(p) == bs
      ensures forall q :: q != p ==> t.Get(q) == Get(q)
    {
      match p
      case DP => this.(dp := bs)
      case CP => this.(cp := bs)
      case MYP => this.(myp := bs)
      case PYP => this.(pyp := bs)
    }
  }

  const EmptyTables := Tables([], [], [], [])

  /** The file written for one programme: its name and its content. */
  datatype Snapshot = Snapshot(fileName: string, programme: string, subjects: seq<Bucket>)

  datatype BuildError = UnknownProgramme(programme: string)

  /** `headers.programme || 'DP'` */
  function ProgrammeKey(d: Doc): string {
    OrElse(HeadersOf(d).programme, "DP")
  }

  /** `headers.subject || 'general'` */
  function SubjectKey(d: Doc): string {
    OrElse(HeadersOf(d).subject, "general")
  }

  predicate Known(d: Doc) {
    ParseProgramme(ProgrammeKey(d)).Some?
  }

  predicate InProgramme(d: Doc, p: Programme) {
    ParseProgramme(ProgrammeKey(d)) == Some(p)
  }

  /** The summary pushed for one document; `now` stands for the clock read
      that fills a missing `lastModified`. */
  function EntryOf(d: Doc, now: int): Entry {
    var h := HeadersOf(d);
    Entry(
      OrElse(h.publication, d.uri),
      OrElse(h.language, "en"),
      OrElse(h.status, "go-live"),
      StampOr(h.lastModified, now),
      OrElse(h.uri, ""),
      FilesOf(d),
      AttachmentsOf(d))
  }

  ghost predicate DistinctSubjects(bs: seq<Bucket>) {
    forall i, j :: 0 <= i < j < |bs| ==> bs[i].subject != bs[j].subject
  }

  /** Appending to the subject's list, creating the list on first use. */
  function Add(bs: seq<Bucket>, s: string, e: Entry): seq<Bucket> {
    if bs == [] then [Bucket(s, [e])]
    else if bs[0].subject == s then [Bucket(s, bs[0].publications + [e])] + bs[1..]
    else [bs[0]] + Add(bs[1..], s, e)
  }

  /** The scan loop: documents are visited in order and the first one whose
      programme is not a key of the table aborts the scan. */
  function Scan(docs: seq<Doc>, now: int): Result<Tables, BuildError> {
    if docs == [] then Success(EmptyTables)
    else
      match Scan(docs[..|docs| - 1], now)
      case Failure(e) => Failure(e)
      case Success(t) =>
        var d := docs[|docs| - 1];
        match ParseProgramme(ProgrammeKey(d))
        case None => Failure(UnknownProgramme(ProgrammeKey(d)))
        case Some(p) => Success(t.Set(p, Add(t.Get(p), SubjectKey(d), EntryOf(d, now))))
  }

  function SnapshotOf(t: Tables, p: Programme): Snapshot {
    Snapshot(FileName(p), Code(p), t.Get(p))
  }

  /** `generateSitemaps`: the four snapshots, or the error that aborted the
      scan before anything was written. */
  function Build(docs: seq<Doc>, now: int): (r: Result<seq<Snapshot>, BuildError>)
    ensures r.Success? ==> |r.value| == |Programmes|
    ensures r.Success? ==> forall i :: 0 <= i < |Programmes| ==>
      r.value[i].programme == Code(Programmes[i]) && r.value[i].fileName == FileName(Programmes[i])
  {
    match Scan(docs, now)
    case Failure(e) => Failure(e)
    case Success(t) => Success(seq(|Programmes|, i requires 0 <= i < |Programmes| => SnapshotOf(t, Programmes[i])))
  }

  // ---------------------------------------------------------------------
  // Reference definition of the table

  /** The subjects of the documents of programme `p`, with repetitions. */
  function SubjectsIn(docs: seq<Doc>, p: Programme): seq<string> {
    if docs == [] then []
    else
      var d := docs[|docs| - 1];
      SubjectsIn(docs[..|docs| - 1], p) + (if InProgramme(d, p) then [SubjectKey(d)] else [])
  }

  /** The entries of the documents of programme `p` and subject `s`, in
      document order. */
  function EntriesFor(docs: seq<Doc>, p: Programme, s: string, now: int): seq<Entry> {
    if docs == [] then []
    else
      var d := docs[|docs| - 1];
      EntriesFor(docs[..|docs| - 1], p, s, now)
      + (if InProgramme(d, p) && SubjectKey(d) == s then [EntryOf(d, now)] else [])
  }

  /** The first occurrence of every element, in order. */
  function FirstOccurrences(xs: seq<string>): seq<string> {
    if xs == [] then []
    else
      var init := xs[..|xs| - 1];
      if xs[|xs| - 1] in init then FirstOccurrences(init)
      else FirstOccurrences(init) + [xs[|xs| - 1]]
  }

  function ReferenceBuckets(docs: seq<Doc>, p: Programme, now: int): seq<Bucket> {
    var ss := FirstOccurrences(SubjectsIn(docs, p));
    seq(|ss|, i requires 0 <= i < |ss| => Bucket(ss[i], EntriesFor(docs, p, ss[i], now)))
  }

  function ReferenceTables(docs: seq<Doc>, now: int): Tables {
    Tables(ReferenceBuckets(docs, DP, now), ReferenceBuckets(docs, CP, now),
           ReferenceBuckets(docs, MYP, now), ReferenceBuckets(docs, PYP, now))
  }

  // ---------------------------------------------------------------------
  // Lemmas

  lemma TablesExt(t: Tables, u: Tables)
    requires forall q :: t.Get(q) == u.Get(q)
    ensures t == u
  {
    assert t.Get(DP) == u.Get(DP) && t.Get(CP) == u.Get(CP);
    assert t.Get(MYP) == u.Get(MYP) && t.Get(PYP) == u.Get(PYP);
  }

  lemma ReferenceGet(docs: seq<Doc>, q: Programme, now: int)
    ensures ReferenceTables(docs, now).Get(q) == ReferenceBuckets(docs, q, now)
  {
  }

  lemma ParseCode(p: Programme)
    ensures ParseProgramme(Code(p)) == Some(p)
    ensures FileName(p) == Lower(Code(p)) + ".json"
    ensures p == DP ==> FileName(p) == "dp.json"
    ensures p == PYP ==> FileName(p) == "pyp.json"
  {
  }

  lemma {:induction false} FirstOccurrencesElements(xs: seq<string>)
    ensures forall x :: x in FirstOccurrences(xs) <==> x in xs
    ensures forall i, j :: 0 <= i < j < |FirstOccurrences(xs)| ==> FirstOccurrences(xs)[i] != FirstOccurrences(xs)[j]
  {
    if xs != [] {
      var init := xs[..|xs| - 1];
      assert xs == init + [xs[|xs| - 1]];
      FirstOccurrencesElements(init);
    }
  }

  lemma {:induction false} EntriesOfAbsentSubject(docs: seq<Doc>, p: Programme, s: string, now: int)
    requires s !in SubjectsIn(docs, p)
    ensures EntriesFor(docs, p, s, now) == []
  {
    if docs != [] {
      EntriesOfAbsentSubject(docs[..|docs| - 1], p, s, now);
    }
  }

  lemma {:induction false} AddExisting(bs: seq<Bucket>, s: string, e: Entry, j: nat)
    requires DistinctSubjects(bs)
    requires j < |bs| && bs[j].subject == s
    ensures Add(bs, s, e) == bs[j := Bucket(s, bs[j].publications + [e])]
  {
    if j > 0 {
      AddExisting(bs[1..], s, e, j - 1);
    }
  }

  lemma {:induction false} AddFresh(bs: seq<Bucket>, s: string, e: Entry)
    requires forall i :: 0 <= i < |bs| ==> bs[i].subject != s
    ensures Add(bs, s, e) == bs + [Bucket(s, [e])]
  {
    if bs != [] {
      AddFresh(bs[1..], s, e);
    }
  }

  /** Appending one document changes only its own programme's buckets, and
      changes them the way `Add` does. */
  lemma ReferenceStep(docs: seq<Doc>, d: Doc, p: Programme, now: int)
    requires InProgramme(d, p)
    ensures ReferenceBuckets(docs + [d], p, now) == Add(ReferenceBuckets(docs, p, now), SubjectKey(d), EntryOf(d, now))
    ensures forall q :: q != p ==> ReferenceBuckets(docs + [d], q, now) == ReferenceBuckets(docs, q, now)
  {
    var docs' := docs + [d];
    assert docs'[..|docs'| - 1] == docs;
    var s := SubjectKey(d);
    var e := EntryOf(d, now);
    var xs := SubjectsIn(docs, p);
    assert SubjectsIn(docs', p) == xs + [s];
    assert (xs + [s])[..|xs|] == xs;
    var ss := FirstOccurrences(xs);
    FirstOccurrencesElements(xs);
    var prev := ReferenceBuckets(docs, p, now);
    forall t | t != s
      ensures EntriesFor(docs', p, t, now) == EntriesFor(docs, p, t, now)
    {
    }
    assert EntriesFor(docs', p, s, now) == EntriesFor(docs, p, s, now) + [e];
    var next := ReferenceBuckets(docs', p, now);
    if s in xs {
      assert FirstOccurrences(xs + [s]) == ss;
      var j :| 0 <= j < |ss| && ss[j] == s;
      AddExisting(prev, s, e, j);
      assert next == prev[j := Bucket(s, prev[j].publications + [e])] by {
        forall i | 0 <= i < |ss|
          ensures next[i] == prev[j := Bucket(s, prev[j].publications + [e])][i]
        {
        }
      }
    } else {
      assert FirstOccurrences(xs + [s]) == ss + [s];
      EntriesOfAbsentSubject(docs, p, s, now);
      AddFresh(prev, s, e);
      assert next == prev + [Bucket(s, [e])] by {
        forall i | 0 <= i < |ss|
          ensures next[i] == prev[i]
        {
        }
        assert next[|ss|] == Bucket(s, [e]);
      }
    }
    forall q | q != p
      ensures ReferenceBuckets(docs', q, now) == ReferenceBuckets(docs, q, now)
    {
      assert SubjectsIn(docs', q) == SubjectsIn(docs, q);
      forall t
        ensures EntriesFor(docs', q, t, now) == EntriesFor(docs, q, t, now)
      {
      }
    }
  }

  /** When every document names a known programme, the scan yields exactly
      the reference table: per programme, the subjects in order of first
      appearance, each listing the entries of its documents in order. */
  lemma {:induction false} ScanIsReference(docs: seq<Doc>, now: int)
    requires forall i :: 0 <= i < |docs| ==> Known(docs[i])
    ensures Scan(docs, now) == Success(ReferenceTables(docs, now))
  {
    if docs != [] {
      var init := docs[..|docs| - 1];
      var d := docs[|docs| - 1];
      assert docs == init + [d];
      ScanIsReference(init, now);
      var p := ParseProgramme(ProgrammeKey(d)).value;
      ReferenceStep(init, d, p, now);
      var t := ReferenceTables(init, now);
      var t' := t.Set(p, Add(t.Get(p), SubjectKey(d), EntryOf(d, now)));
      assert Scan(docs, now) == Success(t');
      forall q
        ensures t'.Get(q) == ReferenceTables(docs, now).Get(q)
      {
        ReferenceGet(init, q, now);
        ReferenceGet(docs, q, now);
      }
      TablesExt(t', ReferenceTables(docs, now));
    } else {
      forall q
        ensures ReferenceBuckets(docs, q, now) == []
      {
      }
    }
  }

  /** The scan fails exactly when some document names an unknown programme,
      and the error names the first such document's programme. */
  lemma {:induction false} ScanFailsAtFirstUnknown(docs: seq<Doc>, now: int)
    ensures Scan(docs, now).Failure? <==> exists i :: 0 <= i < |docs| && !Known(docs[i])
    ensures Scan(docs, now).Failure? ==>
      exists k :: 0 <= k < |docs| && !Known(docs[k]) && (forall j :: 0 <= j < k ==> Known(docs[j]))
        && Scan(docs, now).error == UnknownProgramme(ProgrammeKey(docs[k]))
  {
    if docs != [] {
      var init := docs[..|docs| - 1];
      ScanFailsAtFirstUnknown(init, now);
      assert forall i :: 0 <= i < |init| ==> init[i] == docs[i];
    }
  }

  /** With no documents at all, all four snapshots are still produced,
      each with an empty subject list. */
  lemma BuildWithoutDocuments(now: int)
    ensures Build([], now).Success?
    ensures forall i :: 0 <= i < |Build([], now).value| ==> Build([], now).value[i].subjects == []
  {
  }

  /** A build succeeds exactly when every document names one of the four
      codes, upper-case; otherwise it reports the first offending value. */
  lemma BuildSucceedsIff(docs: seq<Doc>, now: int)
    ensures Build(docs, now).Success? <==> forall i :: 0 <= i < |docs| ==> Known(docs[i])
    ensures Build(docs, now).Failure? ==>
      exists k :: 0 <= k < |docs| && !Known(docs[k]) && (forall j :: 0 <= j < k ==> Known(docs[j]))
        && Build(docs, now).error == UnknownProgramme(ProgrammeKey(docs[k]))
  {
    ScanFailsAtFirstUnknown(docs, now);
  }

  /** The content of every snapshot of a successful build is the reference
      bucket list of its programme. */
  lemma BuildContents(docs: seq<Doc>, now: int)
    requires forall i :: 0 <= i < |docs| ==> Known(docs[i])
    ensures Build(docs, now).Success?
    ensures forall i :: 0 <= i < |Programmes| ==>
      Build(docs, now).value[i].subjects == ReferenceBuckets(docs, Programmes[i], now)
  {
    ScanIsReference(docs, now);
    forall q {
      ReferenceGet(docs, q, now);
    }
  }

  /** The subjects of a reference bucket list are distinct, and every
      bucket holds at least one entry. */
  lemma {:induction false} ReferenceBucketsWellFormed(docs: seq<Doc>, p: Programme, now: int)
    ensures DistinctSubjects(ReferenceBuckets(docs, p, now))
    ensures forall i :: 0 <= i < |ReferenceBuckets(docs, p, now)| ==> ReferenceBuckets(docs, p, now)[i].publications != []
  {
    var ss := FirstOccurrences(SubjectsIn(docs, p));
    FirstOccurrencesElements(SubjectsIn(docs, p));
    forall i | 0 <= i < |ss|
      ensures EntriesFor(docs, p, ss[i], now) != []
    {
      EntriesOfPresentSubject(docs, p, ss[i], now);
    }
  }

  lemma {:induction false} EntriesOfPresentSubject(docs: seq<Doc>, p: Programme, s: string, now: int)
    requires s in SubjectsIn(docs, p)
    ensures EntriesFor(docs, p, s, now) != []
  {
    if docs != [] {
      var d := docs[|docs| - 1];
      if !(InProgramme(d, p) && SubjectKey(d) == s) {
        EntriesOfPresentSubject(docs[..|docs| - 1], p, s, now);
      }
    }
  }

  /** Every document of a successful build is listed under its own
      programme and subject. */
  lemma {:induction false} EveryDocumentListed(docs: seq<Doc>, now: int, k: nat, p: Programme)
    requires forall i :: 0 <= i < |docs| ==> Known(docs[i])
    requires k < |docs| && InProgramme(docs[k], p)
    ensures Scan(docs, now).Success?
    ensures exists b :: (b in Scan(docs, now).value.Get(p)
      && b.subject == SubjectKey(docs[k]) && EntryOf(docs[k], now) in b.publications)
  {
    ScanIsReference(docs, now);
    var s := SubjectKey(docs[k]);
    ReferenceGet(docs, p, now);
    SubjectListed(docs, p, k);
    EntryListed(docs, p, now, k);
    FirstOccurrencesElements(SubjectsIn(docs, p));
    var ss := FirstOccurrences(SubjectsIn(docs, p));
    var j :| 0 <= j < |ss| && ss[j] == s;
    assert ReferenceBuckets(docs, p, now)[j] == Bucket(s, EntriesFor(docs, p, s, now));
  }

  lemma {:induction false} SubjectListed(docs: seq<Doc>, p: Programme, k: nat)
    requires k < |docs| && InProgramme(docs[k], p)
    ensures SubjectKey(docs[k]) in SubjectsIn(docs, p)
  {
    if k < |docs| - 1 {
      var init := docs[..|docs| - 1];
      assert init[k] == docs[k];
      SubjectListed(init, p, k);
    }
  }

  lemma {:induction false} EntryListed(docs: seq<Doc>, p: Programme, now: int, k: nat)
    requires k < |docs| && InProgramme(docs[k], p)
    ensures EntryOf(docs[k], now) in EntriesFor(docs, p, SubjectKey(docs[k]), now)
  {
    if k < |docs| - 1 {
      var init := docs[..|docs| - 1];
      assert init[k] == docs[k];
      EntryListed(init, p, now, k);
    }
  }

  function EntryCount(bs: seq<Bucket>): nat {
    if bs == [] then 0 else |bs[0].publications| + EntryCount(bs[1..])
  }

  function TableCount(t: Tables): nat {
    EntryCount(t.dp) + EntryCount(t.cp) + EntryCount(t.myp) + EntryCount(t.pyp)
  }

  lemma {:induction false} AddCount(bs: seq<Bucket>, s: string, e: Entry)
    ensures EntryCount(Add(bs, s, e)) == EntryCount(bs) + 1
  {
    if bs != [] && bs[0].subject != s {
      AddCount(bs[1..], s, e);
      assert Add(bs, s, e)[1..] == Add(bs[1..], s, e);
    } else if bs != [] {
      assert Add(bs, s, e)[1..] == bs[1..];
    }
  }

  /** A successful scan lists exactly as many entries as there are
      documents: none is dropped and none is listed twice. */
  lemma {:induction false} ScanCount(docs: seq<Doc>, now: int)
    requires Scan(docs, now).Success?
    ensures TableCount(Scan(docs, now).value) == |docs|
  {
    if docs != [] {
      var init := docs[..|docs| - 1];
      ScanCount(init, now);
      var d := docs[|docs| - 1];
      var t := Scan(init, now).value;
      var p := ParseProgramme(ProgrammeKey(d)).value;
      AddCount(t.Get(p), SubjectKey(d), EntryOf(d, now));
    }
  }
}

=== FILE: topicmenu.dfy ===
/** The publication's left-hand menu (`renderTopicItems`): one list item
    per topic, nested lists for children. The nested lists are flattened
    here into the document order of their items, each tagged with its
    nesting depth. The recursive renderer is checked against an
    explicit-stack traversal of the same tree. */
module TopicMenu {
  import opened Base
  import opened Envelopes
  import opened LastSeen

  datatype Item = Item(uri: string, title: string, highlighted: bool, depth: nat)

  datatype Menu = NoTopics | Items(items: seq<Item>)

  /** The number of topics in a forest, at every depth. */
  function Count(ts: seq<Topic>): nat
    decreases ts
  {
    if ts == [] then 0 else 1 + Count(ts[0].children) + Count(ts[1..])
  }

  /** The topics of a forest in document order: each topic, then its
      children's subtrees, then the following siblings. */
  function Preorder(ts: seq<Topic>): seq<Topic>
    decreases ts
  {
    if ts == [] then [] else [ts[0]] + Preorder(ts[0].children) + Preorder(ts[1..])
  }

  /** Context of one menu: the store and the publication's own timestamp. */
  datatype Context = Context(store: Store, publication: string, pubLastModified: Option<int>)

  function ItemOf(c: Context, t: Topic, depth: nat): Item {
    Item(t.uri, t.title, TopicHighlighted(c.store, c.publication, c.pubLastModified, t), depth)
  }

  function RenderItems(c: Context, ts: seq<Topic>, depth: nat): (r: seq<Item>)
    ensures |r| == Count(ts)
    ensures |r| == |Preorder(ts)|
    ensures forall i :: 0 <= i < |r| ==> r[i].uri == Preorder(ts)[i].uri && r[i].depth >= depth
    decreases ts
  {
    if ts == [] then []
    else [ItemOf(c, ts[0], depth)] + RenderItems(c, ts[0].children, depth + 1) + RenderItems(c, ts[1..], depth)
  }

  /** The menu: a message when there are no topics, otherwise the items. */
  function RenderMenu(c: Context, topics: Option<seq<Topic>>): (r: Menu)
    ensures r.NoTopics? <==> (topics.None? || topics.value == [])
    ensures r.Items? ==> |r.items| == Count(topics.value)
  {
    if topics.Some? && |topics.value| > 0 then Items(RenderItems(c, topics.value, 0)) else NoTopics
  }

  /** Every item shows the highlight decision for its own topic. */
  lemma {:induction false} ItemsHighlightTheirTopic(c: Context, ts: seq<Topic>, depth: nat)
    ensures forall i :: 0 <= i < |RenderItems(c, ts, depth)| ==>
      RenderItems(c, ts, depth)[i].highlighted
        == TopicHighlighted(c.store, c.publication, c.pubLastModified, Preorder(ts)[i])
    decreases ts
  {
    if ts != [] {
      ItemsHighlightTheirTopic(c, ts[0].children, depth + 1);
      ItemsHighlightTheirTopic(c, ts[1..], depth);
      var head := [ItemOf(c, ts[0], depth)];
      var kids := RenderItems(c, ts[0].children, depth + 1);
      var rest := RenderItems(c, ts[1..], depth);
      assert RenderItems(c, ts, depth) == head + kids + rest;
      assert Preorder(ts) == [ts[0]] + Preorder(ts[0].children) + Preorder(ts[1..]);
    }
  }

  /** While the publication is unchanged since last opened, no item is
      highlighted. */
  lemma {:induction false} SuppressedMenuHasNoHighlight(c: Context, ts: seq<Topic>, depth: nat)
    requires SkipTopicHighlight(c.store, c.publication, c.pubLastModified)
    ensures forall i :: 0 <= i < |RenderItems(c, ts, depth)| ==> !RenderItems(c, ts, depth)[i].highlighted
  {
    ItemsHighlightTheirTopic(c, ts, depth);
  }

  /** `list` shows topic `t` at position `j`, immediately followed by
      the listing of its subtree. */
  ghost predicate SubtreeAt(list: seq<Topic>, t: Topic, j: int) {
    0 <= j && j + 1 + |Preorder(t.children)| <= |list|
    && list[j] == t
    && list[j + 1..j + 1 + |Preorder(t.children)|] == Preorder(t.children)
  }

  lemma SubtreeAtShift(prefix: seq<Topic>, list: seq<Topic>, t: Topic, j: int)
    requires SubtreeAt(list, t, j)
    ensures SubtreeAt(prefix + list, t, |prefix| + j)
  {
    var n := |Preorder(t.children)|;
    assert (prefix + list)[|prefix| + j] == list[j];
    assert (prefix + list)[|prefix| + j + 1..|prefix| + j + 1 + n] == list[j + 1..j + 1 + n];
  }

  /** Every topic of a forest is listed at its place in document order,
      immediately followed by the listing of its own subtree; applied again
      to that subtree, this reaches every depth. */
  lemma {:induction false} SubtreeFollowsParent(ts: seq<Topic>, k: nat)
    requires k < |ts|
    ensures exists j :: SubtreeAt(Preorder(ts), ts[k], j)
  {
    var kids := Preorder(ts[0].children);
    var after := Preorder(ts[1..]);
    assert Preorder(ts) == [ts[0]] + kids + after;
    if k == 0 {
      assert ([ts[0]] + kids + after)[1..1 + |kids|] == kids;
      assert SubtreeAt(Preorder(ts), ts[0], 0);
    } else {
      SubtreeFollowsParent(ts[1..], k - 1);
      var j' :| SubtreeAt(after, ts[1..][k - 1], j');
      SubtreeAtShift([ts[0]] + kids, after, ts[k], j');
    }
  }

  // ---------------------------------------------------------------------
  // Explicit-stack traversal

  /** The items still owed for a stack of pending (topic, depth) pairs,
      top of the stack first. */
  function Pending(c: Context, stack: seq<(Topic, nat)>): seq<Item>
    decreases |stack|
  {
    if stack == [] then []
    else RenderItems(c, [stack[0].0], stack[0].1) + Pending(c, stack[1..])
  }

  function PendingCount(stack: seq<(Topic, nat)>): nat
    decreases |stack|
  {
    if stack == [] then 0 else Count([stack[0].0]) + PendingCount(stack[1..])
  }

  /** The pairs for a list of siblings at one depth, first sibling on top. */
  function Frames(ts: seq<Topic>, depth: nat): (r: seq<(Topic, nat)>)
    ensures |r| == |ts|
    ensures forall i :: 0 <= i < |ts| ==> r[i] == (ts[i], depth)
  {
    seq(|ts|, i requires 0 <= i < |ts| => (ts[i], depth))
  }

  lemma {:induction false} PendingAppend(c: Context, a: seq<(Topic, nat)>, b: seq<(Topic, nat)>)
    ensures Pending(c, a + b) == Pending(c, a) + Pending(c, b)
    decreases |a|
  {
    if a == [] {
      assert a + b == b;
    } else {
      assert (a + b)[0] == a[0];
      assert (a + b)[1..] == a[1..] + b;
      PendingAppend(c, a[1..], b);
    }
  }

  lemma {:induction false} PendingCountAppend(a: seq<(Topic, nat)>, b: seq<(Topic, nat)>)
    ensures PendingCount(a + b) == PendingCount(a) + PendingCount(b)
    decreases |a|
  {
    if a == [] {
      assert a + b == b;
    } else {
      assert (a + b)[0] == a[0];
      assert (a + b)[1..] == a[1..] + b;
      PendingCountAppend(a[1..], b);
    }
  }

  lemma {:induction false} PendingFrames(c: Context, ts: seq<Topic>, depth: nat)
    ensures Pending(c, Frames(ts, depth)) == RenderItems(c, ts, depth)
    ensures PendingCount(Frames(ts, depth)) == Count(ts)
    decreases |ts|
  {
    if ts != [] {
      assert Frames(ts, depth)[1..] == Frames(ts[1..], depth);
      PendingFrames(c, ts[1..], depth);
      assert RenderItems(c, [ts[0]], depth) == [ItemOf(c, ts[0], depth)] + RenderItems(c, ts[0].children, depth + 1)
        by { assert [ts[0]][1..] == []; }
      assert Count([ts[0]]) == 1 + Count(ts[0].children) by { assert [ts[0]][1..] == []; }
    }
  }

  /** A one-frame stack owes the frame's topic and then its children's
      frames. */
  lemma PendingSingle(c: Context, t: Topic, d: nat)
    ensures Pending(c, [(t, d)]) == [ItemOf(c, t, d)] + Pending(c, Frames(t.children, d + 1))
  {
    PendingFrames(c, t.children, d + 1);
    assert [(t, d)][1..] == [];
    assert [t][1..] == [];
    assert Pending(c, [(t, d)]) == RenderItems(c, [t], d) + Pending(c, []);
    assert RenderItems(c, [t], d) == [ItemOf(c, t, d)] + RenderItems(c, t.children, d + 1);
  }

  /** Popping a topic emits its item and leaves its children's frames on
      top of the rest of the stack, with one topic fewer owed. */
  lemma PopStep(c: Context, t: Topic, d: nat, rest: seq<(Topic, nat)>)
    ensures Pending(c, [(t, d)] + rest) == [ItemOf(c, t, d)] + Pending(c, Frames(t.children, d + 1) + rest)
    ensures PendingCount(Frames(t.children, d + 1) + rest) < PendingCount([(t, d)] + rest)
  {
    PopItems(c, t, d, rest);
    PopCount(c, t, d, rest);
  }

  lemma PopItems(c: Context, t: Topic, d: nat, rest: seq<(Topic, nat)>)
    ensures Pending(c, [(t, d)] + rest) == [ItemOf(c, t, d)] + Pending(c, Frames(t.children, d + 1) + rest)
  {
    PendingAppend(c, [(t, d)], rest);
    PendingAppend(c, Frames(t.children, d + 1), rest);
    PendingSingle(c, t, d);
  }

  lemma PopCount(c: Context, t: Topic, d: nat, rest: seq<(Topic, nat)>)
    ensures PendingCount(Frames(t.children, d + 1) + rest) < PendingCount([(t, d)] + rest)
  {
    PendingCountAppend([(t, d)], rest);
    PendingCountAppend(Frames(t.children, d + 1), rest);
    PendingFrames(c, t.children, d + 1);
    assert [(t, d)][1..] == [];
    assert [t][1..] == [];
    assert PendingCount([(t, d)]) == Count([t]) + PendingCount([]);
    assert Count([t]) == 1 + Count(t.children);
  }

  /** The menu items computed with an explicit stack instead of recursion:
      pop a topic, emit its item, push its children. */
  method RenderWithStack(c: Context, topics: seq<Topic>) returns (items: seq<Item>)
    ensures items == RenderItems(c, topics, 0)
    ensures |items| == Count(topics)
  {
    var stack := Frames(topics, 0);
    items := [];
    PendingFrames(c, topics, 0);
    while stack != []
      invariant items + Pending(c, stack) == RenderItems(c, topics, 0)
      decreases PendingCount(stack)
    {
      var t := stack[0].0;
      var d := stack[0].1;
      var rest := stack[1..];
      assert stack == [(t, d)] + rest;
      PopStep(c, t, d, rest);
      items := items + [ItemOf(c, t, d)];
      stack := Frames(t.children, d + 1) + rest;
    }
  }
}
